=== FILE: README.md ===
# Modular product planning: default/override reconciliation and GA data path

This project models two halves of a small planning application, and proves
properties of the model in Dafny.

- **Browser side.** A React page holds one pairwise *interaction degree* and one
  *information flow* value for each ordered pair of the twelve modules. Each
  kind has three layers. The global default fans out to the per-module
  defaults. Each per-module default fans out to the popup values of that
  module's predecessor edges. Values submitted in a popup become custom
  overrides, and a uniform submission can collapse back into the module
  default. At run time the page flattens all of this into one
  `"Module p-Module s"` matrix. The model covers:
  - every handler as one atomic state transition;
  - the two popup components with their local working copies;
  - the matrix flattening, with its `||` fallbacks.
- **Server side.** The Python backend:
  - turns the spreadsheet rows into module profiles, feasibility rows and a
    dependency list (`preprocess_data`);
  - caches them (`ensure_data_preprocessed`);
  - parses the posted matrices back into a 12 x 12 table (`prepare_matrix`).
  - The genetic algorithm uses four deterministic pieces: the topological
    sort, the resource-availability scan, elite parent selection, and the
    per-family product choice.
  - `main.py` converts the run parameters and appends a cost to each module of
    the best schedule before reporting.

The two halves meet in `Backend.MatrixArrivesIntact`. It states that the matrix
the page builds, serialized under its edge keys and parsed by
`prepare_matrix`, gives back every off-diagonal value, and leaves `'-'` on the
diagonal.

Modelling conventions:
- Modules are numbers `1..12` and edges are `Edge(pred, succ)`. The textual key
  is modelled separately (`EdgeKeys`), together with its parse and a
  round-trip lemma.
- A front-end value is `Empty` (the `''` an emptied input produces) or
  `Num(x)`. JavaScript truthiness (`Empty` and `Num(0)` are falsy) is made
  explicit, and so is the `|| {}` / `|| []` treatment of a missing key.
- Python exceptions are the `Err` side of a `Result`. The model raises the
  exception class (`IndexError`, `KeyError`, `TypeError`, `ValueError`,
  `AttributeError`) that the source raises on the same input.
- A React closure that reads state captured when a popup was opened (the
  `popupValues` and `dependencies` that `handlePopupSubmit` reads) becomes an
  explicit snapshot parameter.

Where the code and its description differ, the model follows the code:
- **Uniform submission.** A popup submission whose values are all the same
  number is still flagged custom (App.js:156). Only an all-empty submission
  is not. `Handlers.IsCustomMeaning` states this exactly.
- **Reseeding.** The reseeding effect (App.js:64-88) depends on the
  dependency map and on both defaults objects (App.js:88). It runs when the
  dependencies arrive, and again after every handler that replaces a
  defaults object: a module-default edit, a global-default edit, and a popup
  submission that collapses to a new default. Whenever dependencies are
  present, it rewrites every popup entry of both kinds from the module
  defaults. This discards earlier popup submissions from the popup view,
  even of the kind that was not edited (`Handlers.DefaultEditResetsPopups`).
  The custom overrides themselves are kept.
- **Reported cost.** `main.py` reports an outsourced module's crash cost as
  linear in the crash periods (main.py:46). The fitness function charges it
  quadratically (genetic_algorithm.py:175). `MainRun.ReportedCostMatchesFitness`
  proves exactly when the two agree:
  - the module is in house;
  - or zero or one periods are crashed;
  - or the supplier's crash cost is zero.

## Model

| member | source | states |
|---|---|---|
| AppState.Init | frontend/my-ga-app/src/App.js:21-39 | the page starts with global defaults of 20 for interaction and 0 for information, per-module defaults of the same values for every catalog module, no dependencies, no custom overrides, no popup values and no custom flags |
| AppState.FromCatalog | frontend/my-ga-app/src/App.js:22-24 | `Object.fromEntries(modules.map(...))` gives every one of the twelve modules, and only those, the same value |
| Handlers.FanOut | frontend/my-ga-app/src/App.js:100-103 | after the loop every predecessor edge of the module holds the new value and every other entry of the popup is untouched |
| Handlers.UpdatePopupValues | frontend/my-ga-app/src/App.js:90-107 | only the module's own popup entry changes (created if missing), it is fanned out over the module's predecessors, and defaults, overrides and flags are untouched |
| Handlers.CheckAndUpdateDefault | frontend/my-ga-app/src/App.js:109-119 | the global default becomes the common value exactly when the per-module defaults hold one single value, otherwise it is kept |
| Handlers.SetModuleDefault | frontend/my-ga-app/src/App.js:121-139 | changing one module's default updates that default, fans it out to its popup and moves the global default only when all module defaults now agree on the new value |
| Handlers.Fans | frontend/my-ga-app/src/App.js:193-196 | the per-module popup updates issued by the global change cover exactly modules 1..k, each fanned out from its previous entry |
| Handlers.SetGlobalDefault | frontend/my-ga-app/src/App.js:186-210 | a global change sets the global and every catalog module's default to the value, fans it out into every catalog popup, keeps entries outside the catalog, and leaves the overrides alone |
| Handlers.IsCustomMeaning | frontend/my-ga-app/src/App.js:153-156 | a submission counts as custom exactly when it holds two different values or is uniform at a value other than the empty string |
| Handlers.TheValue | frontend/my-ga-app/src/App.js:171 | `uniqueValues.values().next().value` of a one-element set is the unique value every entry holds |
| Handlers.Single | frontend/my-ga-app/src/App.js:155 | the set of submitted values has size one exactly when some value is held by every entry, and that value is the one returned |
| Handlers.CustomFlag | frontend/my-ga-app/src/App.js:156 | the computed flag is true exactly when the submission is custom in the sense above |
| Handlers.Collapse | frontend/my-ga-app/src/App.js:166-183 | a uniform submission raises when the dependency list captured at open has no entry for the module; otherwise the module default becomes the uniform value exactly when the merged popup has one key per dependency, and nothing else changes |
| Handlers.RecordSubmission | frontend/my-ga-app/src/App.js:142-164 | the submitted values replace the popup entry, win over earlier overrides while every other override stays, and the module's custom flag is set to the custom meaning of the submission, other flags kept |
| Handlers.SubmitPopup | frontend/my-ga-app/src/App.js:141-184 | the popup entry, the merged overrides and the custom flag are always recorded; the missing-dependencies error is thrown exactly in the collapse case above, and then the defaults stay as they were; otherwise the default collapses as stated; every module default stays present |
| Handlers.SeedEntry | frontend/my-ga-app/src/App.js:72-76 | the seeded popup of a module holds exactly its predecessor edges, each at the module's default |
| Handlers.SeedPopups | frontend/my-ga-app/src/App.js:66-84 | after reseeding, every catalog module's popup is exactly its predecessor edges at its default, and nothing but the popups changes |
| Handlers.ReseedAfter | frontend/my-ga-app/src/App.js:64-88 | after a handler replaced one kind's record, the effect keeps every field but the popups as the handler left them; with no dependencies known it changes nothing, and otherwise both kinds' popups are rebuilt from their defaults |
| Handlers.Reseed | frontend/my-ga-app/src/App.js:64-88 | the effect does nothing while no dependencies are known, and otherwise reseeds both kinds from their defaults |
| Handlers.DependenciesArrived | frontend/my-ga-app/src/App.js:43-62 | a successful fetch installs the delivered dependencies, a failed one leaves the state alone, neither touches defaults or overrides, and the state stays well formed |
| Handlers.OnModuleDefaultChange | frontend/my-ga-app/src/App.js:121-139 | a module-default edit of one kind makes the default, global and override changes `SetModuleDefault` states, and leaves the other kind's defaults and overrides alone; the reseed effect then runs (App.js:64-88): with no dependencies the handler's popup update stands and the other kind is untouched, and otherwise the popups of both kinds are rebuilt from their defaults |
| Handlers.OnGlobalDefaultChange | frontend/my-ga-app/src/App.js:186-210 | a global-default edit of one kind makes the changes `SetGlobalDefault` states to that kind, and is followed by the reseed effect exactly as for a module-default edit |
| Handlers.CollapsedMeans | frontend/my-ga-app/src/App.js:166-171 | the collapse test passes exactly when some value collapses the submission |
| Handlers.OnPopupSubmit | frontend/my-ga-app/src/App.js:141-184 | the submit handler passed to the popup (App.js:234) throws exactly when `SubmitPopup` does and keeps the updates made before the throw; a collapsing submission replaces the defaults object, so the reseed effect then runs as after a default edit, and any other submission changes only the submitted kind; the overrides of both kinds are what `SubmitPopup` leaves either way |
| Handlers.UpdateAllPopupValues | frontend/my-ga-app/src/App.js:193-196 | the twelve `updatePopupValues` calls of a global change fan out every catalog module's popup entry and keep the entries outside the catalog, defaults, overrides and flags |
| Handlers.DefaultEditResetsPopups | frontend/my-ga-app/src/App.js:64-88 | once dependencies are known, after a module-default edit of either kind, every module's popup entry of both kinds holds exactly its predecessor edges, each at the module's default: earlier popup submissions are discarded |
| Handlers.ReseededBothKinds | frontend/my-ga-app/src/App.js:64-88 | after the effect with dependencies known, the popups of both kinds are the seeded ones |
| Handlers.SeededShowsDefault | frontend/my-ga-app/src/App.js:72-82 | a seeded popup entry holds exactly the module's predecessor edges, each at the module's default |
| InteractionMatrix.Cell | frontend/my-ga-app/src/App.js:312-316 | a matrix cell is the custom override when truthy, else the predecessor module's default when truthy, else 0, where `JsValues.Truthy` counts `''` and `0` as falsy and `JsValues.Get` reads a missing key as `undefined` |
| JsValues.Get | frontend/my-ga-app/src/App.js:93 | a present key reads its value, and a missing key reads as a falsy value, as `undefined` does |
| JsValues.Or | frontend/my-ga-app/src/App.js:312-316 | `a || b` is truthy exactly when either side is, and is `a` when `a` is truthy and `b` otherwise |
| InteractionMatrix.BuildMatrix | frontend/my-ga-app/src/App.js:306-321 | the flattened matrix has exactly the 132 off-diagonal pairs as keys, each resolved by the three-step fallback |
| InteractionMatrix.GlobalDefaultReachesMatrix | frontend/my-ga-app/src/App.js:186-210 | after a truthy global default is set, every pair without a truthy override carries that value into the request matrix |
| InteractionMatrix.SubmittedValueReachesMatrix | frontend/my-ga-app/src/App.js:148 | a truthy value submitted for a pair is the value the request matrix carries for it, even when the submission then throws or reseeds the popups |
| InteractionMatrix.ZeroCustomFallsThrough | frontend/my-ga-app/src/App.js:315 | an override of 0 is falsy, so the cell is the same as if the override were absent |
| PopupContent.Open | frontend/my-ga-app/src/App.js:212-239 | opening a popup captures the kind's current popup entry for the module and the dependencies, and the working copy starts equal to that entry |
| PopupContent.Resync | frontend/my-ga-app/src/PopupContent.js:16-18 | a change of the popup prop replaces the working copy with the new entry |
| PopupContent.Parse | frontend/my-ga-app/src/PopupContent.js:26-31 | an emptied input becomes the empty string, and any other input becomes its number |
| PopupContent.EditInput | frontend/my-ga-app/src/PopupContent.js:26-31 | an edit sets exactly one key of the working copy and leaves every other key as it was |
| PopupContent.RowsFor | frontend/my-ga-app/src/PopupContent.js:98-114 | one row per predecessor, in dependency order, each showing the working value of its edge or empty when absent |
| PopupContent.Rendered | frontend/my-ga-app/src/PopupContent.js:98-114 | the popup lists exactly the module's predecessor edges, in order, each with its working value, empty when absent |
| PopupContent.Submit | frontend/my-ga-app/src/PopupContent.js:20-24 | submitting hands the working copy to the parent handler: every submitted edge becomes an override and no override of either kind is lost, whether or not the handler throws; without a collapse the popup entry becomes the working copy and the other kind is untouched, and a collapse with dependencies known reseeds the popups of both kinds; a throw means the module had no dependency entry and leaves the defaults alone |
| PopupContent.SubmitFacts | frontend/my-ga-app/src/App.js:141-184 | the submit keeps every override of both kinds, and a collapse with dependencies known leaves both kinds' popups seeded |
| PopupContent.Run | frontend/my-ga-app/src/PopupContent.js:14-31 | a popup window's events keep the state well formed and the dependencies as they were, never lose an override, and change the state only if the form was submitted |
| PopupContent.LocalAfter | frontend/my-ga-app/src/PopupContent.js:14-31 | edits and prop changes keep the popup's kind, module and captured dependencies |
| PopupContent.NoSubmitNoChange | frontend/my-ga-app/src/PopupContent.js:20-31 | any sequence of edits, prop changes and closes without a submit leaves the application state unchanged |
| PopupContent.SubmitHandsWorkingCopy | frontend/my-ga-app/src/PopupContent.js:20-24 | after edits and prop changes, a submit sends exactly the working copy those events produced |
| PopupContent.FailedSubmitKeepsWindowOpen | frontend/my-ga-app/src/PopupContent.js:20-24 | a submit that throws skips `closeWindow()`, so the window stays open and the events after it act on the App state the failed submit left |
| PopupContent.OpenAfterReseedShowsDefault | frontend/my-ga-app/src/App.js:64-88 | once reseeded, a freshly opened popup shows the module's default on every row |
| AdoptionRate.Init | frontend/my-ga-app/src/App.js:35 | the adoption rates start as nine zeros, not marked as changed |
| AdoptionRate.Open | frontend/my-ga-app/src/AdoptionRatePopup.js:4 | the popup's working copy starts as the current rates |
| AdoptionRate.Resync | frontend/my-ga-app/src/AdoptionRatePopup.js:6-8 | a prop change replaces the working copy |
| AdoptionRate.ParseRate | frontend/my-ga-app/src/AdoptionRatePopup.js:10-14 | `parseFloat` of an emptied input is NaN, and of a number is that number |
| AdoptionRate.EditRate | frontend/my-ga-app/src/AdoptionRatePopup.js:10-14 | an edit changes exactly one position and keeps the length |
| AdoptionRate.Submit | frontend/my-ga-app/src/AdoptionRatePopup.js:16-20 | submitting installs the working copy as the rates and, through `closeWindow(true)` (App.js:254-257), marks them as changed |
| AdoptionRate.SubmitIdempotent | frontend/my-ga-app/src/AdoptionRatePopup.js:16-20 | the outcome of a submit depends only on the working copy: submitting the same copy again changes nothing |
| AdoptionRate.NoSubmitNoChange | frontend/my-ga-app/src/AdoptionRatePopup.js:10-20 | without a submit, the rates and the changed flag are untouched |
| AdoptionRate.RunKeepsLength | frontend/my-ga-app/src/AdoptionRatePopup.js:10-20 | edits and submits never change the number of rates when every prop change has that length |
| AdoptionRate.Run | frontend/my-ga-app/src/AdoptionRatePopup.js:10-20 | an editor session either leaves the rates and flag as they were or sets the changed flag, and changes something only if the form was submitted |
| AdoptionRate.InitialSessionKeepsNine | frontend/my-ga-app/src/App.js:35 | starting from the initial nine rates, any session of nine-long prop changes keeps nine rates |
| EdgeKeys.ModuleName | frontend/my-ga-app/src/App.js:8-12 | module `n` is named `"Module "` followed by its decimal digits |
| EdgeKeys.ParseModule | backend/app.py:39-40 | reading the number out of a module name raises `IndexError` exactly when the name has no space, otherwise reads the second space-separated piece as `int()` does, and gives a natural number when the name has no `-` |
| EdgeKeys.ParseKey | backend/app.py:38-40 | a key that does not split into exactly two pieces at `-` raises `ValueError`; otherwise the key parses exactly when both module names do, into the edge of their numbers |
| EdgeKeys.NoSeparatorInDecimal | backend/app.py:38 | a module number's digits never contain a separator character, so the split sees exactly one `-` |
| EdgeKeys.ParseModuleName | backend/app.py:39-40 | reading a module name gives back its number |
| EdgeKeys.ParseEdgeKey | backend/app.py:38-40 | parsing the key the page writes for an edge gives back that edge |
| EdgeKeys.EdgeKeyInjective | frontend/my-ga-app/src/App.js:311 | distinct edges get distinct keys |
| Backend.Grid | backend/app.py:34 | the `'-'` frame is indexed by exactly the pairs in `1..n` |
| Backend.Blank | backend/app.py:34 | the fresh frame has every cell of the grid at `'-'` and nothing else |
| Backend.Fill | backend/app.py:37-41 | writing the entries in order succeeds exactly when every key parses, the error is the one the first failing key raised, and each cell holds the last value posted to it or its old content |
| Backend.PrepareMatrix | backend/app.py:32-43 | the table exists exactly when every key parses, the error is the first failing key's, the table covers the whole grid, adds only cells some key names, and each cell is the last value posted to it or `'-'` |
| Backend.UnnamedCellsStayDash | backend/app.py:34-41 | a grid cell no key names stays `'-'` |
| Backend.SerializedTable | backend/app.py:32-43 | parsing serialized entries for grid edges gives exactly the grid, with each listed edge at its value and the rest at `'-'` |
| Backend.MatrixArrivesIntact | backend/app.py:56-57 | the matrix the page builds arrives as a 12 x 12 table holding the page's value at every off-diagonal cell and `'-'` on the diagonal |
| Backend.EnsurePreprocessed | backend/app.py:23-29 | a filled cache is returned as is; an empty one is filled from the preprocessing result, or left empty when preprocessing raises |
| Backend.PrepareRequest | backend/app.py:55-57 | the request is accepted exactly when both matrices' keys parse, with module numbers read as `int()` reads them; the two tables are then the interaction and information matrices prepared at size 12, each covering the grid with every named cell at its last posted value; the interaction matrix is prepared first, so when its keys fail its first failing key's error is raised, and otherwise the information matrix's |
| Backend.RequestArrivesIntact | backend/app.py:55-57 | the two matrices the page posts are accepted, and reach the optimisation as 12 x 12 tables holding the page's value at every off-diagonal cell and `'-'` on the diagonal |
| Backend.Serialize | frontend/my-ga-app/src/App.js:306-321 | the posted matrix lists, in order, one entry per edge under the key `Module p-Module m` with the edge's value |
| Backend.CacheIsStable | backend/app.py:23-29 | once a call has filled the cache, every later call returns it unchanged, whatever the sheets hold by then |
| Profiles.TypeOf | backend/data_processing.py:33 | modules numbered up to 6 are in house, and every other module is outsourced |
| Profiles.FirstCrashRow | backend/data_processing.py:35 | `.iloc[0]` of the module's crash rows is the first row for the module, and raises `IndexError` exactly when there is none |
| Profiles.RowTail | backend/data_processing.py:40-41 | `iloc[module-1, 1:]` is the row past its label, and raises exactly when the sheet is too short |
| Profiles.CostCell | backend/data_processing.py:39 | `iloc[module-1, 1]` is the second cell of the module's row, and raises exactly when it is missing |
| Profiles.InhouseProfile | backend/data_processing.py:33-41 | an in-house profile takes its crash allowance, crash cost and duration from the first crash row and its cost and resource series from the sheets, and fails exactly when one of those is missing |
| Profiles.InitialProfilesUpTo | backend/data_processing.py:32-43 | the loop gives modules 1..k their type, in-house profiles from the sheets and outsourced stubs, and raises exactly when some in-house module's sheets are short |
| Profiles.InitialProfiles | backend/data_processing.py:18-43 | the twelve profiles are in house exactly for modules 1..6 |
| Suppliers.CellInt | backend/data_processing.py:48-49 | `int()` of a sheet cell truncates a number toward zero and raises `ValueError` for the NaN of a blank cell |
| Suppliers.ReadRow | backend/data_processing.py:47-53 | a row is read exactly when its module and supplier cells are numbers, which are truncated, and its other fields are kept as they are |
| Suppliers.ReadRows | backend/data_processing.py:47-53 | the sheet is read exactly when every row is, row by row in order, and any failure is `ValueError` |
| Suppliers.WholeRowsRead | backend/data_processing.py:47-53 | a sheet whose module and supplier cells hold whole numbers reads back to the rows it writes |
| Suppliers.Find | backend/data_processing.py:59-60 | the supplier search finds an entry exactly when the id is listed, and the entry found has that id |
| Suppliers.Upsert | backend/data_processing.py:58-68 | a known supplier is overwritten in place and an unknown one appended, so the id list grows only by new ids and lookup of any other id is unchanged |
| Suppliers.Record | backend/data_processing.py:47-68 | one row changes only its own module's supplier list, starting it when the module is new |
| Suppliers.ModulesOf | backend/data_processing.py:48 | the modules of the outsourced sheet, after `int()`, are exactly those some row names |
| Suppliers.BuildOutsourceProfile | backend/data_processing.py:46-68 | the outsource profile has exactly the modules the sheet names |
| Suppliers.FirstSeen | backend/data_processing.py:67-68 | the reference list has the same ids as the sheet, each once |
| Suppliers.SupplierOrder | backend/data_processing.py:55-68 | each module's supplier ids are unique and in the order each was first seen in the sheet |
| Suppliers.LastRowWins | backend/data_processing.py:59-66 | the figures kept for a supplier are those of the last row naming that module and supplier |
| Suppliers.MergeModule | backend/data_processing.py:72-76 | merging replaces supplier, duration, cost, crash allowance and crash cost by the per-supplier columns, position by position, and keeps type and resource series |
| Suppliers.Merge | backend/data_processing.py:71-76 | the merge raises `KeyError` exactly when the sheet names a module outside the profile, and otherwise merges exactly the named modules |
| Feasibility.FeasibleRow | backend/data_processing.py:83-88 | a period is marked 1 exactly when availability covers utilisation and 0 otherwise, one mark per availability entry, and a shorter utilisation series raises `IndexError` |
| Feasibility.AlwaysFeasible | backend/data_processing.py:90 | an outsourced module is feasible in all 156 periods |
| Feasibility.FeasibleFor | backend/data_processing.py:81-90 | an in-house module's row is its resource comparison, and an outsourced module's is all ones |
| Feasibility.FeasibleSetUpTo | backend/data_processing.py:79-90 | the feasible set covers modules 1..k with each module's row, and raises exactly when some module's row does |
| Feasibility.FeasibleSet | backend/data_processing.py:79-90 | the feasible set covers exactly the twelve modules |
| Dependencies.RowIndex | backend/data_processing.py:95 | a row label's number is `int()` of the label with `M` stripped from both ends, refused with `ValueError` only when it does not parse or, with a `-` in the label, is negative |
| Dependencies.LabelSignFromName | backend/data_processing.py:95 | a label without `-` reads as a number that is not negative |
| Dependencies.Indices | backend/data_processing.py:95 | each precedence row's number is `int` of its label with the `M` stripped |
| Dependencies.AddCells | backend/data_processing.py:96-98 | scanning a row appends its number to the list of every column it marks, and raises `KeyError` exactly when a marked column is outside the frame |
| Dependencies.AddRows | backend/data_processing.py:93-98 | the dependency table has one list per column, and fails only with `ValueError` or `KeyError` |
| Dependencies.BuildDependencies | backend/data_processing.py:92-98 | the dependency dictionary has one entry per precedence column |
| Dependencies.ColumnPreds | backend/data_processing.py:94-98 | a column's reference list holds exactly the numbers of the rows that mark it |
| Dependencies.BuildSucceeds | backend/data_processing.py:93-98 | the build succeeds exactly when every label parses and every mark lies inside the columns |
| Dependencies.SheetRowsNeverMissColumns | backend/data_processing.py:93-98 | when every row has one cell per column, as a DataFrame row does, the build fails exactly on a label that does not parse, and only with `ValueError` |
| Dependencies.BuildFailsOnLabel | backend/data_processing.py:93-98 | when every mark lies inside the columns, the only error the build can raise is `ValueError` |
| Dependencies.BuildIsColumnwise | backend/data_processing.py:94-98 | the built list of each column is that column's reference list |
| Dependencies.DependencyMembership | backend/data_processing.py:94-98 | `p` is a predecessor of column `j` exactly when some row labelled `p` marks column `j` |
| Dependencies.ColumnOfBuild | backend/data_processing.py:94-98 | on a sheet that builds, every label parses and each built list is its column read down the rows |
| Dependencies.BuildIsAddRows | backend/data_processing.py:93-98 | the build is the row-by-row loop over the parsed labels, whose only parse error is `ValueError` |
| Dependencies.MarkedByName | backend/data_processing.py:95-98 | a row marks `p` in the parsed column exactly when its label reads `p` and it has a 1 there |
| Dependencies.ColumnDistinct | backend/data_processing.py:94-98 | distinct row numbers give a column list without repeats |
| Dependencies.DistinctRowsGiveDistinctPreds | backend/data_processing.py:92-98 | distinct row labels give predecessor lists without repeats |
| Preprocess.MergeSheet | backend/data_processing.py:45-76 | the supplier sheet is merged exactly when it names only known modules, and the module set stays the same |
| Preprocess.MergedSuppliers | backend/data_processing.py:72 | a named module's supplier list is the sheet's ids, first-seen order, without repeats, and an unnamed module is unchanged |
| Preprocess.MergedFields | backend/data_processing.py:73-76 | each merged column holds, at a supplier's position, the figures of the last row for that supplier |
| Preprocess.BuildProfiles | backend/data_processing.py:18-76 | the profiles are the twelve modules, in house exactly for 1..6; when the in-house sheets are complete, they exist exactly when every supplier row reads and names a module of 1..12, and are then the merge of those rows |
| Preprocess.PreprocessData | backend/data_processing.py:16-100 | the call succeeds exactly when the profiles, their feasibility rows and the dependency lists all build, returns exactly those three, raises the first failing step's error, and the result holds twelve profiles typed by number, a feasible row per module (all ones for outsourced) and a dependency list per column |
| TopoSort.SourcesUpTo | backend/genetic_algorithm.py:97 | the initial queue holds exactly the modules without predecessors, in increasing order |
| TopoSort.InitialQueue | backend/genetic_algorithm.py:92-97 | each in-degree is the length of the module's predecessor list and the queue starts with the sources |
| TopoSort.NotAnOrder | backend/genetic_algorithm.py:108-111 | when the queue runs dry early, no sequence can be a topological order |
| TopoSort.StuckBlocksEveryOrder | backend/genetic_algorithm.py:108-111 | a blocked set of unemitted modules rules out every topological order |
| TopoSort.Visit | backend/genetic_algorithm.py:103-106 | visiting one successor decrements its in-degree and queues it exactly when that reaches zero |
| TopoSort.Release | backend/genetic_algorithm.py:100-106 | popping a node and releasing its successors keeps the Kahn invariant and only appends to the order |
| TopoSort.KahnSorted | backend/genetic_algorithm.py:108-109 | a full-length order produced by the loop is a topological order that starts with the sources |
| TopoSort.KahnStuck | backend/genetic_algorithm.py:110-111 | a short order rules out every topological order when predecessor lists have no repeats |
| TopoSort.TopologicalSort | backend/genetic_algorithm.py:91-111 | a returned order places every module after all its predecessors and starts with the sources; the cycle answer means no order exists when predecessor lists have no repeats |
| ResourceCheck.EndPeriod | backend/genetic_algorithm.py:69 | `int(start_period + duration)` truncates toward zero: the last period is the largest whole number not above a non-negative sum, and the smallest not below a negative one |
| ResourceCheck.CheckResourceAvailability | backend/genetic_algorithm.py:68-73 | an empty window answers true without looking up the module; otherwise a module without a row raises `KeyError`, and for one with a row the answer is true exactly when every period of the window reads a nonzero entry, false exactly when the scan meets a zero first, and it raises exactly when the scan leaves the row first |
| ResourceCheck.OnlyOneOutcome | backend/genetic_algorithm.py:69-72 | the first period that is not open decides the outcome, and no other period can |
| ResourceCheck.NoStop | backend/genetic_algorithm.py:69-73 | when every period is open, the scan neither stops nor raises |
| ResourceCheck.WindowInsideRow | backend/genetic_algorithm.py:69-71 | for a window inside the row, availability is that every entry from `start-1` to `end-1` is nonzero, and nothing raises |
| Selection.Zip | backend/genetic_algorithm.py:189 | `zip` pairs each score with its individual, up to the shorter length |
| Selection.Insert | backend/genetic_algorithm.py:189 | inserting adds exactly the one pair |
| Selection.InsertSorted | backend/genetic_algorithm.py:189 | inserting into a descending list keeps it descending |
| Selection.SortDesc | backend/genetic_algorithm.py:189 | the sort is a descending permutation of the pairs |
| Selection.Split | backend/genetic_algorithm.py:190 | the slice takes the first `k` sorted pairs and the rest are what is left |
| Selection.SplitIsElite | backend/genetic_algorithm.py:188-190 | the selected pairs are a sorted prefix and no unselected pair scores higher than a selected one |
| Selection.Individuals | backend/genetic_algorithm.py:189 | dropping the scores keeps the individuals in order |
| Selection.SelectParents | backend/genetic_algorithm.py:186-192 | the parents are the individuals of an elite half of the population by score, `len // 2` of them when every individual has a score |
| Selection.FirstMax | backend/genetic_algorithm.py:143 | `max` with a key returns the first product of maximal profit |
| Selection.Choose | backend/genetic_algorithm.py:139-145 | a family's choice is its first most profitable product, with that product's profit and launch time |
| Selection.FamilySelection | backend/genetic_algorithm.py:130-149 | one choice per family in family order, and the total is their sum, which no other combination of one product per family exceeds |
| MainRun.ToInt | backend/main.py:22 | `int()` truncates a number toward zero, reads text as Python reads an integer literal, and raises `TypeError` for `None` and `ValueError` for text that is not one |
| MainRun.DigitsOrZero | backend/main.py:23-24 | one side of a decimal point may be empty and reads as zero |
| MainRun.ReadParts | backend/main.py:23-24 | text without a point reads as an integer, and more than one point raises `ValueError` |
| MainRun.ParseUnsignedReal | backend/main.py:23-24 | text without a point is read as an integer, and any failure is `ValueError` |
| MainRun.ToReal | backend/main.py:23-24 | `float()` keeps a number, reads signed decimal text, and raises `TypeError` for `None` and `ValueError` for other text |
| MainRun.Field | backend/main.py:22-25 | a missing parameter raises `KeyError` |
| MainRun.IntField | backend/main.py:22-25 | `int(input_params[name])` raises `KeyError` for a missing parameter and otherwise converts it as `int()` does |
| MainRun.RealField | backend/main.py:23-24 | `float(input_params[name])` raises `KeyError` for a missing parameter and otherwise converts it as `float()` does |
| MainRun.ConvertParams | backend/main.py:22-25 | the four parameters convert exactly when each is present and readable, to the values of `int`/`float`, with a missing population reported first |
| MainRun.IntTextRoundTrip | backend/main.py:22 | `int()` of a written integer, with or without a minus sign, gives it back |
| MainRun.RealTextRoundTrip | backend/main.py:23 | `float()` of `w.f` gives `w` plus `f` scaled by its digit count |
| MainRun.InitialParamsConvert | frontend/my-ga-app/src/App.js:15-20 | the page's initial parameters convert to population 100, mutation 0.1, crossover 0.5 and 50 generations |
| MainRun.Number | backend/main.py:43 | arithmetic on `None` raises `TypeError`, and an integer or float is its value |
| MainRun.InhouseCost | backend/main.py:41-43 | an in-house module costs its base plus its crash cost times the square of the crashed periods, and raises when a field is missing or of the wrong shape |
| MainRun.SupplierItem | backend/main.py:45 | indexing a per-supplier list by `supplier - 1` uses Python indexing, and a missing or non-integer supplier raises `TypeError` |
| MainRun.OutsourcedCost | backend/main.py:44-46 | an outsourced module costs its supplier's price plus the supplier's crash cost times the crashed periods, and a short entry or a missing supplier raises |
| MainRun.ModuleCost | backend/main.py:39-46 | an unknown module raises `KeyError`, and the cost formula is chosen by the module's type |
| MainRun.AppendCosts | backend/main.py:39-47 | every entry of the best schedule gets its cost appended, order and keys kept, or the loop raises the first failing entry's error |
| MainRun.DropCosts | backend/main.py:47 | dropping the appended cells keeps the keys and order |
| MainRun.CostsDropBack | backend/main.py:39-47 | removing the appended cost gives back the schedule the algorithm returned |
| MainRun.ReportedCostMatchesFitness | backend/genetic_algorithm.py:171-175 | for any schedule entry the algorithm generates, the reported cost equals the fitness function's cost exactly when the module is in house, zero or one periods are crashed, or the supplier's crash cost is zero |
| MainRun.Report | backend/main.py:37-53 | the result holds exactly the three keys with the costed schedule, the fitness and the product selection, and a run without a best schedule raises `AttributeError` |
| Py.Index | backend/genetic_algorithm.py:70 | Python indexing counts a negative index from the end and raises `IndexError` past either end |
| Py.Trunc | backend/genetic_algorithm.py:69 | `int()` of a float truncates toward zero |
| Py.Split | backend/app.py:38 | splitting yields at least one piece, two or more exactly when the separator occurs, text without the separator is its own single piece, and no piece holds the separator or a character the text lacks |
| Py.SplitAt | backend/app.py:38 | splitting at the first separator gives the text before it followed by the pieces of the rest |
| Py.ParseDigits | backend/main.py:23 | a run of digits, such as each side of a decimal point, is read exactly when it is non-empty and all digits, otherwise `ValueError` |
| Py.ParseDecimal | backend/main.py:23 | a written number read as a digit run gives it back |
| Py.Signed | backend/main.py:22-25 | a leading `-` or `+` is read as the number's sign and removed |
| Py.Ungroup | backend/app.py:39 | dropping the underscores of a group leaves only its digits, and digit-only text unchanged |
| Py.ReadInt | backend/app.py:39 | stripped text reads as an integer exactly when it is an optionally signed group of digits, and a negative result needs a leading `-`; otherwise `ValueError` |
| Py.IntOfText | backend/app.py:39 | `int()` of text succeeds exactly when, stripped of ASCII white space (space and tab through carriage return, not the separators 28 to 31), it is an optionally signed group of digits; without a `-` the result is not negative, a plain digit run reads as its value, and any failure is `ValueError` |
| Py.IntOfDecimal | backend/app.py:39 | `int()` of a written number gives it back, with `+` or `-` in front as well |
| Py.IntIgnoresPadding | backend/main.py:22 | space and tab through carriage return around the text do not change what `int()` reads |
| Py.SeparatorRefused | backend/main.py:22 | text holding one of the separators 28 to 31 anywhere raises `ValueError`, since `int()` does not strip them |
| Py.StripKeeps | backend/main.py:22 | a character outside the stripped set survives `strip` |
| Py.RStripKeeps | backend/main.py:22 | a character outside the stripped set survives `rstrip` in place |
| Py.ReadIntRefuses | backend/main.py:22 | stripped text holding a character that is not a digit, `_` or a sign raises `ValueError` |
| Py.NotGroupedAt | backend/main.py:22 | a run holding a character that is not a digit or `_` is not a grouped digit run |
| Py.IntOfGroups | backend/main.py:22 | an underscore between two digit runs is dropped: `int('1_000')` is 1000 |
| Py.GroupsJoin | backend/main.py:22 | two digit runs joined by one underscore form a group whose digits are both runs |
| Py.ReadGroup | backend/app.py:39 | a sign followed by a group reads as the group's digits with that sign |
| Py.SignedDigits | backend/main.py:22 | a sign in front of a digit run is read as its sign |
| Py.SignedText | backend/main.py:22 | `int()` of a sign and a digit run is the signed value of the digits |
| Py.SignedUnpadded | backend/main.py:22 | a sign in front of a digit run has no white space to strip |
| Py.SignedRead | backend/main.py:22 | stripped text made of a sign and a digit run reads as the signed value |
| Py.IntOfTextReads | backend/main.py:22 | `int()` reads its text once the white space at both ends is stripped |
| Py.DigitsStripToThemselves | backend/main.py:22 | a digit run has no white space to strip |
| Py.DigitsAreGrouped | backend/main.py:22 | a digit run is a single group whose digits are itself |
| Py.DigitNotSpace | backend/main.py:22 | no digit is white space |
| Py.From | backend/data_processing.py:40 | slicing from `k` is empty once `k` passes the end |
| Py.LStrip | backend/data_processing.py:95 | `lstrip` removes exactly the leading run of characters from the given set |
| Py.RStrip | backend/data_processing.py:95 | `rstrip` removes exactly the trailing run of characters from the given set |
| Py.Strip | backend/data_processing.py:95 | `strip` leaves text that starts and ends outside the set, and its first character comes from the text |
| Py.StripUnpadded | backend/data_processing.py:95 | text that neither starts nor ends with a character of the set is left alone |
| Py.StripPadding | backend/data_processing.py:95 | `strip` removes exactly the characters of the set around unpadded text |
| Py.LStripPrefix | backend/data_processing.py:95 | a prefix of set characters is exactly what `lstrip` removes |
| Py.RStripSuffix | backend/data_processing.py:95 | a suffix of set characters is exactly what `rstrip` removes |
| Py.StripInside | backend/data_processing.py:95 | every character `strip` keeps comes from the text |

## Left out

- HTTP plumbing is not modelled: the Flask routes, CORS, JSON (de)serialization, `fetch`, and the error and loading state of the page. The page side is cut at the data object it posts (App.js:280-285), and the server side at the dictionaries `prepare_matrix` receives.
- Rendering is not modelled: JSX layout, styles, `window.open` and `ReactDOM` of the popup windows. The popups are modelled by their state, their rendered rows and their handlers only.
- React's asynchronous, batched `setState` is not modelled. Each handler, together with the reseed effect it triggers, is one atomic transition that reads the state of the last render.
- `load_data`'s Excel reading and the `__main__` blocks are I/O. The sheets enter as parameters.
- The random operators of the genetic algorithm are not modelled: `generate_individual`, `contest_select`, `crossover`, `mutation` and the `run` loop. Their output enters as the `RunOutcome` parameter.
- `calculate_product_profit`, `check_precedence` and `update_module_duration` compute with floating-point interest and durations. The family choice is modelled over an arbitrary evaluation function instead.
- Floating-point rounding in general: reals are exact.
- Suppliers.ReadRow: only the module and supplier cells may be blank. A blank cost, lead time or expediting cell is a NaN that Python carries along, and the model's reals cannot hold it. Text in the module or supplier column is not modelled either.
- Selection.SortDesc: Python's `sorted(..., reverse=True)` is stable, and this tie order is not stated. The contract gives a descending permutation and leaves ties in any order.
- Selection.FirstMax: `max` over NaN profits is not modelled. The profits are reals.
- Backend.PrepareMatrix: when pandas `.loc` enlarges the frame for a cell outside `1..n`, it also fills the rest of the new row and column with NaN. The model records only the cells written. Its key parse is that of `EdgeKeys.ParseModule`, with the same gap for non-ASCII digits and Unicode white space.
- Py.IntOfText: only ASCII white space (space and tab through carriage return) and ASCII digits are modelled. Python's `int()` also strips Unicode white space such as U+00A0 and reads other Unicode decimal digits such as `'３'`; the model raises `ValueError` for those.
- Feasibility.FeasibleRow: resource cells are real numbers, so a blank resource cell, which pandas reads as NaN, is not modelled. In Python `NaN >= util` is false and such a period is marked 0; the model has no value for it.
- MainRun.ToInt: reads text through `Py.IntOfText`, so Unicode white space and non-ASCII digits are refused, unlike Python.
- EdgeKeys.ParseModule: reads the number through `Py.IntOfText`, so a module name whose number uses non-ASCII digits or Unicode white space is refused, unlike Python.
- Backend.PrepareRequest: inherits the key parse of `EdgeKeys.ParseModule`, so a key with non-ASCII digits or Unicode white space around a number is refused, unlike Python.
- MainRun.ToReal: text is read as optional sign plus `digits.digits`. Exponents, `inf`, `nan`, whitespace and `_` are not modelled.
- Dependencies.RowIndex: a label whose number is negative, such as `M-3`, is appended by Python as a negative predecessor. The model's predecessor lists hold natural numbers, so it refuses such a label with `ValueError`. Non-ASCII digits and Unicode white space are refused as in `Py.IntOfText`.
- Dependencies.Indices: the labels are taken to be text; other pandas index types are not modelled.
- TopoSort.TopologicalSort: the dependency dictionary is taken to be keyed `1..n`, as `preprocess_data` builds it. The no-order conclusion for the cycle answer is stated only when predecessor lists have no repeats. A repeated predecessor makes the Python loop report a cycle even for an acyclic graph.
- `parseFloat` of arbitrary text in the page's inputs is not modelled. An input is either cleared or a number.
- PopupContent.Run: the `PropsChanged` event over-approximates what the page does. Each popup window is rendered once into its own root (App.js:226-238), so its props never change, and the page only produces runs without that event. The lemmas hold for runs with or without it.
- AdoptionRate.Run: the same over-approximation. The adoption editor is rendered once (App.js:259-265), so `PropsChanged` never occurs in the page.

=== FILE: adoption_rate.dfy ===
/**
 * The adoption-rate vector of the App (App.js:35, 40, 241-266) and its
 * editor `AdoptionRatePopup` (AdoptionRatePopup.js): a working copy of the
 * nine rates, edited index by index and handed back whole on submit.
 */
module AdoptionRate {
  import opened JsValues

  /** An entry of the vector: `parseFloat` of a cleared field is `NaN`. */
  datatype Rate = NotANumber | Rate(x: real)

  /** `Array(9).fill(0)`: one rate per product. */
  const ProductCount: nat := 9

  /** `adoptionRate` and `adoptionRateChanged` of the App. */
  datatype Adoption = Adoption(rates: seq<Rate>, changed: bool)

  function Init(): (a: Adoption)
    ensures |a.rates| == ProductCount && !a.changed
    ensures forall i :: 0 <= i < |a.rates| ==> a.rates[i] == Rate(0.0)
  {
    Adoption(seq(ProductCount, _ => Rate(0.0)), false)
  }

  /** `localAdoptionRate` of an open editor window. */
  datatype Session = Session(local: seq<Rate>)

  /** `useState(adoptionRate)`: the working copy starts as the App's vector. */
  function Open(a: Adoption): (w: Session)
    ensures w.local == a.rates
  {
    Session(a.rates)
  }

  /** The `useEffect` on `[adoptionRate]`: a new prop replaces the copy. */
  function Resync(w: Session, rates: seq<Rate>): (r: Session)
    ensures r.local == rates
  {
    Session(rates)
  }

  /** `parseFloat(value)`. */
  function ParseRate(i: Input): (r: Rate)
    ensures i.Cleared? <==> r.NotANumber?
    ensures i.Entered? ==> r == Rate(i.x)
  {
    match i
    case Cleared => NotANumber
    case Entered(x) => Rate(x)
  }

  /** `handleInputChange(index, value)` on one of the rendered inputs. */
  function EditRate(w: Session, index: nat, i: Input): (r: Session)
    requires index < |w.local|
    ensures |r.local| == |w.local|
    ensures r.local[index] == ParseRate(i)
    ensures forall j :: 0 <= j < |w.local| && j != index ==> r.local[j] == w.local[j]
  {
    Session(w.local[index := ParseRate(i)])
  }

  /** `handleSubmit`: `setAdoptionRate(localAdoptionRate)` then
      `closeWindow(true)`, which sets the changed flag whether or not any
      rate differs. */
  function Submit(a: Adoption, w: Session): (r: Adoption)
    ensures r.rates == w.local
    ensures r.changed
  {
    Adoption(w.local, true)
  }

  /** The outcome of a submit depends only on the working copy, not on the
      App state it lands on: submitting the same copy again changes nothing. */
  lemma SubmitIdempotent(a: Adoption, w: Session)
    ensures Submit(Submit(a, w), w) == Submit(a, w)
  {
  }

  /** What can happen to an open editor. An `Edit` names one of the rendered
      inputs, so an index past the working copy names no input and does
      nothing. `PropsChanged` over-approximates: the editor is rendered once
      into its own root (App.js:259-265), so its props never change, and a
      run without that event is the one the page produces. */
  datatype Event = Edit(index: nat, input: Input) | PropsChanged(rates: seq<Rate>) | SubmitForm | Close

  /** The App's vector and flag after the editor has seen `events`. */
  function Run(a: Adoption, w: Session, events: seq<Event>): (r: Adoption)
    ensures r == a || r.changed
    ensures r != a ==> exists i :: 0 <= i < |events| && events[i].SubmitForm?
    decreases |events|
  {
    if |events| == 0 then a
    else match events[0]
      case Edit(index, i) =>
        if index < |w.local| then Run(a, EditRate(w, index, i), events[1..])
        else Run(a, w, events[1..])
      case PropsChanged(rates) => Run(a, Resync(w, rates), events[1..])
      case SubmitForm => Submit(a, w)
      case Close => a
  }

  /** Without a submit the vector and the changed flag stay as they were. */
  lemma {:induction false} NoSubmitNoChange(a: Adoption, w: Session, events: seq<Event>)
    requires forall i :: 0 <= i < |events| ==> !events[i].SubmitForm?
    ensures Run(a, w, events) == a
    decreases |events|
  {
    if |events| > 0 && !events[0].Close? {
      match events[0]
      case Edit(index, i) =>
        if index < |w.local| {
          NoSubmitNoChange(a, EditRate(w, index, i), events[1..]);
        } else {
          NoSubmitNoChange(a, w, events[1..]);
        }
      case PropsChanged(rates) => NoSubmitNoChange(a, Resync(w, rates), events[1..]);
    }
  }

  /** Edits and submits keep the vector at the length it had: a session
      started from a vector of `n` rates, whose props only ever carry `n`
      rates, leaves `n` rates in the App. */
  lemma {:induction false} RunKeepsLength(a: Adoption, w: Session, events: seq<Event>, n: nat)
    requires |a.rates| == n && |w.local| == n
    requires forall i :: 0 <= i < |events| && events[i].PropsChanged? ==> |events[i].rates| == n
    ensures |Run(a, w, events).rates| == n
    decreases |events|
  {
    if |events| > 0 {
      assert forall i :: 0 <= i < |events[1..]| ==> events[1..][i] == events[i + 1];
      match events[0]
      case Edit(index, i) =>
        if index < |w.local| {
          RunKeepsLength(a, EditRate(w, index, i), events[1..], n);
        } else {
          RunKeepsLength(a, w, events[1..], n);
        }
      case PropsChanged(rates) => RunKeepsLength(a, Resync(w, rates), events[1..], n);
      case SubmitForm =>
      case Close =>
    }
  }

  /** From the initial App state every session leaves nine rates. */
  lemma InitialSessionKeepsNine(events: seq<Event>)
    requires forall i :: 0 <= i < |events| && events[i].PropsChanged? ==> |events[i].rates| == ProductCount
    ensures |Run(Init(), Open(Init()), events).rates| == ProductCount
  {
    RunKeepsLength(Init(), Open(Init()), events, ProductCount);
  }
}

=== FILE: app_state.dfy ===
/**
 * The state record of the front end's `App` component that the
 * default/override reconciliation works on (App.js:8-41).
 *
 * Modules are identified by their number: catalog entry `Module n` is `n`.
 * Edge keys `Module p-Module m` are `Edge(p, m)`; the popup entry
 * `${type}-${module}` is kept in the popup map of that kind's record.
 */
module AppState {
  import opened JsValues

  /** The fixed catalog 'Module 1' .. 'Module 12'. */
  const CatalogSize: nat := 12

  predicate InCatalog(m: nat) {
    1 <= m <= CatalogSize
  }

  const CatalogSet: set<nat> := set m: nat | 1 <= m <= CatalogSize

  /** The two independent value kinds, `'interaction'` and `'information'`. */
  datatype Kind = Interaction | Information

  /** The edge key `Module pred-Module succ`. */
  datatype Edge = Edge(pred: nat, succ: nat)

  type EdgeValues = map<Edge, Value>

  /** `dependencies`: module number to its list of predecessor numbers. */
  type Deps = map<nat, seq<nat>>

  /**
   * Everything App keeps for one kind:
   * - `global`: `defaultInteractionValue` / `defaultInformationFlowValue`
   * - `defaults`: `defaultInteractions` / `informationFlow` (per module)
   * - `custom`: `customInteractions` / `customInformationFlow` (per edge)
   * - `flags`: `customChanges[type]` (per module)
   * - `popup`: `popupValues[`${type}-${module}`]` (per module, per edge)
   */
  datatype KindState = KindState(
    global: Value,
    defaults: map<nat, Value>,
    custom: EdgeValues,
    flags: map<nat, bool>,
    popup: map<nat, EdgeValues>)

  datatype State = State(deps: Deps, interaction: KindState, information: KindState) {

    function Of(k: Kind): KindState {
      match k
      case Interaction => interaction
      case Information => information
    }

    function With(k: Kind, ks: KindState): (r: State)
      ensures r.Of(k) == ks
      ensures r.Of(Other(k)) == Of(Other(k))
      ensures r.deps == deps
    ensures ValidKind(ks) && ValidKind(Of(Other(k))) ==> Valid(r)
    {
      match k
      case Interaction => this.(interaction := ks)
      case Information => this.(information := ks)
    }
  }

  function Other(k: Kind): Kind {
    match k
    case Interaction => Information
    case Information => Interaction
  }

  /** `dependencies[n] || []`: a module without an entry has no predecessors. */
  function PredsOf(deps: Deps, m: nat): seq<nat> {
    if m in deps then deps[m] else []
  }

  /** `prev[key] || {}`: the popup entry of a module, empty when absent. */
  function Entry(ks: KindState, m: nat): EdgeValues {
    if m in ks.popup then ks.popup[m] else map[]
  }

  /** Every module of the catalog, and only those, has a per-module default. */
  ghost predicate ValidKind(ks: KindState) {
    ks.defaults.Keys == CatalogSet
  }

  ghost predicate Valid(s: State) {
    ValidKind(s.interaction) && ValidKind(s.information)
  }

  lemma ValidOf(s: State, k: Kind)
    ensures Valid(s) ==> ValidKind(s.Of(k)) && ValidKind(s.Of(Other(k)))
  {
  }

  /** `Object.fromEntries(modules.map(module => [module, v]))`. */
  function FromCatalog(v: Value): (r: map<nat, Value>)
    ensures r.Keys == CatalogSet
    ensures forall m :: m in r ==> r[m] == v
  {
    map m | m in CatalogSet :: v
  }

  /** The state on first render (App.js:21-39), before the dependencies arrive. */
  function Init(): (s: State)
    ensures Valid(s)
    ensures s.deps == map[]
    ensures forall m :: InCatalog(m) ==>
      && m in s.interaction.defaults && s.interaction.defaults[m] == Num(20.0)
      && m in s.information.defaults && s.information.defaults[m] == Num(0.0)
    ensures s.interaction.global == Num(20.0) && s.information.global == Num(0.0)
    ensures forall k: Kind :: s.Of(k).custom == map[] && s.Of(k).flags == map[] && s.Of(k).popup == map[]
  {
    State(map[],
      KindState(Num(20.0), FromCatalog(Num(20.0)), map[], map[], map[]),
      KindState(Num(0.0), FromCatalog(Num(0.0)), map[], map[], map[]))
  }
}

=== FILE: backend.dfy ===
/**
 * The Flask side of the request (app.py:23-57): the lazily filled cache of
 * preprocessed data and `prepare_matrix`, which turns the matrix object the
 * front end posts into a table indexed by module numbers.
 */
module Backend {
  import opened Wrappers
  import opened Py
  import opened AppState
  import opened EdgeKeys
  import opened InteractionMatrix
  import opened Preprocess

  /** A table cell: the `'-'` filler or a posted value. */
  datatype Cell = Dash | Value(x: real)

  /** A DataFrame indexed by module number on both axes, as cells keyed by
      (row, column). */
  type Table = map<Edge, Cell>

  /** Both matrices are prepared with `num_modules=12` (app.py:56-57). */
  const GaMatrixSize: nat := 12

  /** The cells of an `n`×`n` table indexed `1..n`. */
  function Grid(n: nat): (r: set<Edge>)
    ensures forall e: Edge :: e in r <==> 1 <= e.pred <= n && 1 <= e.succ <= n
  {
    var r := set a: nat, b: nat | 1 <= a <= n && 1 <= b <= n :: Edge(a, b);
    assert forall e: Edge :: 1 <= e.pred <= n && 1 <= e.succ <= n ==> e in r by {
      forall e: Edge | 1 <= e.pred <= n && 1 <= e.succ <= n ensures e in r {
        assert e == Edge(e.pred, e.succ);
      }
    }
    r
  }

  /** `pd.DataFrame('-', index=..., columns=...)`. */
  function Blank(n: nat): (r: Table)
    ensures r.Keys == Grid(n)
    ensures forall e :: e in r ==> r[e] == Dash
  {
    map e | e in Grid(n) :: Dash
  }

  /** The cell each posted key names, or the exception its parse raises. */
  function Cells(entries: seq<(string, real)>): (r: seq<Result<Edge, PyError>>)
    ensures |r| == |entries| && forall i :: 0 <= i < |entries| ==> r[i] == ParseKey(entries[i].0)
  {
    seq(|entries|, i requires 0 <= i < |entries| => ParseKey(entries[i].0))
  }

  /** The posted values, in order. */
  function Values(entries: seq<(string, real)>): (r: seq<real>)
    ensures |r| == |entries| && forall i :: 0 <= i < |entries| ==> r[i] == entries[i].1
  {
    seq(|entries|, i requires 0 <= i < |entries| => entries[i].1)
  }

  /** The value of the last entry that names cell `e`. */
  ghost function LastValue(cells: seq<Result<Edge, PyError>>, vals: seq<real>, e: Edge): Option<real>
    requires |cells| == |vals|
  {
    if |cells| == 0 then None
    else
      var n := |cells| - 1;
      if cells[n] == Ok(e) then Some(vals[n]) else LastValue(cells[..n], vals[..n], e)
  }

  /** Key `i` is the first that fails to parse, raising `e`: the loop
      writes every cell before it and stops there. */
  predicate FirstFailedCell(cells: seq<Result<Edge, PyError>>, i: int, e: PyError) {
    && 0 <= i < |cells|
    && (forall j :: 0 <= j < i ==> cells[j].Ok?)
    && cells[i] == Err(e)
  }

  /** The loop of app.py:37-41 over parsed keys: each value written to its
      cell in order, the first failed parse raising. */
  function Fill(t: Table, cells: seq<Result<Edge, PyError>>, vals: seq<real>): (r: Result<Table, PyError>)
    requires |cells| == |vals|
    ensures r.Ok? <==> forall i :: 0 <= i < |cells| ==> cells[i].Ok?
    ensures r.Err? ==> exists i :: FirstFailedCell(cells, i, r.error)
    ensures r.Ok? ==> t.Keys <= r.value.Keys
    ensures r.Ok? ==> forall e :: e in r.value ==> e in t || LastValue(cells, vals, e).Some?
    ensures r.Ok? ==> forall e :: e in r.value ==>
      r.value[e] == if LastValue(cells, vals, e).Some? then Value(LastValue(cells, vals, e).value) else t[e]
  {
    if |cells| == 0 then Ok(t)
    else
      var k := |cells| - 1;
      assert forall i :: 0 <= i < k ==> cells[..k][i] == cells[i];
      assert forall i, e :: FirstFailedCell(cells[..k], i, e) ==> FirstFailedCell(cells, i, e);
      match Fill(t, cells[..k], vals[..k])
      case Err(e) => Err(e)
      case Ok(t') =>
        match cells[k]
        case Err(e) => assert FirstFailedCell(cells, k, e); Err(e)
        case Ok(cell) => Ok(t'[cell := Value(vals[k])])
  }

  /** Every posted key parses. */
  predicate AllParse(entries: seq<(string, real)>) {
    forall i :: 0 <= i < |entries| ==> ParseKey(entries[i].0).Ok?
  }

  /** The value of the last posted entry whose key names cell `e`. */
  ghost function LastPosted(entries: seq<(string, real)>, e: Edge): Option<real> {
    LastValue(Cells(entries), Values(entries), e)
  }

  /** `prepare_matrix(matrix_dict, num_modules)`: the `'-'` table with each
      entry written to the cell its key names, in posting order. A key that
      does not parse raises; a cell outside `1..n` is added, as `.loc`
      enlarges the frame. */
  function PrepareMatrix(entries: seq<(string, real)>, n: nat): (r: Result<Table, PyError>)
    ensures r.Ok? <==> AllParse(entries)
    ensures r.Err? ==> r.error in {IndexError, ValueError}
    ensures r.Err? ==> exists i :: FirstFailedCell(Cells(entries), i, r.error)
    ensures r.Ok? ==> Grid(n) <= r.value.Keys
    ensures r.Ok? ==> forall e :: e in r.value ==> e in Grid(n) || LastPosted(entries, e).Some?
    ensures r.Ok? ==> forall e :: e in r.value ==>
      r.value[e] == if LastPosted(entries, e).Some? then Value(LastPosted(entries, e).value) else Dash
  {
    Fill(Blank(n), Cells(entries), Values(entries))
  }

  /** Every cell of the table that no key names keeps its `'-'`. */
  lemma UnnamedCellsStayDash(entries: seq<(string, real)>, n: nat, e: Edge)
    requires PrepareMatrix(entries, n).Ok? && e in Grid(n)
    requires forall i :: 0 <= i < |entries| ==> ParseKey(entries[i].0) != Ok(e)
    ensures PrepareMatrix(entries, n).value[e] == Dash
  {
    NotNamedHasNoValue(Cells(entries), Values(entries), e);
  }

  lemma {:induction false} NotNamedHasNoValue(cells: seq<Result<Edge, PyError>>, vals: seq<real>, e: Edge)
    requires |cells| == |vals| && forall i :: 0 <= i < |cells| ==> cells[i] != Ok(e)
    ensures LastValue(cells, vals, e) == None
  {
    if |cells| > 0 {
      var k := |cells| - 1;
      assert forall i :: 0 <= i < k ==> cells[..k][i] == cells[i];
      NotNamedHasNoValue(cells[..k], vals[..k], e);
    }
  }

  /** `JSON.stringify` of the front end's matrix object: its entries under
      their edge keys, in the order `es` lists the edges. */
  function Serialize(m: map<Edge, real>, es: seq<Edge>): (r: seq<(string, real)>)
    requires forall i :: 0 <= i < |es| ==> es[i] in m
    ensures |r| == |es|
    ensures forall i :: 0 <= i < |es| ==> r[i] == (EdgeKey(es[i]), m[es[i]])
  {
    seq(|es|, i requires 0 <= i < |es| => (EdgeKey(es[i]), m[es[i]]))
  }

  /** Every serialized key parses back to its edge. */
  lemma SerializedCells(m: map<Edge, real>, es: seq<Edge>)
    requires forall i :: 0 <= i < |es| ==> es[i] in m
    ensures forall i :: 0 <= i < |es| ==> Cells(Serialize(m, es))[i] == Ok(es[i])
  {
    forall i | 0 <= i < |es| ensures Cells(Serialize(m, es))[i] == Ok(es[i]) {
      ParseEdgeKey(es[i]);
    }
  }

  /** Cells that all parse to edges of `m`, each with its value in `m`,
      leave every named cell with its value in `m`. */
  lemma {:induction false} LastValueOfMap(m: map<Edge, real>, cells: seq<Result<Edge, PyError>>, vals: seq<real>, e: Edge)
    requires |cells| == |vals|
    requires forall i :: 0 <= i < |cells| ==> cells[i].Ok? && cells[i].value in m && vals[i] == m[cells[i].value]
    ensures LastValue(cells, vals, e) == if exists i :: 0 <= i < |cells| && cells[i] == Ok(e) then Some(m[e]) else None
  {
    if |cells| > 0 {
      var k := |cells| - 1;
      assert forall i :: 0 <= i < k ==> cells[..k][i] == cells[i] && vals[..k][i] == vals[i];
      LastValueOfMap(m, cells[..k], vals[..k], e);
      if cells[k] != Ok(e) {
        assert (exists i :: 0 <= i < |cells| && cells[i] == Ok(e)) <==> (exists i :: 0 <= i < k && cells[..k][i] == Ok(e));
      }
    }
  }

  lemma SerializedValue(m: map<Edge, real>, es: seq<Edge>, e: Edge)
    requires forall i :: 0 <= i < |es| ==> es[i] in m
    ensures AllParse(Serialize(m, es))
    ensures LastPosted(Serialize(m, es), e) == if e in es then Some(m[e]) else None
  {
    var entries := Serialize(m, es);
    var cells, vals := Cells(entries), Values(entries);
    SerializedCells(m, es);
    LastValueOfMap(m, cells, vals, e);
    assert e in es <==> exists i :: 0 <= i < |cells| && cells[i] == Ok(e) by {
      if e in es {
        var i :| 0 <= i < |es| && es[i] == e;
        assert cells[i] == Ok(e);
      }
    }
  }

  /** A serialized map whose edges all lie in the `n`×`n` grid prepares
      to exactly that grid, each listed edge holding its value and every
      other cell its `'-'`. */
  lemma SerializedTable(m: map<Edge, real>, es: seq<Edge>, n: nat)
    requires forall i :: 0 <= i < |es| ==> es[i] in m && es[i] in Grid(n)
    ensures PrepareMatrix(Serialize(m, es), n).Ok?
    ensures PrepareMatrix(Serialize(m, es), n).value.Keys == Grid(n)
    ensures forall e :: e in Grid(n) ==>
      PrepareMatrix(Serialize(m, es), n).value[e] == if e in es then Value(m[e]) else Dash
  {
    SerializedValue(m, es, Edge(0, 0));
    var t := PrepareMatrix(Serialize(m, es), n).value;
    forall e | e in t ensures e in Grid(n) && t[e] == if e in es then Value(m[e]) else Dash {
      SerializedValue(m, es, e);
    }
  }

  /** The posted matrix of one kind arrives intact: prepared with size 12,
      every ordered pair of distinct catalog modules holds the value the
      front end computed for it, and the diagonal keeps its `'-'`. */
  lemma MatrixArrivesIntact(ks: KindState, es: seq<Edge>)
    requires forall e :: e in es <==> IsPair(e)
    ensures var m := BuildMatrix(ks);
      && PrepareMatrix(Serialize(m, es), GaMatrixSize).Ok?
      && PrepareMatrix(Serialize(m, es), GaMatrixSize).value.Keys == Grid(GaMatrixSize)
      && (forall e :: IsPair(e) ==> PrepareMatrix(Serialize(m, es), GaMatrixSize).value[e] == Value(m[e]))
      && (forall a :: 1 <= a <= GaMatrixSize ==> PrepareMatrix(Serialize(m, es), GaMatrixSize).value[Edge(a, a)] == Dash)
  {
    var m := BuildMatrix(ks);
    assert forall i :: 0 <= i < |es| ==> IsPair(es[i]);
    SerializedTable(m, es, GaMatrixSize);
    forall a | 1 <= a <= GaMatrixSize
      ensures PrepareMatrix(Serialize(m, es), GaMatrixSize).value[Edge(a, a)] == Dash
    {
      assert Edge(a, a) in Grid(GaMatrixSize);
      assert Edge(a, a) !in es;
    }
  }

  // ---------------------------------------------------------------------
  // The cache

  /** `preprocessed_data`: each entry `None` until the first load. */
  datatype Cache = Cache(
    profiles: Option<map<int, Profiles.ModuleProfile>>,
    dependencies: Option<seq<seq<nat>>>,
    feasible: Option<map<int, seq<int>>>)

  const EmptyCache: Cache := Cache(None, None, None)

  /** `ensure_data_preprocessed()`: reads the sheets only when the profiles
      or the dependencies are missing; an exception of the load leaves the
      cache as it was. */
  function EnsurePreprocessed(c: Cache, sheets: Sheets): (r: (Cache, Result<Cache, PyError>))
    ensures c.profiles.Some? && c.dependencies.Some? ==> r == (c, Ok(c))
    ensures (c.profiles.None? || c.dependencies.None?) && PreprocessData(sheets).Ok? ==>
      var d := PreprocessData(sheets).value;
      r.0 == Cache(Some(d.profiles), Some(d.dependencies), Some(d.feasible)) && r.1 == Ok(r.0)
    ensures (c.profiles.None? || c.dependencies.None?) && PreprocessData(sheets).Err? ==>
      r == (c, Err(PreprocessData(sheets).error))
    ensures r.1.Ok? ==> r.1.value == r.0 && r.0.profiles.Some? && r.0.dependencies.Some?
  {
    if c.profiles.None? || c.dependencies.None? then
      match PreprocessData(sheets)
      case Err(e) => (c, Err(e))
      case Ok(d) =>
        var c' := Cache(Some(d.profiles), Some(d.dependencies), Some(d.feasible));
        (c', Ok(c'))
    else (c, Ok(c))
  }

  /** Once filled, the cache is returned unchanged by every later call,
      whatever the sheets now hold. */
  lemma CacheIsStable(c: Cache, sheets: Sheets, later: Sheets)
    requires EnsurePreprocessed(c, sheets).1.Ok?
    ensures var c' := EnsurePreprocessed(c, sheets).0;
      EnsurePreprocessed(c', later) == (c', Ok(c'))
  {
  }

  /** `t` is the table `prepare_matrix(entries, n)` builds: the `'-'` grid,
      plus any cell a key names, each named cell holding the last value
      posted for it. */
  ghost predicate PreparedFrom(entries: seq<(string, real)>, n: nat, t: Table) {
    && Grid(n) <= t.Keys
    && (forall e :: e in t ==> e in Grid(n) || LastPosted(entries, e).Some?)
    && (forall e :: e in t ==>
          t[e] == if LastPosted(entries, e).Some? then Value(LastPosted(entries, e).value) else Dash)
  }

  /** The two tables of `/run-ga` (app.py:55-57): both prepared with 12
      rows and columns, whatever the number of dependency lists. The
      interaction matrix is prepared first, so its failure is the one
      raised when both fail. */
  function PrepareRequest(interaction: seq<(string, real)>, information: seq<(string, real)>): (r: Result<(Table, Table), PyError>)
    ensures r.Ok? <==> AllParse(interaction) && AllParse(information)
    ensures r.Ok? ==> PreparedFrom(interaction, GaMatrixSize, r.value.0) && PreparedFrom(information, GaMatrixSize, r.value.1)
    ensures r.Ok? ==> r.value == (PrepareMatrix(interaction, GaMatrixSize).value, PrepareMatrix(information, GaMatrixSize).value)
    ensures !AllParse(interaction) ==> r == Err(PrepareMatrix(interaction, GaMatrixSize).error)
    ensures !AllParse(interaction) ==> exists i :: FirstFailedCell(Cells(interaction), i, r.error)
    ensures AllParse(interaction) && !AllParse(information) ==>
      exists i :: FirstFailedCell(Cells(information), i, r.error)
  {
    match PrepareMatrix(interaction, GaMatrixSize)
    case Err(e) => Err(e)
    case Ok(t1) =>
      match PrepareMatrix(information, GaMatrixSize)
      case Err(e) => Err(e)
      case Ok(t2) => Ok((t1, t2))
  }

  /** The request the page posts (App.js:280-285) is accepted, and both
      matrices reach the optimisation as the page computed them: every
      ordered pair of distinct catalog modules holds its value, and every
      other cell of the 12 x 12 grid its `'-'`. */
  lemma RequestArrivesIntact(s: State, es: seq<Edge>)
    requires forall e :: e in es <==> IsPair(e)
    ensures var r := PrepareRequest(Serialize(BuildMatrix(s.interaction), es),
                                    Serialize(BuildMatrix(s.information), es));
      && r.Ok?
      && r.value.0.Keys == Grid(GaMatrixSize) && r.value.1.Keys == Grid(GaMatrixSize)
      && (forall e :: IsPair(e) ==> r.value.0[e] == Value(BuildMatrix(s.interaction)[e]))
      && (forall e :: IsPair(e) ==> r.value.1[e] == Value(BuildMatrix(s.information)[e]))
      && (forall e :: e in Grid(GaMatrixSize) && !IsPair(e) ==> r.value.0[e] == Dash && r.value.1[e] == Dash)
  {
    MatrixArrivesIntact(s.interaction, es);
    MatrixArrivesIntact(s.information, es);
  }
}

=== FILE: dependencies.dfy ===
/**
 * `dependencies` (data_processing.py:92-98): the precedence sheet, one row
 * `M<p>` per module with a 1 in column `m` when `p` must precede `m`,
 * turned into the predecessor lists the topological sort reads.
 */
module Dependencies {
  import opened Wrappers
  import opened Py
  import opened SeqFacts
  import opened TopoSort

  /** A row of the precedence sheet: its index name and its cells. A
      pandas row always has one cell per column of the frame; the model
      lets the two differ so that the `KeyError` of a mark past the last
      column is stated, and `SheetRowsNeverMissColumns` shows that a sheet
      whose rows span its columns never raises it. */
  datatype PrecRow = PrecRow(name: string, cells: seq<real>)

  /** The sheet: the number of its columns and its rows in order. */
  datatype Precedence = Precedence(columns: nat, rows: seq<PrecRow>)

  /** `int(i.strip('M'))`. A label whose number is negative, which the
      predecessor lists cannot hold, is refused with `ValueError`. */
  function RowIndex(name: string): (r: Result<nat, PyError>)
    ensures r.Err? ==> r.error == ValueError
    ensures r.Ok? ==> IntOfText(Strip(name, iset{'M'})) == Ok(r.value)
    ensures IntOfText(Strip(name, iset{'M'})).Ok? && '-' !in name ==> r.Ok?
  {
    LabelSignFromName(name);
    match IntOfText(Strip(name, iset{'M'}))
    case Err(e) => Err(e)
    case Ok(n) => if n < 0 then Err(ValueError) else Ok(n)
  }

  /** A label without `-` reads as a number that is not negative. */
  lemma LabelSignFromName(name: string)
    ensures IntOfText(Strip(name, iset{'M'})).Ok? && '-' !in name ==>
      IntOfText(Strip(name, iset{'M'})).value >= 0
  {
    StripInside(name, iset{'M'});
  }

  /** The parse of every row's name, in order. */
  function Indices(rows: seq<PrecRow>): (r: seq<Result<nat, PyError>>)
    ensures |r| == |rows| && forall i :: 0 <= i < |rows| ==> r[i] == RowIndex(rows[i].name)
  {
    seq(|rows|, i requires 0 <= i < |rows| => RowIndex(rows[i].name))
  }

  /** Column `j` of a row marks a predecessor. */
  predicate Marks(row: PrecRow, j: nat) {
    j < |row.cells| && row.cells[j] == 1.0
  }

  /** `for j, val in enumerate(row)` from cell `j` on: every 1 appends the
      row's index to `dependencies[j + 1]`, which raises `KeyError` past the
      last column. */
  function AddCells(g: Graph, idx: nat, row: PrecRow, j: nat): (r: Result<Graph, PyError>)
    requires j <= |row.cells|
    ensures r.Ok? <==> forall c :: j <= c < |row.cells| && Marks(row, c) ==> c < |g|
    ensures r.Err? ==> r.error == KeyError
    ensures r.Ok? ==> |r.value| == |g|
    ensures r.Ok? ==> forall c :: 0 <= c < |g| ==>
      r.value[c] == g[c] + (if j <= c && Marks(row, c) then [idx] else [])
    decreases |row.cells| - j
  {
    if j == |row.cells| then
      assert forall c :: 0 <= c < |g| ==> g[c] + [] == g[c];
      Ok(g)
    else if row.cells[j] == 1.0 then
      if j < |g| then AddCells(g[j := g[j] + [idx]], idx, row, j + 1)
      else assert Marks(row, j); Err(KeyError)
    else AddCells(g, idx, row, j + 1)
  }

  /** The loop over the rows, given the parse of each row's name: a name
      that does not parse raises `ValueError` when its row is reached. */
  function AddRows(columns: nat, rows: seq<PrecRow>, idx: seq<Result<nat, PyError>>): (r: Result<Graph, PyError>)
    requires |idx| == |rows|
    requires forall i :: 0 <= i < |idx| && idx[i].Err? ==> idx[i].error == ValueError
    ensures r.Ok? ==> |r.value| == columns
    ensures r.Err? ==> r.error in {ValueError, KeyError}
  {
    if |rows| == 0 then Ok(seq(columns, _ => []))
    else
      var n := |rows| - 1;
      match AddRows(columns, rows[..n], idx[..n])
      case Err(e) => Err(e)
      case Ok(g) =>
        match idx[n]
        case Err(e) => Err(e)
        case Ok(p) => AddCells(g, p, rows[n], 0)
  }

  /** `dependencies` for the sheet: one list per column. */
  function BuildDependencies(t: Precedence): (r: Result<Graph, PyError>)
    ensures r.Ok? ==> |r.value| == t.columns
    ensures r.Err? ==> r.error in {ValueError, KeyError}
  {
    var idx := Indices(t.rows);
    assert forall i :: 0 <= i < |idx| && idx[i].Err? ==> idx[i].error == ValueError;
    AddRows(t.columns, t.rows, idx)
  }

  /** Every row name parses and no 1 sits past the last column. */
  ghost predicate Readable(columns: nat, rows: seq<PrecRow>, idx: seq<Result<nat, PyError>>)
    requires |idx| == |rows|
  {
    && (forall i :: 0 <= i < |idx| ==> idx[i].Ok?)
    && (forall i :: 0 <= i < |rows| ==> InColumns(rows[i], columns))
  }

  /** Every 1 of the row sits in one of the columns. */
  ghost predicate InColumns(row: PrecRow, columns: nat) {
    forall c :: 0 <= c < |row.cells| && Marks(row, c) ==> c < columns
  }

  /** Row `i` has index `p` and marks column `j`. */
  ghost predicate MarkedBy(rows: seq<PrecRow>, idx: seq<Result<nat, PyError>>, i: nat, j: nat, p: nat)
    requires |idx| == |rows| && i < |rows|
  {
    Marks(rows[i], j) && idx[i] == Ok(p)
  }

  /** Reading column `j` down the rows: the indices of the rows that mark
      it, top to bottom. */
  function ColumnPreds(rows: seq<PrecRow>, idx: seq<Result<nat, PyError>>, j: nat): (r: seq<nat>)
    requires |idx| == |rows| && forall i :: 0 <= i < |idx| ==> idx[i].Ok?
    ensures forall p :: p in r <==> exists i :: 0 <= i < |rows| && MarkedBy(rows, idx, i, j, p)
  {
    if |rows| == 0 then []
    else
      var n := |rows| - 1;
      var r := ColumnPreds(rows[..n], idx[..n], j);
      var res := r + (if Marks(rows[n], j) then [idx[n].value] else []);
      assert forall p :: p in res <==> exists i :: 0 <= i < |rows| && MarkedBy(rows, idx, i, j, p) by {
        forall p ensures p in res <==> exists i :: 0 <= i < |rows| && MarkedBy(rows, idx, i, j, p) {
          if p in r {
            var i :| 0 <= i < n && MarkedBy(rows[..n], idx[..n], i, j, p);
            assert MarkedBy(rows, idx, i, j, p);
          } else if p in res {
            assert MarkedBy(rows, idx, n, j, p);
          }
          if exists i :: 0 <= i < |rows| && MarkedBy(rows, idx, i, j, p) {
            var i :| 0 <= i < |rows| && MarkedBy(rows, idx, i, j, p);
            if i < n {
              assert MarkedBy(rows[..n], idx[..n], i, j, p);
            }
          }
        }
      }
      res
  }

  /** The row-by-row build succeeds exactly on readable sheets. */
  lemma {:induction false} BuildSucceeds(columns: nat, rows: seq<PrecRow>, idx: seq<Result<nat, PyError>>)
    requires |idx| == |rows|
    requires forall i :: 0 <= i < |idx| && idx[i].Err? ==> idx[i].error == ValueError
    ensures AddRows(columns, rows, idx).Ok? <==> Readable(columns, rows, idx)
  {
    if |rows| > 0 {
      var n := |rows| - 1;
      BuildSucceeds(columns, rows[..n], idx[..n]);
      assert Readable(columns, rows, idx) <==>
        Readable(columns, rows[..n], idx[..n]) && idx[n].Ok? && InColumns(rows[n], columns) by {
        assert forall i :: 0 <= i < n ==> rows[..n][i] == rows[i] && idx[..n][i] == idx[i];
      }
    }
  }

  /** When every row has one cell per column, as a DataFrame's rows do,
      every mark lies inside the columns and the build fails only on a label
      that does not parse. */
  lemma SheetRowsNeverMissColumns(t: Precedence)
    requires forall i :: 0 <= i < |t.rows| ==> |t.rows[i].cells| == t.columns
    ensures BuildDependencies(t).Ok? <==> forall i :: 0 <= i < |t.rows| ==> RowIndex(t.rows[i].name).Ok?
    ensures BuildDependencies(t).Err? ==> BuildDependencies(t).error == ValueError
  {
    var idx := Indices(t.rows);
    BuildSucceeds(t.columns, t.rows, idx);
    RowsSpanColumns(t);
    BuildFailsOnLabel(t.columns, t.rows, idx);
  }

  /** A row with one cell per column marks no column past the last. */
  lemma RowsSpanColumns(t: Precedence)
    requires forall i :: 0 <= i < |t.rows| ==> |t.rows[i].cells| == t.columns
    ensures forall i :: 0 <= i < |t.rows| ==> InColumns(t.rows[i], t.columns)
  {
  }

  /** With every mark inside the columns, only a label can make the build
      fail. */
  lemma {:induction false} BuildFailsOnLabel(columns: nat, rows: seq<PrecRow>, idx: seq<Result<nat, PyError>>)
    requires |idx| == |rows|
    requires forall i :: 0 <= i < |idx| && idx[i].Err? ==> idx[i].error == ValueError
    requires forall i :: 0 <= i < |rows| ==> InColumns(rows[i], columns)
    ensures AddRows(columns, rows, idx).Err? ==> AddRows(columns, rows, idx).error == ValueError
  {
    if |rows| > 0 {
      var n := |rows| - 1;
      assert forall i :: 0 <= i < n ==> rows[..n][i] == rows[i] && idx[..n][i] == idx[i];
      BuildFailsOnLabel(columns, rows[..n], idx[..n]);
      match AddRows(columns, rows[..n], idx[..n])
      case Err(_) =>
      case Ok(g) =>
        if idx[n].Ok? {
          assert InColumns(rows[n], columns);
          assert AddCells(g, idx[n].value, rows[n], 0).Ok?;
        }
    }
  }

  /** The row-by-row build reads every column top to bottom. */
  lemma {:induction false} BuildIsColumnwise(columns: nat, rows: seq<PrecRow>, idx: seq<Result<nat, PyError>>, j: nat)
    requires |idx| == |rows| && forall i :: 0 <= i < |idx| ==> idx[i].Ok?
    requires AddRows(columns, rows, idx).Ok? && j < columns
    ensures AddRows(columns, rows, idx).value[j] == ColumnPreds(rows, idx, j)
  {
    if |rows| > 0 {
      var n := |rows| - 1;
      assert forall i :: 0 <= i < n ==> idx[..n][i] == idx[i];
      BuildIsColumnwise(columns, rows[..n], idx[..n], j);
    }
  }

  /** `p` is listed as a predecessor of module `j + 1` exactly when a row
      whose name reads `p` has a 1 in column `j`. */
  lemma DependencyMembership(t: Precedence, j: nat, p: nat)
    requires BuildDependencies(t).Ok? && j < t.columns
    ensures p in BuildDependencies(t).value[j] <==>
      exists i :: 0 <= i < |t.rows| && Marks(t.rows[i], j) && RowIndex(t.rows[i].name) == Ok(p)
  {
    ColumnOfBuild(t, j);
    MarkedByName(t.rows, j, p);
  }

  /** A built list is the column read down the parsed rows. */
  lemma ColumnOfBuild(t: Precedence, j: nat)
    requires BuildDependencies(t).Ok? && j < t.columns
    ensures forall i :: 0 <= i < |t.rows| ==> Indices(t.rows)[i].Ok?
    ensures BuildDependencies(t).value[j] == ColumnPreds(t.rows, Indices(t.rows), j)
  {
    var idx := Indices(t.rows);
    var g := BuildIsAddRows(t);
    BuildSucceeds(t.columns, t.rows, idx);
    BuildIsColumnwise(t.columns, t.rows, idx, j);
  }

  /** `BuildDependencies` is the row-by-row build over the parsed names. */
  lemma BuildIsAddRows(t: Precedence) returns (g: Result<Graph, PyError>)
    ensures g == BuildDependencies(t) == AddRows(t.columns, t.rows, Indices(t.rows))
    ensures forall i :: 0 <= i < |t.rows| && Indices(t.rows)[i].Err? ==> Indices(t.rows)[i].error == ValueError
  {
    g := BuildDependencies(t);
  }

  /** A row marks `p` in the parsed column exactly when its name reads `p`. */
  lemma MarkedByName(rows: seq<PrecRow>, j: nat, p: nat)
    ensures var idx := Indices(rows);
      (exists i :: 0 <= i < |rows| && MarkedBy(rows, idx, i, j, p)) <==>
      (exists i :: 0 <= i < |rows| && Marks(rows[i], j) && RowIndex(rows[i].name) == Ok(p))
  {
    var idx := Indices(rows);
    if i :| 0 <= i < |rows| && MarkedBy(rows, idx, i, j, p) {
      assert Marks(rows[i], j) && RowIndex(rows[i].name) == Ok(p);
    }
    if i :| 0 <= i < |rows| && Marks(rows[i], j) && RowIndex(rows[i].name) == Ok(p) {
      assert MarkedBy(rows, idx, i, j, p);
    }
  }

  /** No two rows carry the same index. */
  ghost predicate DistinctIndices(idx: seq<Result<nat, PyError>>) {
    forall i, k :: 0 <= i < k < |idx| ==> idx[i] != idx[k]
  }

  lemma {:induction false} ColumnDistinct(rows: seq<PrecRow>, idx: seq<Result<nat, PyError>>, j: nat)
    requires |idx| == |rows| && forall i :: 0 <= i < |idx| ==> idx[i].Ok?
    requires DistinctIndices(idx)
    ensures Distinct(ColumnPreds(rows, idx, j))
  {
    if |rows| > 0 {
      var n := |rows| - 1;
      assert forall i :: 0 <= i < n ==> idx[..n][i] == idx[i];
      ColumnDistinct(rows[..n], idx[..n], j);
      if Marks(rows[n], j) {
        var p := idx[n].value;
        var front := ColumnPreds(rows[..n], idx[..n], j);
        forall q | q in front ensures q != p {
          var i :| 0 <= i < n && MarkedBy(rows[..n], idx[..n], i, j, q);
          assert idx[i] != idx[n];
        }
        assert ColumnPreds(rows, idx, j) == front + [p];
        assert forall i :: 0 <= i < |front| ==> front[i] in front;
      }
    }
  }

  /** A sheet whose rows carry distinct indices gives predecessor lists
      without repeats, the case in which the topological sort's cycle
      report is exact. */
  lemma DistinctRowsGiveDistinctPreds(t: Precedence)
    requires BuildDependencies(t).Ok?
    requires forall i, k :: 0 <= i < k < |t.rows| ==> RowIndex(t.rows[i].name) != RowIndex(t.rows[k].name)
    ensures DistinctPreds(BuildDependencies(t).value)
  {
    var idx := Indices(t.rows);
    BuildSucceeds(t.columns, t.rows, idx);
    forall j | 0 <= j < t.columns ensures Distinct(BuildDependencies(t).value[j]) {
      BuildIsColumnwise(t.columns, t.rows, idx, j);
      ColumnDistinct(t.rows, idx, j);
    }
  }
}

=== FILE: edge_keys.dfy ===
/**
 * The string keys that name modules and edges on both sides of the wire:
 * the catalog names `Module n` (App.js:8-12), the edge keys
 * `Module p-Module m` the front end builds (App.js:74, 311), and the parse
 * of those keys in `prepare_matrix` (app.py:38-40).
 */
module EdgeKeys {
  import opened Wrappers
  import opened Py
  import opened AppState

  /** The catalog name of module `n`. */
  function ModuleName(n: nat): (r: string)
    ensures r == "Module " + Decimal(n)
  {
    "Module " + Decimal(n)
  }

  /** `${module1}-${module2}`: the key of the edge from `e.pred` to `e.succ`. */
  function EdgeKey(e: Edge): string {
    ModuleName(e.pred) + "-" + ModuleName(e.succ)
  }

  /** `int(name.split(' ')[1])`: the number in a module name. A name with
      no space has no second piece. */
  function ParseModule(name: string): (r: Result<int, PyError>)
    ensures r.Err? ==> r.error in {IndexError, ValueError}
    ensures r == Err(IndexError) <==> ' ' !in name
    ensures ' ' in name ==> r == IntOfText(Split(name, ' ')[1])
    ensures r.Ok? && '-' !in name ==> r.value >= 0
  {
    match Index(Split(name, ' '), 1)
    case Err(e) => Err(e)
    case Ok(piece) =>
      assert '-' in piece ==> '-' in name;
      IntOfText(piece)
  }

  /** `predecessor, successor = key.split('-')` followed by the two module
      parses; a key with other than one `-` fails to unpack. Neither piece
      holds a `-`, so both numbers are natural. */
  function ParseKey(key: string): (r: Result<Edge, PyError>)
    ensures r.Err? ==> r.error in {IndexError, ValueError}
    ensures |Split(key, '-')| != 2 ==> r == Err(ValueError)
    ensures |Split(key, '-')| == 2 ==>
      var parts := Split(key, '-');
      && (r.Ok? <==> ParseModule(parts[0]).Ok? && ParseModule(parts[1]).Ok?)
      && (r.Ok? ==> ParseModule(parts[0]) == Ok(r.value.pred) && ParseModule(parts[1]) == Ok(r.value.succ))
  {
    var parts := Split(key, '-');
    if |parts| != 2 then Err(ValueError)
    else
      match ParseModule(parts[0])
      case Err(e) => Err(e)
      case Ok(p) =>
        match ParseModule(parts[1])
        case Err(e) => Err(e)
        case Ok(m) => Ok(Edge(p, m))
  }

  lemma NoSeparatorInDecimal(n: nat, c: char)
    requires !IsDigit(c)
    ensures c !in Decimal(n)
  {
    var d := Decimal(n);
    assert forall i :: 0 <= i < |d| ==> d[i] != c;
  }

  /** The module number is read back from its catalog name
      (App.js:69 reads it the same way with `parseInt`). */
  lemma ParseModuleName(n: nat)
    ensures ParseModule(ModuleName(n)) == Ok(n)
  {
    NoSeparatorInDecimal(n, ' ');
    SplitAt("Module", ' ', Decimal(n));
    assert ModuleName(n) == "Module" + [' '] + Decimal(n);
    assert ' ' in ModuleName(n) by { assert ModuleName(n)[6] == ' '; }
    IntOfDecimal(n);
  }

  /** The backend parse inverts the front end's key format. */
  lemma ParseEdgeKey(e: Edge)
    ensures ParseKey(EdgeKey(e)) == Ok(e)
  {
    var a, b := ModuleName(e.pred), ModuleName(e.succ);
    NoSeparatorInDecimal(e.pred, '-');
    NoSeparatorInDecimal(e.succ, '-');
    assert '-' !in "Module ";
    SplitAt(a, '-', b);
    assert EdgeKey(e) == a + ['-'] + b;
    ParseModuleName(e.pred);
    ParseModuleName(e.succ);
  }

  /** Distinct edges have distinct keys, so the matrix object loses no entry. */
  lemma EdgeKeyInjective(e1: Edge, e2: Edge)
    requires EdgeKey(e1) == EdgeKey(e2)
    ensures e1 == e2
  {
    ParseEdgeKey(e1);
    ParseEdgeKey(e2);
  }
}

=== FILE: feasibility.dfy ===
/**
 * `feasible_set` (data_processing.py:78-90): per module, the periods in
 * which it may run — for an in-house module those where the available
 * resource covers its use, for an outsourced one all 156.
 */
module Feasibility {
  import opened Wrappers
  import opened Py
  import opened Profiles

  /** The planning horizon, in periods. */
  const Horizon: nat := 156

  /** The loop over `range(num_periods)`: 1 where `avail >= util`, 0
      elsewhere; `util` shorter than `avail` raises `IndexError`. */
  function FeasibleRow(avail: seq<real>, util: seq<real>): (r: Result<seq<int>, PyError>)
    ensures r.Err? <==> |util| < |avail|
    ensures r.Err? ==> r.error == IndexError
    ensures r.Ok? ==> |r.value| == |avail|
    ensures r.Ok? ==> forall i :: 0 <= i < |avail| ==> (r.value[i] == 1 <==> avail[i] >= util[i])
    ensures r.Ok? ==> forall i :: 0 <= i < |avail| ==> (r.value[i] == 0 <==> avail[i] < util[i])
  {
    if |avail| == 0 then Ok([])
    else
      var n := |avail| - 1;
      match FeasibleRow(avail[..n], util)
      case Err(e) => Err(e)
      case Ok(row) =>
        if n < |util| then Ok(row + [if avail[n] >= util[n] then 1 else 0])
        else Err(IndexError)
  }

  /** `[1] * 156`. */
  function AlwaysFeasible(): (r: seq<int>)
    ensures |r| == Horizon && forall i :: 0 <= i < |r| ==> r[i] == 1
  {
    seq(Horizon, _ => 1)
  }

  /** The feasibility row of one module; `len(None)` and indexing `None`
      raise `TypeError`. */
  function FeasibleFor(p: ModuleProfile): (r: Result<seq<int>, PyError>)
    ensures p.kind == Outsourced ==> r == Ok(AlwaysFeasible())
    ensures p.kind == Inhouse && p.avail.Some? && p.util.Some? ==> r == FeasibleRow(p.avail.value, p.util.value)
    ensures p.kind == Inhouse && p.avail.None? ==> r == Err(TypeError)
  {
    if p.kind == Outsourced then Ok(AlwaysFeasible())
    else
      match p.avail
      case None => Err(TypeError)
      case Some(avail) =>
        match p.util
        case Some(util) => FeasibleRow(avail, util)
        case None => if |avail| == 0 then Ok([]) else Err(TypeError)
  }

  /** `feasible_set` for modules `1..k`, in key order, or the first error. */
  function FeasibleSetUpTo(profiles: ModuleProfiles, k: nat): (r: Result<map<int, seq<int>>, PyError>)
    requires forall m :: 1 <= m <= k ==> m in profiles
    ensures r.Ok? ==> forall m :: m in r.value <==> 1 <= m <= k
    ensures r.Ok? ==> forall m :: 1 <= m <= k ==> Ok(r.value[m]) == FeasibleFor(profiles[m])
    ensures r.Err? <==> exists m :: 1 <= m <= k && FeasibleFor(profiles[m]).Err?
  {
    if k == 0 then Ok(map[])
    else
      match FeasibleSetUpTo(profiles, k - 1)
      case Err(e) => Err(e)
      case Ok(fs) =>
        match FeasibleFor(profiles[k])
        case Err(e) => Err(e)
        case Ok(row) => Ok(fs[k := row])
  }

  /** `feasible_set` for the twelve modules. */
  function FeasibleSet(profiles: ModuleProfiles): (r: Result<map<int, seq<int>>, PyError>)
    requires forall m :: 1 <= m <= ModuleCount ==> m in profiles
    ensures r.Ok? ==> forall m :: m in r.value <==> 1 <= m <= ModuleCount
    ensures r.Ok? ==> forall m :: 1 <= m <= ModuleCount ==> Ok(r.value[m]) == FeasibleFor(profiles[m])
    ensures r.Err? <==> exists m :: 1 <= m <= ModuleCount && FeasibleFor(profiles[m]).Err?
  {
    FeasibleSetUpTo(profiles, ModuleCount)
  }
}

=== FILE: handlers.dfy ===
/**
 * The App handlers of the reconciliation engine, each one atomic transition
 * (App.js:64-210). The work is done on the record of one kind; the
 * `On...` wrappers apply it to the kind named by `type`, then run the
 * reseed effect when the handler replaced a defaults object, which
 * rebuilds the popup entries of both kinds.
 */
module Handlers {
  import opened JsValues
  import opened Wrappers
  import opened AppState

  /** `after` is `before` with `v` written under `Module p-Module m` for every
      `p` in `preds`, and nothing else changed. */
  ghost predicate FannedOut(before: EdgeValues, after: EdgeValues, preds: seq<nat>, m: nat, v: Value) {
    && (forall e :: e in after <==> e in before || (e.succ == m && e.pred in preds))
    && (forall p :: p in preds ==> Edge(p, m) in after && after[Edge(p, m)] == v)
    && (forall e :: e in before && !(e.succ == m && e.pred in preds) ==> after[e] == before[e])
  }

  /** The `forEach` that writes `v` under `Module p-Module m` for every `p` in `preds`. */
  function FanOut(entry: EdgeValues, preds: seq<nat>, m: nat, v: Value): (r: EdgeValues)
    ensures FannedOut(entry, r, preds, m, v)
    decreases |preds|
  {
    if |preds| == 0 then entry
    else FanOut(entry[Edge(preds[0], m) := v], preds[1..], m, v)
  }

  /** `updatePopupValues(type, module, value)` (App.js:90-107). */
  function UpdatePopupValues(ks: KindState, deps: Deps, m: nat, v: Value): (r: KindState)
    ensures r.global == ks.global && r.defaults == ks.defaults
    ensures r.custom == ks.custom && r.flags == ks.flags
    ensures forall n :: n in r.popup <==> n in ks.popup || n == m
    ensures forall n :: n in ks.popup && n != m ==> r.popup[n] == ks.popup[n]
    ensures m in r.popup && FannedOut(Entry(ks, m), r.popup[m], PredsOf(deps, m), m, v)
  {
    ks.(popup := ks.popup[m := FanOut(Entry(ks, m), PredsOf(deps, m), m, v)])
  }

  /** `checkAndUpdateDefaultValue` (App.js:109-119): the global display value
      follows the per-module defaults when they hold a single distinct value. */
  function CheckAndUpdateDefault(newValues: map<nat, Value>, global: Value): (r: Value)
    ensures (exists v :: newValues.Values == {v}) ==> newValues.Values == {r}
    ensures !(exists v :: newValues.Values == {v}) ==> r == global
  {
    if |newValues.Values| == 1 then
      SizeOneIsSingleton(newValues.Values);
      var v :| newValues.Values == {v}; v
    else
      global
  }

  /** `handleDefaultInteractionChange` / `handleInformationFlowChange`
      (App.js:121-139) on the record of their kind. */
  function SetModuleDefault(ks: KindState, deps: Deps, m: nat, v: Value): (r: KindState)
    requires InCatalog(m)
    ensures ValidKind(ks) ==> ValidKind(r)
    ensures r.defaults == ks.defaults[m := v]
    ensures (forall n :: n in r.defaults ==> r.defaults[n] == v) ==> r.global == v
    ensures !(forall n :: n in r.defaults ==> r.defaults[n] == v) ==> r.global == ks.global
    ensures r.custom == ks.custom && r.flags == ks.flags
    ensures forall n :: n in r.popup <==> n in ks.popup || n == m
    ensures forall n :: n in ks.popup && n != m ==> r.popup[n] == ks.popup[n]
    ensures m in r.popup && FannedOut(Entry(ks, m), r.popup[m], PredsOf(deps, m), m, v)
  {
    var newDefaults := ks.defaults[m := v];
    assert forall n :: n in newDefaults ==> newDefaults[n] in newDefaults.Values;
    assert newDefaults[m] == v;
    assert (forall n :: n in newDefaults ==> newDefaults[n] == v) ==> newDefaults.Values == {v};
    var global := CheckAndUpdateDefault(newDefaults, ks.global);
    UpdatePopupValues(ks.(defaults := newDefaults, global := global), deps, m, v)
  }

  /** The `modules.forEach(module => updatePopupValues(type, module, value))`
      of `handleDefaultValueChange`: the catalog modules are distinct, so the
      twelve updates touch disjoint popup entries and compose to one map. */
  function UpdateAllPopupValues(ks: KindState, deps: Deps, v: Value): (r: KindState)
    ensures r.global == ks.global && r.defaults == ks.defaults
    ensures r.custom == ks.custom && r.flags == ks.flags
    ensures forall n :: n in r.popup <==> n in ks.popup || InCatalog(n)
    ensures forall n :: n in ks.popup && !InCatalog(n) ==> r.popup[n] == ks.popup[n]
    ensures forall n :: InCatalog(n) ==> FannedOut(Entry(ks, n), r.popup[n], PredsOf(deps, n), n, v)
  {
    var fans := Fans(ks, deps, v, CatalogSize);
    var popup := ks.popup + fans;
    assert forall n :: InCatalog(n) ==> popup[n] == fans[n];
    ks.(popup := popup)
  }

  /** The fanned-out entries of modules `1..k`, one `updatePopupValues`
      call each. */
  function Fans(ks: KindState, deps: Deps, v: Value, k: nat): (r: map<nat, EdgeValues>)
    ensures forall n :: n in r <==> 1 <= n <= k
    ensures forall n :: 1 <= n <= k ==> FannedOut(Entry(ks, n), r[n], PredsOf(deps, n), n, v)
  {
    if k == 0 then map[]
    else Fans(ks, deps, v, k - 1)[k := FanOut(Entry(ks, k), PredsOf(deps, k), k, v)]
  }

  /** `handleDefaultValueChange(type, value)` (App.js:186-210) on the record of
      its kind: the top-level default goes to the global value, to every
      catalog module's default and to every catalog module's popup edges. */
  function SetGlobalDefault(ks: KindState, deps: Deps, v: Value): (r: KindState)
    ensures ValidKind(ks) ==> ValidKind(r)
    ensures r.global == v
    ensures forall m :: m in r.defaults <==> m in ks.defaults || InCatalog(m)
    ensures forall m :: InCatalog(m) ==> r.defaults[m] == v
    ensures forall m :: m in ks.defaults && !InCatalog(m) ==> r.defaults[m] == ks.defaults[m]
    ensures r.custom == ks.custom && r.flags == ks.flags
    ensures forall m :: m in r.popup <==> m in ks.popup || InCatalog(m)
    ensures forall m :: m in ks.popup && !InCatalog(m) ==> r.popup[m] == ks.popup[m]
    ensures forall m :: InCatalog(m) ==> FannedOut(Entry(ks, m), r.popup[m], PredsOf(deps, m), m, v)
  {
    var seeded := ks.(global := v, defaults := ks.defaults + FromCatalog(v));
    UpdateAllPopupValues(seeded, deps, v)
  }

  /** `isCustom` of `handlePopupSubmit` (App.js:153-156). */
  predicate IsCustom(values: EdgeValues) {
    var unique := values.Values;
    |unique| > 1 || (|unique| == 1 && Empty !in unique)
  }

  /** The submitted values hold the single distinct value `v`. */
  predicate UniformAt(values: EdgeValues, v: Value) {
    values.Values == {v}
  }

  /** Two submitted edges carry different values. */
  predicate Mixed(values: EdgeValues) {
    exists e1, e2 :: e1 in values && e2 in values && values[e1] != values[e2]
  }

  /** What a set custom flag means: the submission is mixed, or uniformly
      one non-empty value. */
  ghost predicate CustomMeaning(values: EdgeValues) {
    Mixed(values) || (exists v :: UniformAt(values, v) && v != Empty)
  }

  /** The submission carries one distinct value. */
  ghost predicate SomeUniform(values: EdgeValues) {
    exists v :: UniformAt(values, v)
  }

  lemma {:induction false} IsCustomMeaning(values: EdgeValues)
    ensures IsCustom(values) <==> CustomMeaning(values)
  {
    var unique := values.Values;
    SizeAboveOneIsTwoDistinct(unique);
    if Mixed(values) {
      var e1, e2 :| e1 in values && e2 in values && values[e1] != values[e2];
      assert values[e1] in unique && values[e2] in unique;
    } else if |unique| == 1 {
      var v := TheValue(values);
      forall w | UniformAt(values, w) ensures w == v {
        assert w in {v};
      }
    }
  }

  /** `uniqueValues.values().next().value` for a set of size one. */
  function TheValue(values: EdgeValues): (v: Value)
    requires |values.Values| == 1
    ensures UniformAt(values, v)
    ensures forall w :: UniformAt(values, w) ==> w == v
  {
    SizeOneIsSingleton(values.Values);
    var v :| values.Values == {v};
    assert forall w :: UniformAt(values, w) ==> w in {v};
    v
  }

  /** The one distinct value of a submission, when it has exactly one. */
  function Single(values: EdgeValues): (o: Option<Value>)
    ensures o.Some? <==> |values.Values| == 1
    ensures forall w :: UniformAt(values, w) <==> o == Some(w)
  {
    if |values.Values| == 1 then
      Some(TheValue(values))
    else
      assert forall w :: !UniformAt(values, w) by {
        forall w | UniformAt(values, w) ensures false { }
      }
      None
  }

  datatype SubmitError =
    /** `dependencies[n].length` read on a module with no entry: a TypeError. */
    | MissingDependencies(m: nat)

  /** What a submission leaves behind: the state after every update the
      handler queued, and the error it threw, if any. The updates queued
      before a throw are still applied, so a failure carries a state too. */
  datatype Submitted<S> = Submitted(state: S, failure: Option<SubmitError>)

  /** `isCustom` of `handlePopupSubmit` (App.js:153-156): two different
      values, or one distinct value that is not `''`. */
  function CustomFlag(values: EdgeValues): (b: bool)
    ensures b <==> CustomMeaning(values)
  {
    IsCustomMeaning(values);
    var unique := values.Values;
    |unique| > 1 || (|unique| == 1 && Empty !in unique)
  }

  /** The collapse condition of `handlePopupSubmit` (App.js:166-171): every
      key of the submission carries `v`, and the popup held as many keys as
      the module has predecessors. */
  predicate Collapses(values: EdgeValues, snapshot: EdgeValues, depsAtOpen: Deps, m: nat, v: Value)
  {
    UniformAt(values, v) && m in depsAtOpen && |snapshot + values| == |depsAtOpen[m]|
  }

  /** Some value collapses the submission. */
  ghost predicate SomeCollapse(values: EdgeValues, snapshot: EdgeValues, depsAtOpen: Deps, m: nat) {
    exists v :: Collapses(values, snapshot, depsAtOpen, m, v)
  }

  /** The collapse step of `handlePopupSubmit` (App.js:166-183): a submission
      of one distinct value over as many keys as the module has predecessors
      becomes the module's default. */
  function Collapse(defaults: map<nat, Value>, m: nat, values: EdgeValues,
                    snapshot: EdgeValues, depsAtOpen: Deps): (r: Result<map<nat, Value>, SubmitError>)
    ensures r.Err? <==> SomeUniform(values) && m !in depsAtOpen
    ensures r.Err? ==> r.error == MissingDependencies(m)
    ensures r.Ok? ==> forall v :: Collapses(values, snapshot, depsAtOpen, m, v) ==> r.value == defaults[m := v]
    ensures r.Ok? ==> r.value == defaults || SomeCollapse(values, snapshot, depsAtOpen, m)
    ensures r.Ok? ==> r.value.Keys == defaults.Keys + {m} || r.value == defaults
  {
    match Single(values)
    case None => Ok(defaults)
    case Some(v) =>
      if m !in depsAtOpen then Err(MissingDependencies(m))
      else if |snapshot + values| == |depsAtOpen[m]| then
        assert Collapses(values, snapshot, depsAtOpen, m, v);
        Ok(defaults[m := v])
      else Ok(defaults)
  }

  /** The three record updates of `handlePopupSubmit` (App.js:143-164): the
      popup entry is replaced by the submission, the submission is merged
      over the custom values, and the module's custom flag is set. */
  function RecordSubmission(ks: KindState, m: nat, values: EdgeValues): (r: KindState)
    ensures r.global == ks.global && r.defaults == ks.defaults
    ensures r.popup == ks.popup[m := values]
    ensures forall e :: e in r.custom <==> e in ks.custom || e in values
    ensures forall e :: e in values ==> r.custom[e] == values[e]
    ensures forall e :: e in ks.custom && e !in values ==> r.custom[e] == ks.custom[e]
    ensures forall n :: n in r.flags <==> n in ks.flags || n == m
    ensures forall n :: n in ks.flags && n != m ==> r.flags[n] == ks.flags[n]
    ensures r.flags[m] <==> CustomMeaning(values)
  {
    ks.(popup := ks.popup[m := values],
        custom := ks.custom + values,
        flags := ks.flags[m := CustomFlag(values)])
  }

  /**
   * `handlePopupSubmit(module, type, values)` (App.js:141-184) on the record
   * of its kind. `snapshot` and `depsAtOpen` are the
   * `popupValues[`${type}-${module}`]` and `dependencies` of the render that
   * opened the popup window: the handler was bound then (App.js:233-234), so
   * the collapse check reads them rather than the current ones. The three
   * record updates are queued before the collapse check can throw, so they
   * hold on both outcomes; only the default collapse is lost to the throw.
   */
  function SubmitPopup(ks: KindState, m: nat, values: EdgeValues,
                       snapshot: EdgeValues, depsAtOpen: Deps): (r: Submitted<KindState>)
    requires InCatalog(m)
    ensures r.failure.Some? <==> SomeUniform(values) && m !in depsAtOpen
    ensures r.failure.Some? ==> r.failure.value == MissingDependencies(m)
    ensures ValidKind(ks) ==> ValidKind(r.state)
    ensures var recorded := RecordSubmission(ks, m, values);
      && r.state.global == recorded.global && r.state.popup == recorded.popup
      && r.state.custom == recorded.custom && r.state.flags == recorded.flags
    ensures r.failure.Some? ==> r.state.defaults == ks.defaults
    ensures r.failure.None? ==> forall v :: Collapses(values, snapshot, depsAtOpen, m, v) ==>
      r.state.defaults == ks.defaults[m := v]
    ensures r.state.defaults == ks.defaults || SomeCollapse(values, snapshot, depsAtOpen, m)
  {
    var recorded := RecordSubmission(ks, m, values);
    match Collapse(ks.defaults, m, values, snapshot, depsAtOpen)
    case Err(e) => Submitted(recorded, Some(e))
    case Ok(defaults) =>
      assert ValidKind(ks) ==> defaults.Keys == CatalogSet;
      Submitted(recorded.(defaults := defaults), None)
  }

  /** One popup entry as the reseed effect builds it: every predecessor edge
      of `m` carries `m`'s own default. */
  function SeedEntry(ks: KindState, deps: Deps, m: nat): (r: EdgeValues)
    requires m in ks.defaults
    ensures forall e :: e in r <==> e.succ == m && e.pred in PredsOf(deps, m)
    ensures forall e :: e in r ==> r[e] == ks.defaults[m]
  {
    FanOut(map[], PredsOf(deps, m), m, ks.defaults[m])
  }

  /** Every popup entry of the kind is the one the reseed effect builds
      from the kind's own defaults: one entry per catalog module, holding
      exactly the module's predecessor edges, each at the module's default. */
  ghost predicate Seeded(ks: KindState, deps: Deps)
    requires ValidKind(ks)
  {
    ks.popup.Keys == CatalogSet && forall m :: InCatalog(m) ==> ks.popup[m] == SeedEntry(ks, deps, m)
  }

  /** The popup entries of one kind as the reseed effect (App.js:64-88)
      rebuilds them: one per catalog module, nothing else kept. */
  function SeedPopups(ks: KindState, deps: Deps): (r: KindState)
    requires ValidKind(ks)
    ensures r == ks.(popup := r.popup)
    ensures ValidKind(r) && Seeded(r, deps)
    ensures r.popup.Keys == CatalogSet
    ensures forall m, e :: InCatalog(m) ==> (e in r.popup[m] <==> e.succ == m && e.pred in PredsOf(deps, m))
    ensures forall m, e :: InCatalog(m) && e in r.popup[m] ==> r.popup[m][e] == ks.defaults[m]
  {
    ks.(popup := map m | m in CatalogSet :: SeedEntry(ks, deps, m))
  }

  /** The reseed effect (App.js:64-88): once the dependency map is non-empty
      the popup map of both kinds is rebuilt; otherwise nothing happens. */
  function Reseed(s: State): (r: State)
    requires Valid(s)
    ensures Valid(r) && r.deps == s.deps
    ensures |s.deps| == 0 ==> r == s
    ensures |s.deps| > 0 ==> r.interaction == SeedPopups(s.interaction, s.deps)
    ensures |s.deps| > 0 ==> r.information == SeedPopups(s.information, s.deps)
  {
    if |s.deps| == 0 then s
    else s.(interaction := SeedPopups(s.interaction, s.deps),
            information := SeedPopups(s.information, s.deps))
  }

  /** The dependency fetch (App.js:43-62) delivering `dependencies`, followed
      by the effect it triggers; `None` is a failed fetch or a response
      without a `dependencies` field, which leaves the state as it was. */
  function DependenciesArrived(s: State, delivered: Option<Deps>): (r: State)
    requires Valid(s)
    ensures Valid(r)
    ensures delivered.None? ==> r == s
    ensures delivered.Some? ==> r.deps == delivered.value
    ensures r.interaction.defaults == s.interaction.defaults && r.information.defaults == s.information.defaults
    ensures r.interaction.custom == s.interaction.custom && r.information.custom == s.information.custom
  {
    match delivered
    case None => s
    case Some(deps) => Reseed(s.(deps := deps))
  }

  /** What the reseed effect leaves of a handler's own updates `edited` to
      the kind `k` of `s`: while no dependencies are known, the updates as
      they are and the other kind untouched; once they are, every record
      field but the popup map as the updates left it, and the popup maps of
      both kinds rebuilt from the defaults. */
  ghost predicate Reseeded(s: State, k: Kind, edited: KindState, r: State)
    requires Valid(r)
  {
    && r.deps == s.deps
    && r.Of(k) == edited.(popup := r.Of(k).popup)
    && r.Of(Other(k)) == s.Of(Other(k)).(popup := r.Of(Other(k)).popup)
    && (|s.deps| == 0 ==> r.Of(k) == edited && r.Of(Other(k)) == s.Of(Other(k)))
    && (|s.deps| > 0 ==> Seeded(r.Of(k), s.deps) && Seeded(r.Of(Other(k)), s.deps))
  }

  /** The reseed effect applied after a handler replaced the defaults object
      of kind `k` with the record `edited`. */
  function ReseedAfter(s: State, k: Kind, edited: KindState): (r: State)
    requires Valid(s) && ValidKind(edited)
    ensures Valid(r) && Reseeded(s, k, edited, r)
  {
    ValidOf(s, k);
    Reseed(s.With(k, edited))
  }

  /**
   * Per-module default edit on the kind `k` (App.js:121-139). The edit
   * replaces the `defaultInteractions` / `informationFlow` object, which is
   * a dependency of the reseed effect (App.js:88), so the effect runs after
   * it: once dependencies are known, the popup entries of both kinds are
   * rebuilt from the defaults, and the handler's own popup update is
   * overwritten.
   */
  function OnModuleDefaultChange(s: State, k: Kind, m: nat, v: Value): (r: State)
    requires Valid(s) && InCatalog(m)
    ensures Valid(r)
    ensures Reseeded(s, k, SetModuleDefault(s.Of(k), s.deps, m, v), r)
  {
    ValidOf(s, k);
    ReseedAfter(s, k, SetModuleDefault(s.Of(k), s.deps, m, v))
  }

  /** Top-level default edit on the kind `k` (App.js:186-210), followed by
      the reseed effect its new defaults object triggers. */
  function OnGlobalDefaultChange(s: State, k: Kind, v: Value): (r: State)
    requires Valid(s)
    ensures Valid(r)
    ensures Reseeded(s, k, SetGlobalDefault(s.Of(k), s.deps, v), r)
  {
    ValidOf(s, k);
    ReseedAfter(s, k, SetGlobalDefault(s.Of(k), s.deps, v))
  }

  /** The collapse test of `handlePopupSubmit` passed: the handler called
      `setDefaultInteractions` / `setInformationFlow`. */
  predicate Collapsed(values: EdgeValues, snapshot: EdgeValues, depsAtOpen: Deps, m: nat) {
    Single(values).Some? && m in depsAtOpen && |snapshot + values| == |depsAtOpen[m]|
  }

  lemma CollapsedMeans(values: EdgeValues, snapshot: EdgeValues, depsAtOpen: Deps, m: nat)
    ensures Collapsed(values, snapshot, depsAtOpen, m) <==> SomeCollapse(values, snapshot, depsAtOpen, m)
  {
    var o := Single(values);
    if o.Some? {
      assert UniformAt(values, o.value);
      if Collapsed(values, snapshot, depsAtOpen, m) {
        assert Collapses(values, snapshot, depsAtOpen, m, o.value);
      }
    }
    if SomeCollapse(values, snapshot, depsAtOpen, m) {
      var v :| Collapses(values, snapshot, depsAtOpen, m, v);
      assert o == Some(v);
    }
  }

  /**
   * Popup submission on the kind `k` (App.js:141-184). A submission that
   * collapses to a new default replaces the defaults object, so the reseed
   * effect runs after it; any other submission, and one that throws, leaves
   * the defaults object alone and the effect does not run.
   */
  function OnPopupSubmit(s: State, k: Kind, m: nat, values: EdgeValues,
                         snapshot: EdgeValues, depsAtOpen: Deps): (r: Submitted<State>)
    requires Valid(s) && InCatalog(m)
    ensures r.failure == SubmitPopup(s.Of(k), m, values, snapshot, depsAtOpen).failure
    ensures Valid(r.state) && r.state.deps == s.deps
    ensures SomeCollapse(values, snapshot, depsAtOpen, m) ==>
      Reseeded(s, k, SubmitPopup(s.Of(k), m, values, snapshot, depsAtOpen).state, r.state)
    ensures !SomeCollapse(values, snapshot, depsAtOpen, m) ==>
      r.state.Of(k) == SubmitPopup(s.Of(k), m, values, snapshot, depsAtOpen).state &&
      r.state.Of(Other(k)) == s.Of(Other(k))
    ensures r.state.Of(k).custom == SubmitPopup(s.Of(k), m, values, snapshot, depsAtOpen).state.custom
    ensures r.state.Of(Other(k)).custom == s.Of(Other(k)).custom
  {
    var sub := SubmitPopup(s.Of(k), m, values, snapshot, depsAtOpen);
    ValidOf(s, k);
    CollapsedMeans(values, snapshot, depsAtOpen, m);
    if Collapsed(values, snapshot, depsAtOpen, m) then
      Submitted(ReseedAfter(s, k, sub.state), sub.failure)
    else
      Submitted(s.With(k, sub.state), sub.failure)
  }

  /** Once the dependencies are known, a default edit of either kind
      discards every earlier popup edit of both kinds: each module's entry
      holds exactly its predecessor edges, each at the module's default. */
  lemma DefaultEditResetsPopups(s: State, k: Kind, m: nat, v: Value, j: Kind, n: nat)
    requires Valid(s) && InCatalog(m) && InCatalog(n) && |s.deps| > 0
    ensures var r := OnModuleDefaultChange(s, k, m, v);
      forall e :: e in Entry(r.Of(j), n) <==> e.succ == n && e.pred in PredsOf(s.deps, n)
    ensures var r := OnModuleDefaultChange(s, k, m, v);
      forall e :: e in Entry(r.Of(j), n) ==> Entry(r.Of(j), n)[e] == Get(r.Of(j).defaults, n)
  {
    var r := OnModuleDefaultChange(s, k, m, v);
    ReseededBothKinds(s, k, SetModuleDefault(s.Of(k), s.deps, m, v), r, j);
    SeededShowsDefault(r.Of(j), s.deps, n);
  }

  lemma ReseededBothKinds(s: State, k: Kind, edited: KindState, r: State, j: Kind)
    requires Valid(r) && Reseeded(s, k, edited, r) && |s.deps| > 0
    ensures ValidKind(r.Of(j)) && Seeded(r.Of(j), s.deps)
  {
    ValidOf(r, k);
    if j != k {
      assert j == Other(k);
    }
  }

  lemma SeededShowsDefault(ks: KindState, deps: Deps, n: nat)
    requires ValidKind(ks) && Seeded(ks, deps) && InCatalog(n)
    ensures forall e :: e in Entry(ks, n) <==> e.succ == n && e.pred in PredsOf(deps, n)
    ensures forall e :: e in Entry(ks, n) ==> Entry(ks, n)[e] == ks.defaults[n]
  {
    assert Entry(ks, n) == SeedEntry(ks, deps, n);
  }
}

=== FILE: interaction_matrix.dfy ===
/**
 * `buildInteractionMatrix` (App.js:306-321): the dense matrix sent to the
 * optimisation call, one entry per ordered pair of distinct catalog modules.
 */
module InteractionMatrix {
  import opened JsValues
  import opened Wrappers
  import opened AppState
  import opened Handlers

  /** An ordered pair `module1 !== module2` of catalog modules. */
  predicate IsPair(e: Edge) {
    InCatalog(e.pred) && InCatalog(e.succ) && e.pred != e.succ
  }

  const Pairs: set<Edge> :=
    set a: nat, b: nat | 1 <= a <= CatalogSize && 1 <= b <= CatalogSize && a != b :: Edge(a, b)

  /** `interactions[key] || defaults[module1] || 0`: always a number. */
  function Cell(ks: KindState, e: Edge): (r: real)
    ensures Truthy(Get(ks.custom, e)) ==> r == Get(ks.custom, e).n
    ensures !Truthy(Get(ks.custom, e)) && Truthy(Get(ks.defaults, e.pred)) ==> r == Get(ks.defaults, e.pred).n
    ensures !Truthy(Get(ks.custom, e)) && !Truthy(Get(ks.defaults, e.pred)) ==> r == 0.0
  {
    Or(Or(Get(ks.custom, e), Get(ks.defaults, e.pred)), Num(0.0)).n
  }

  /** The matrix of one kind: the custom edge map of that kind, falling back
      to the per-module default of the predecessor `module1`, then to 0. */
  function BuildMatrix(ks: KindState): (r: map<Edge, real>)
    ensures forall e :: e in r <==> IsPair(e)
    ensures forall e :: e in r && Truthy(Get(ks.custom, e)) ==> r[e] == ks.custom[e].n
    ensures forall e :: e in r && !Truthy(Get(ks.custom, e)) && Truthy(Get(ks.defaults, e.pred)) ==>
      r[e] == ks.defaults[e.pred].n
    ensures forall e :: e in r && !Truthy(Get(ks.custom, e)) && !Truthy(Get(ks.defaults, e.pred)) ==>
      r[e] == 0.0
  {
    assert forall e :: IsPair(e) ==> e in Pairs by {
      forall e | IsPair(e) ensures e in Pairs {
        assert e == Edge(e.pred, e.succ);
      }
    }
    map e | e in Pairs :: Cell(ks, e)
  }

  /** After a top-level default edit to a non-zero `v`, every pair without a
      truthy custom value carries `v` (App.js:186-210 then 306-321). */
  lemma GlobalDefaultReachesMatrix(s: State, k: Kind, v: Value, e: Edge)
    requires Valid(s) && Truthy(v) && IsPair(e) && !Truthy(Get(s.Of(k).custom, e))
    ensures BuildMatrix(OnGlobalDefaultChange(s, k, v).Of(k))[e] == v.n
  {
    var ks := OnGlobalDefaultChange(s, k, v).Of(k);
    assert ks.defaults[e.pred] == v;
  }

  /** A truthy submitted popup value is what the matrix sends for its pair,
      whether or not the submission then throws, and whether or not the
      reseed effect runs after it. */
  lemma SubmittedValueReachesMatrix(s: State, k: Kind, m: nat, values: EdgeValues,
                                    snapshot: EdgeValues, depsAtOpen: Deps, e: Edge)
    requires Valid(s) && InCatalog(m)
    requires e in values && Truthy(values[e]) && IsPair(e)
    ensures BuildMatrix(OnPopupSubmit(s, k, m, values, snapshot, depsAtOpen).state.Of(k))[e] == values[e].n
  {
    var ks := OnPopupSubmit(s, k, m, values, snapshot, depsAtOpen).state.Of(k);
    assert ks.custom[e] == values[e];
  }

  /** A custom value of 0 is falsy, so the pair falls through to the
      predecessor's default as if no custom value had been entered. */
  lemma ZeroCustomFallsThrough(ks: KindState, e: Edge)
    requires IsPair(e) && e in ks.custom && ks.custom[e] == Num(0.0)
    ensures BuildMatrix(ks)[e] == BuildMatrix(ks.(custom := ks.custom - {e}))[e]
  {
    assert Get(ks.custom - {e}, e) == Empty;
  }
}

=== FILE: js_values.dfy ===
/**
 * Values held in the React state of the front end, and the two pieces of
 * JavaScript semantics the handlers lean on: truthiness with `||`, and the
 * size of a `Set` built from `Object.values(...)`.
 */
module JsValues {
  import SeqFacts

  /** A parsed input field: `''` (the empty sentinel) or a number. */
  datatype Value = Empty | Num(n: real)

  /** What a `type="number"` field hands its `onChange`: `''` when cleared,
      otherwise text that `parseFloat` reads as the number `x`. */
  datatype Input = Cleared | Entered(x: real)

  /** JavaScript truthiness of a stored value: `''` and `0` are falsy. */
  predicate Truthy(v: Value) {
    v.Num? && v.n != 0.0
  }

  /** A map read where a missing key (`undefined`) is as falsy as `''`. */
  function Get<K>(m: map<K, Value>, k: K): (r: Value)
    ensures k in m ==> r == m[k]
    ensures k !in m ==> !Truthy(r)
  {
    if k in m then m[k] else Empty
  }

  /** `a || b` on stored values. */
  function Or(a: Value, b: Value): (r: Value)
    ensures Truthy(r) <==> Truthy(a) || Truthy(b)
    ensures Truthy(a) ==> r == a
    ensures !Truthy(a) ==> r == b
  {
    if Truthy(a) then a else b
  }

  /** A `Set` of values whose `.size === 1` holds exactly one element. */
  lemma SizeOneIsSingleton<T>(s: set<T>)
    requires |s| == 1
    ensures exists v :: s == {v}
  {
    var v :| v in s;
    assert |s - {v}| == 0;
    assert s == {v};
  }

  /** A `Set` whose `.size > 1` holds two different elements, and back. */
  lemma SizeAboveOneIsTwoDistinct<T>(s: set<T>)
    ensures |s| > 1 <==> exists a, b :: a in s && b in s && a != b
  {
    if |s| > 1 {
      var a :| a in s;
      assert |s - {a}| > 0;
      var b :| b in s - {a};
    }
    if exists a, b :: a in s && b in s && a != b {
      var a, b :| a in s && b in s && a != b;
      assert {a, b} <= s;
      assert |{a, b}| == 2;
      SeqFacts.SubsetSize({a, b}, s);
    }
  }
}

=== FILE: main_run.dfy ===
/**
 * What `run_genetic_algorithm` (main.py:18-53) does around the optimiser:
 * it converts the posted run parameters, appends a module cost to every
 * entry of the best schedule, and packs the three results into the object
 * the route returns.
 */
module MainRun {
  import opened Wrappers
  import opened Py
  import opened Profiles
  import Selection

  // ---------------------------------------------------------------------
  // Run parameters (main.py:22-25)

  /** A posted JSON value of a run parameter: the front end sends a number
      until its input field is edited, and the field's text afterwards. */
  datatype Param = PNum(x: real) | PText(s: string) | PNull

  /** `int(v)`: a number is truncated toward zero; text is read as Python
      reads an integer literal; `None` raises `TypeError`. */
  function ToInt(v: Param): (r: Result<int, PyError>)
    ensures v.PNum? ==> r == Ok(Trunc(v.x))
    ensures v.PNull? ==> r == Err(TypeError)
    ensures v.PText? ==> r == IntOfText(v.s)
    ensures r.Err? ==> r.error in {TypeError, ValueError}
  {
    match v
    case PNum(x) => Ok(Trunc(x))
    case PNull => Err(TypeError)
    case PText(s) => IntOfText(s)
  }

  /** `10 ** n`. */
  function Pow10(n: nat): (r: nat)
    ensures r >= 1
  {
    if n == 0 then 1 else 10 * Pow10(n - 1)
  }

  /** `whole.frac` with `digits` digits after the point. */
  function PointValue(whole: nat, frac: nat, digits: nat): real {
    whole as real + frac as real / Pow10(digits) as real
  }

  /** A possibly empty run of digits, read as 0 when empty. */
  function DigitsOrZero(s: string): (r: Result<nat, PyError>)
    ensures r.Ok? <==> forall i :: 0 <= i < |s| ==> IsDigit(s[i])
    ensures |s| == 0 ==> r == Ok(0)
    ensures |s| > 0 ==> r == ParseDigits(s)
  {
    if |s| == 0 then Ok(0) else ParseDigits(s)
  }

  /** The pieces of decimal text around its point: one digit run, or two
      runs of which one may be empty. */
  function ReadParts(parts: seq<string>): (r: Result<real, PyError>)
    requires |parts| >= 1
    ensures r.Err? ==> r.error == ValueError
    ensures |parts| == 1 ==> (r.Ok? <==> ParseDigits(parts[0]).Ok?)
    ensures |parts| == 1 && r.Ok? ==> r.value == ParseDigits(parts[0]).value as real
    ensures |parts| > 2 ==> r.Err?
  {
    if |parts| == 1 then
      match ParseDigits(parts[0])
      case Err(e) => Err(e)
      case Ok(n) => Ok(n as real)
    else if |parts| == 2 && (|parts[0]| > 0 || |parts[1]| > 0) then
      match DigitsOrZero(parts[0])
      case Err(e) => Err(e)
      case Ok(whole) =>
        match DigitsOrZero(parts[1])
        case Err(e) => Err(e)
        case Ok(frac) => Ok(PointValue(whole, frac, |parts[1]|))
    else Err(ValueError)
  }

  /** Unsigned decimal text `digits[.digits]`, with at least one digit on
      one side of the point. */
  function ParseUnsignedReal(s: string): (r: Result<real, PyError>)
    ensures r.Err? ==> r.error == ValueError
    ensures '.' !in s ==> (r.Ok? <==> ParseDigits(s).Ok?)
    ensures '.' !in s && r.Ok? ==> r.value == ParseDigits(s).value as real
  {
    ReadParts(Py.Split(s, '.'))
  }

  /** `float(v)`: a number is kept; a text must be optionally signed
      decimal text; `None` raises `TypeError`. */
  function ToReal(v: Param): (r: Result<real, PyError>)
    ensures v.PNum? ==> r == Ok(v.x)
    ensures v.PNull? ==> r == Err(TypeError)
    ensures v.PText? ==> (r.Ok? <==> ParseUnsignedReal(Signed(v.s).1).Ok?)
    ensures v.PText? && r.Ok? ==>
      r.value == if Signed(v.s).0 then -ParseUnsignedReal(Signed(v.s).1).value else ParseUnsignedReal(Signed(v.s).1).value
    ensures r.Err? ==> r.error in {TypeError, ValueError}
  {
    match v
    case PNum(x) => Ok(x)
    case PNull => Err(TypeError)
    case PText(s) =>
      var (neg, digits) := Signed(s);
      match ParseUnsignedReal(digits)
      case Err(e) => Err(e)
      case Ok(x) => Ok(if neg then -x else x)
  }

  /** The numeric run parameters as the optimiser receives them. */
  datatype RunParams = RunParams(population: int, mutationRate: real, crossoverRate: real, generations: int)

  /** `input_params[name]`, raising `KeyError` for a missing name. */
  function Field(input: map<string, Param>, name: string): (r: Result<Param, PyError>)
    ensures name in input <==> r.Ok?
    ensures r.Ok? ==> r.value == input[name]
    ensures r.Err? ==> r.error == KeyError
  {
    if name in input then Ok(input[name]) else Err(KeyError)
  }

  /** `int(input_params[name])`. */
  function IntField(input: map<string, Param>, name: string): (r: Result<int, PyError>)
    ensures name !in input ==> r == Err(KeyError)
    ensures name in input ==> r == ToInt(input[name])
  {
    match Field(input, name)
    case Err(e) => Err(e)
    case Ok(v) => ToInt(v)
  }

  /** `float(input_params[name])`. */
  function RealField(input: map<string, Param>, name: string): (r: Result<real, PyError>)
    ensures name !in input ==> r == Err(KeyError)
    ensures name in input ==> r == ToReal(input[name])
  {
    match Field(input, name)
    case Err(e) => Err(e)
    case Ok(v) => ToReal(v)
  }

  /** Every parameter is present and converts. */
  predicate Converts(input: map<string, Param>) {
    && "population" in input && ToInt(input["population"]).Ok?
    && "mutationRate" in input && ToReal(input["mutationRate"]).Ok?
    && "crossoverRate" in input && ToReal(input["crossoverRate"]).Ok?
    && "generations" in input && ToInt(input["generations"]).Ok?
  }

  /** main.py:22-25: population and generations through `int()`, the two
      rates through `float()`, in that order, the first failure raising. */
  function ConvertParams(input: map<string, Param>): (r: Result<RunParams, PyError>)
    ensures r.Ok? <==> Converts(input)
    ensures r.Ok? ==>
      && r.value.population == ToInt(input["population"]).value
      && r.value.mutationRate == ToReal(input["mutationRate"]).value
      && r.value.crossoverRate == ToReal(input["crossoverRate"]).value
      && r.value.generations == ToInt(input["generations"]).value
    ensures "population" !in input ==> r == Err(KeyError)
    ensures r.Err? ==> r.error in {KeyError, TypeError, ValueError}
  {
    match IntField(input, "population")
    case Err(e) => Err(e)
    case Ok(population) =>
      match RealField(input, "mutationRate")
      case Err(e) => Err(e)
      case Ok(mutationRate) =>
        match RealField(input, "crossoverRate")
        case Err(e) => Err(e)
        case Ok(crossoverRate) =>
          match IntField(input, "generations")
          case Err(e) => Err(e)
          case Ok(generations) =>
            Ok(RunParams(population, mutationRate, crossoverRate, generations))
  }

  /** The decimal text of a whole number converts back to it. */
  lemma IntTextRoundTrip(n: nat)
    ensures ToInt(PText(Decimal(n))) == Ok(n)
    ensures ToInt(PText("-" + Decimal(n))) == Ok(-(n as int))
  {
    IntOfDecimal(n);
  }

  /** The text `whole.frac` the rate fields hold converts to the number it
      writes. */
  lemma RealTextRoundTrip(whole: nat, frac: nat)
    ensures var f := Decimal(frac);
      ToReal(PText(Decimal(whole) + "." + f)) == Ok(PointValue(whole, frac, |f|))
  {
    ParseDecimal(whole);
    ParseDecimal(frac);
    PointText(Decimal(whole), Decimal(frac), whole, frac);
  }

  /** Two digit runs joined by a point read as the whole part plus the
      fraction. */
  lemma PointText(w: string, f: string, a: nat, b: nat)
    requires ParseDigits(w) == Ok(a) && ParseDigits(f) == Ok(b)
    ensures ToReal(PText(w + "." + f)) == Ok(PointValue(a, b, |f|))
  {
    var s := w + "." + f;
    assert s[0] == w[0] && IsDigit(w[0]);
    assert Signed(s) == (false, s);
    NoPoint(w);
    NoPoint(f);
    PointSplits(w, f);
    ReadsAtPoint(s, w, f, a, b);
  }

  /** A digit run holds no point. */
  lemma NoPoint(w: string)
    requires ParseDigits(w).Ok?
    ensures '.' !in w
  {
    assert forall i :: 0 <= i < |w| ==> w[i] != '.' by {
      forall i | 0 <= i < |w| ensures w[i] != '.' { assert IsDigit(w[i]); }
    }
  }

  /** `w.f` splits at its one point. */
  lemma PointSplits(w: string, f: string)
    requires '.' !in w && '.' !in f
    ensures Py.Split(w + "." + f, '.') == [w, f]
  {
    SplitAt(w, '.', f);
    assert w + "." + f == w + ['.'] + f;
    assert Py.Split(f, '.') == [f];
  }

  /** Text that splits at its point into two digit runs reads as the whole
      part plus the fraction. */
  lemma ReadsAtPoint(s: string, w: string, f: string, a: nat, b: nat)
    requires Py.Split(s, '.') == [w, f] && ParseDigits(w) == Ok(a) && ParseDigits(f) == Ok(b)
    ensures ParseUnsignedReal(s) == Ok(PointValue(a, b, |f|))
  {
    assert DigitsOrZero(w) == Ok(a) && DigitsOrZero(f) == Ok(b);
    assert ReadParts([w, f]) == Ok(PointValue(a, b, |f|));
  }

  /** The front end's initial parameters (App.js:15-20) convert to
      themselves. */
  lemma InitialParamsConvert()
    ensures ConvertParams(map["population" := PNum(100.0), "generations" := PNum(50.0),
                              "mutationRate" := PNum(0.1), "crossoverRate" := PNum(0.5)])
      == Ok(RunParams(100, 0.1, 0.5, 50))
  {
    assert Trunc(100.0) == 100;
    assert Trunc(50.0) == 50;
  }

  // ---------------------------------------------------------------------
  // Module costs (main.py:39-47)

  /** A Python value inside a schedule entry `[start, supplier, crash, end]`. */
  datatype PyVal = Int(i: int) | Float(x: real) | NoneVal

  /** `x ** 2` and `c * x`: numbers only, `None` raises `TypeError`. */
  function Number(v: PyVal): (r: Result<real, PyError>)
    ensures r.Ok? <==> !v.NoneVal?
    ensures v.Int? ==> r == Ok(v.i as real)
    ensures v.Float? ==> r == Ok(v.x)
    ensures r.Err? ==> r.error == TypeError
  {
    match v
    case Int(i) => Ok(i as real)
    case Float(x) => Ok(x)
    case NoneVal => Err(TypeError)
  }

  /** The best schedule: module number to its entry, in the dict's order. */
  type Schedule = seq<(int, seq<PyVal>)>

  /** The cost of an in-house module: its base cost plus the crash cost
      times the square of the crash periods (main.py:41-43). */
  function InhouseCost(p: ModuleProfile, value: seq<PyVal>): (r: Result<real, PyError>)
    ensures r.Ok? <==>
      p.cost.Scalar? && |p.crashCost| > 0 && |value| > 2 && !value[2].NoneVal?
    ensures r.Ok? ==> var k := Number(value[2]).value;
      r.value == p.cost.x + p.crashCost[0] * (k * k)
    ensures p.cost.PerSupplier? ==> r == Err(TypeError)
    ensures r.Err? ==> r.error in {TypeError, IndexError}
  {
    match p.cost
    case PerSupplier(_) => Err(TypeError)
    case Scalar(c) =>
      match Index(p.crashCost, 0)
      case Err(e) => Err(e)
      case Ok(cc) =>
        match Index(value, 2)
        case Err(e) => Err(e)
        case Ok(crash) =>
          match Number(crash)
          case Err(e) => Err(e)
          case Ok(k) =>
            Ok(c + cc * (k * k))
  }

  /** `cost[value[1] - 1]`: the index must be a whole number, the list a
      list; negative indices count from the end as in Python. */
  function SupplierItem(xs: Cost, supplier: PyVal): (r: Result<real, PyError>)
    ensures supplier.NoneVal? || supplier.Float? || xs.Scalar? ==> r == Err(TypeError)
    ensures supplier.Int? && xs.PerSupplier? ==> r == Index(xs.xs, supplier.i - 1)
  {
    match supplier
    case NoneVal => Err(TypeError)
    case Float(_) => Err(TypeError)
    case Int(s) =>
      match xs
      case Scalar(_) => Err(TypeError)
      case PerSupplier(l) => Index(l, s - 1)
  }

  /** The supplier `s` has a cost and a crash cost in the profile. */
  predicate Quoted(p: ModuleProfile, s: int) {
    p.cost.PerSupplier? && 1 <= s <= |p.cost.xs| && s <= |p.crashCost|
  }

  /** The cost of an outsourced module: the chosen supplier's cost plus its
      crash cost times the crash periods, linearly (main.py:44-46). */
  function OutsourcedCost(p: ModuleProfile, value: seq<PyVal>): (r: Result<real, PyError>)
    ensures |value| > 2 && value[1].Int? && Quoted(p, value[1].i) && !value[2].NoneVal? ==>
      var s := value[1].i;
      r == Ok(p.cost.xs[s - 1] + p.crashCost[s - 1] * Number(value[2]).value)
    ensures |value| < 2 ==> r == Err(IndexError)
    ensures |value| >= 2 && !value[1].Int? ==> r == Err(TypeError)
    ensures |value| >= 2 && p.cost.Scalar? ==> r == Err(TypeError)
    ensures r.Ok? ==> |value| > 2 && value[1].Int? && !value[2].NoneVal? && p.cost.PerSupplier?
    ensures r.Err? ==> r.error in {TypeError, IndexError}
  {
    match Index(value, 1)
    case Err(e) => Err(e)
    case Ok(supplier) =>
      match SupplierItem(p.cost, supplier)
      case Err(e) => Err(e)
      case Ok(base) =>
        match SupplierItem(PerSupplier(p.crashCost), supplier)
        case Err(e) => Err(e)
        case Ok(cc) =>
          match Index(value, 2)
          case Err(e) => Err(e)
          case Ok(crash) =>
            match Number(crash)
            case Err(e) => Err(e)
            case Ok(k) =>
              assert Quoted(p, value[1].i) ==>
                base + cc * k == p.cost.xs[value[1].i - 1] + p.crashCost[value[1].i - 1] * Number(value[2]).value;
              Ok(base + cc * k)
  }

  /** The cost main.py appends for module `key`: `KeyError` for a module
      without a profile, the in-house formula for an in-house module and
      the outsourced one otherwise. */
  function ModuleCost(profiles: ModuleProfiles, key: int, value: seq<PyVal>): (r: Result<real, PyError>)
    ensures key !in profiles ==> r == Err(KeyError)
    ensures key in profiles && profiles[key].kind == Inhouse ==> r == InhouseCost(profiles[key], value)
    ensures key in profiles && profiles[key].kind == Outsourced ==> r == OutsourcedCost(profiles[key], value)
  {
    if key !in profiles then Err(KeyError)
    else if profiles[key].kind == Inhouse then InhouseCost(profiles[key], value)
    else OutsourcedCost(profiles[key], value)
  }

  /** The cost of entry `i` of the schedule. */
  function EntryCost(profiles: ModuleProfiles, sol: Schedule, i: nat): Result<real, PyError>
    requires i < |sol|
  {
    ModuleCost(profiles, sol[i].0, sol[i].1)
  }

  /** Entry `i` is the first whose cost raises, and it raises `e`. */
  predicate FirstFailure(profiles: ModuleProfiles, sol: Schedule, i: int, e: PyError) {
    && 0 <= i < |sol|
    && (forall j :: 0 <= j < i ==> EntryCost(profiles, sol, j).Ok?)
    && EntryCost(profiles, sol, i) == Err(e)
  }

  /** The loop of main.py:39-47: every entry gets its module cost appended,
      in the dict's order; the first entry whose cost raises aborts the
      run with that exception. */
  function AppendCosts(profiles: ModuleProfiles, sol: Schedule): (r: Result<Schedule, PyError>)
    ensures r.Ok? <==> forall i :: 0 <= i < |sol| ==> EntryCost(profiles, sol, i).Ok?
    ensures r.Ok? ==> |r.value| == |sol|
    ensures r.Ok? ==> forall i :: 0 <= i < |sol| ==>
      r.value[i] == (sol[i].0, sol[i].1 + [Float(EntryCost(profiles, sol, i).value)])
    ensures r.Err? ==> exists i :: FirstFailure(profiles, sol, i, r.error)
  {
    if |sol| == 0 then Ok([])
    else
      var k := |sol| - 1;
      var front := sol[..k];
      assert forall i :: 0 <= i < k ==> EntryCost(profiles, front, i) == EntryCost(profiles, sol, i);
      assert forall i, e :: FirstFailure(profiles, front, i, e) ==> FirstFailure(profiles, sol, i, e);
      match AppendCosts(profiles, front)
      case Err(e) => Err(e)
      case Ok(done) =>
        match ModuleCost(profiles, sol[k].0, sol[k].1)
        case Err(e) =>
          assert FirstFailure(profiles, sol, k, e);
          Err(e)
        case Ok(c) => Ok(done + [(sol[k].0, sol[k].1 + [Float(c)])])
  }

  /** Each entry without its last element. */
  function DropCosts(sol: Schedule): (r: Schedule)
    ensures |r| == |sol|
    ensures forall i :: 0 <= i < |sol| ==> r[i].0 == sol[i].0
  {
    seq(|sol|, i requires 0 <= i < |sol| =>
      (sol[i].0, if |sol[i].1| == 0 then [] else sol[i].1[..|sol[i].1| - 1]))
  }

  /** Appending the costs adds exactly one element per entry and changes
      nothing else: dropping it again gives back the schedule. */
  lemma CostsDropBack(profiles: ModuleProfiles, sol: Schedule)
    requires AppendCosts(profiles, sol).Ok?
    ensures DropCosts(AppendCosts(profiles, sol).value) == sol
  {
    var r := AppendCosts(profiles, sol).value;
    forall i | 0 <= i < |sol| ensures DropCosts(r)[i] == sol[i] {
      var v := sol[i].1 + [Float(EntryCost(profiles, sol, i).value)];
      assert v[..|v| - 1] == sol[i].1;
    }
  }

  /** The entry shapes the optimiser produces (genetic_algorithm.py:37 and
      56): `[start, None, crash, end]` in house and `[start, supplier,
      crash, end]` outsourced, with a supplier the profile quotes. */
  predicate Generated(p: ModuleProfile, value: seq<PyVal>) {
    && |value| == 4 && value[0].Int? && value[2].Int? && value[3].Int?
    && (p.kind == Inhouse ==> value[1].NoneVal? && p.cost.Scalar? && |p.crashCost| == 1)
    && (p.kind == Outsourced ==> value[1].Int? && Quoted(p, value[1].i))
  }

  /** The cost each module contributes inside the fitness computation
      (genetic_algorithm.py:172-175), squared in the crash periods for both
      kinds. */
  function FitnessCost(p: ModuleProfile, value: seq<PyVal>): (r: real)
    requires Generated(p, value)
  {
    var k := value[2].i as real;
    if p.kind == Inhouse then p.cost.x + p.crashCost[0] * (k * k)
    else var s := value[1].i; p.cost.xs[s - 1] + p.crashCost[s - 1] * (k * k)
  }

  /** For a generated entry the reported cost is defined; it equals the
      cost the fitness charged exactly when the module is in house, or the
      outsourced crash term is the same linear and squared: no crash, one
      crash period, or a zero crash cost. */
  lemma ReportedCostMatchesFitness(profiles: ModuleProfiles, key: int, value: seq<PyVal>)
    requires key in profiles && Generated(profiles[key], value)
    ensures ModuleCost(profiles, key, value).Ok?
    ensures var p := profiles[key]; var k := value[2].i;
      ModuleCost(profiles, key, value).value == FitnessCost(p, value) <==>
      p.kind == Inhouse || k == 0 || k == 1 || p.crashCost[value[1].i - 1] == 0.0
  {
    var p := profiles[key];
    var k := value[2].i as real;
    if p.kind == Outsourced {
      var cc := p.crashCost[value[1].i - 1];
      assert cc * (k * k) - cc * k == cc * k * (k - 1.0);
      ZeroProduct(cc, k);
    }
  }

  /** `c * k * (k - 1)` vanishes only for `c = 0`, `k = 0` or `k = 1`. */
  lemma ZeroProduct(c: real, k: real)
    ensures c * k * (k - 1.0) == 0.0 <==> c == 0.0 || k == 0.0 || k == 1.0
  {
    if c != 0.0 && k != 0.0 && k != 1.0 {
      assert c * k != 0.0;
      assert (c * k) * (k - 1.0) != 0.0;
    }
  }

  // ---------------------------------------------------------------------
  // The returned object (main.py:49-53)

  /** A value of the returned object. */
  datatype Output =
    | BestSolution(schedule: Schedule)
    | Fitness(x: real)
    | ProductSelection(choices: seq<Selection.Choice>)

  /** What `ga.run` hands back: the best individual, `None` when no
      generation ran, its fitness and its product choice. */
  datatype RunOutcome = RunOutcome(best: Option<Schedule>, fitness: real, selection: seq<Selection.Choice>)

  /** main.py:39-53: the costs appended to the best schedule, then the
      three results under their keys. With no best individual,
      `best_solution.items()` raises `AttributeError`. */
  function Report(profiles: ModuleProfiles, run: RunOutcome): (r: Result<map<string, Output>, PyError>)
    ensures run.best.None? ==> r == Err(AttributeError)
    ensures run.best.Some? ==> (r.Ok? <==> AppendCosts(profiles, run.best.value).Ok?)
    ensures r.Ok? ==> r.value.Keys == {"best_solution", "fitness", "product_selection"}
    ensures r.Ok? ==>
      && r.value["best_solution"] == BestSolution(AppendCosts(profiles, run.best.value).value)
      && r.value["fitness"] == Fitness(run.fitness)
      && r.value["product_selection"] == ProductSelection(run.selection)
  {
    match run.best
    case None => Err(AttributeError)
    case Some(sol) =>
      match AppendCosts(profiles, sol)
      case Err(e) => Err(e)
      case Ok(costed) =>
        Ok(map["best_solution" := BestSolution(costed), "fitness" := Fitness(run.fitness),
               "product_selection" := ProductSelection(run.selection)])
  }
}

=== FILE: popup_content.dfy ===
/**
 * `PopupContent` (PopupContent.js): the edge editor a popup window runs for
 * one module and one kind. It keeps a working copy of the popup entry the
 * window was opened with, edits it key by key, and hands all of it to
 * `handlePopupSubmit` on submit.
 */
module PopupContent {
  import opened JsValues
  import opened Wrappers
  import opened AppState
  import opened Handlers

  /** A window opened by `openModal(module, type)` (App.js:212-239): the props
      it was rendered with, and the component's `localValues`. */
  datatype Session = Session(kind: Kind, m: nat, snapshot: EdgeValues, deps: Deps, local: EdgeValues)

  /** `openModal(module, type)` then the first render: the snapshot is
      `popupValues[`${type}-${module}`] || {}` and `localValues` starts as it. */
  function Open(s: State, k: Kind, m: nat): (w: Session)
    ensures w.kind == k && w.m == m && w.deps == s.deps
    ensures w.snapshot == (if m in s.Of(k).popup then s.Of(k).popup[m] else map[])
    ensures w.local == w.snapshot
  {
    Session(k, m, Entry(s.Of(k), m), s.deps, Entry(s.Of(k), m))
  }

  /** The `useEffect` on `[popupValues]`: a new snapshot prop replaces the
      working copy wholesale. */
  function Resync(w: Session, snapshot: EdgeValues): (r: Session)
    ensures r.kind == w.kind && r.m == w.m && r.deps == w.deps
    ensures r.snapshot == snapshot && r.local == snapshot
  {
    w.(snapshot := snapshot, local := snapshot)
  }

  /** `value === '' ? '' : parseFloat(value)`. */
  function Parse(i: Input): (v: Value)
    ensures i.Cleared? <==> v == Empty
    ensures i.Entered? ==> v == Num(i.x)
  {
    match i
    case Cleared => Empty
    case Entered(x) => Num(x)
  }

  /** `handleInputChange(key, value)`: only `key` of the working copy moves. */
  function EditInput(w: Session, key: Edge, i: Input): (r: Session)
    ensures r == w.(local := r.local)
    ensures r.local.Keys == w.local.Keys + {key}
    ensures key in r.local && r.local[key] == Parse(i)
    ensures forall e :: e in w.local && e != key ==> r.local[e] == w.local[e]
  {
    w.(local := w.local[key := Parse(i)])
  }

  /** One rendered input: its key `Module p-Module m` and what it displays,
      `localValues[key] ?? ''`. */
  datatype Row = Row(key: Edge, shown: Value)

  function RowsFor(preds: seq<nat>, m: nat, local: EdgeValues): (rows: seq<Row>)
    ensures |rows| == |preds|
    ensures forall i :: 0 <= i < |preds| ==> rows[i] == Row(Edge(preds[i], m), Get(local, Edge(preds[i], m)))
    decreases |preds|
  {
    if |preds| == 0 then []
    else [Row(Edge(preds[0], m), Get(local, Edge(preds[0], m)))] + RowsFor(preds[1..], m, local)
  }

  /** The form body (PopupContent.js:98-114): one input per predecessor in
      `dependencies[m]`, none when the module has no entry. */
  function Rendered(w: Session): (rows: seq<Row>)
    ensures |rows| == |PredsOf(w.deps, w.m)|
    ensures forall i :: 0 <= i < |rows| ==> rows[i].key == Edge(PredsOf(w.deps, w.m)[i], w.m)
    ensures forall i :: 0 <= i < |rows| ==> rows[i].shown == Get(w.local, rows[i].key)
  {
    RowsFor(PredsOf(w.deps, w.m), w.m, w.local)
  }

  /** `handleSubmit`: the whole working copy goes to the handler bound at
      open time, with the snapshot and dependencies of that render. The
      custom values and the flag are recorded whether or not the handler
      then throws; the entry is recorded as submitted unless a collapse
      reruns the reseed effect, which rebuilds the entries of both kinds. */
  function Submit(s: State, w: Session): (r: Submitted<State>)
    requires Valid(s) && InCatalog(w.m)
    ensures Valid(r.state) && r.state.deps == s.deps
    ensures forall j: Kind, e :: e in s.Of(j).custom ==> e in r.state.Of(j).custom
    ensures forall e :: e in w.local ==>
      e in r.state.Of(w.kind).custom && r.state.Of(w.kind).custom[e] == w.local[e]
    ensures !SomeCollapse(w.local, w.snapshot, w.deps, w.m) ==>
      r.state.Of(w.kind).popup == s.Of(w.kind).popup[w.m := w.local] &&
      r.state.Of(Other(w.kind)) == s.Of(Other(w.kind))
    ensures SomeCollapse(w.local, w.snapshot, w.deps, w.m) && |s.deps| > 0 ==>
      Seeded(r.state.Of(w.kind), s.deps) && Seeded(r.state.Of(Other(w.kind)), s.deps)
    ensures r.failure.Some? ==> r.failure.value == MissingDependencies(w.m) && w.m !in w.deps
    ensures r.failure.Some? ==> r.state.Of(w.kind).defaults == s.Of(w.kind).defaults
  {
    var r := OnPopupSubmit(s, w.kind, w.m, w.local, w.snapshot, w.deps);
    SubmitFacts(s, w, r);
    r
  }

  lemma SubmitFacts(s: State, w: Session, r: Submitted<State>)
    requires Valid(s) && InCatalog(w.m)
    requires r == OnPopupSubmit(s, w.kind, w.m, w.local, w.snapshot, w.deps)
    ensures forall j: Kind, e :: e in s.Of(j).custom ==> e in r.state.Of(j).custom
    ensures SomeCollapse(w.local, w.snapshot, w.deps, w.m) && |s.deps| > 0 ==>
      Seeded(r.state.Of(w.kind), s.deps) && Seeded(r.state.Of(Other(w.kind)), s.deps)
  {
    var sub := SubmitPopup(s.Of(w.kind), w.m, w.local, w.snapshot, w.deps).state;
    forall j: Kind, e | e in s.Of(j).custom ensures e in r.state.Of(j).custom {
      if j != w.kind {
        assert j == Other(w.kind);
      }
    }
    if SomeCollapse(w.local, w.snapshot, w.deps, w.m) && |s.deps| > 0 {
      ReseededBothKinds(s, w.kind, sub, r.state, w.kind);
      ReseededBothKinds(s, w.kind, sub, r.state, Other(w.kind));
    }
  }

  /** What can happen to an open window. `Close` is the browser closing it
      without the form being submitted. `PropsChanged` over-approximates: the
      window is rendered once into its own root (App.js:226-238), so its
      props never change, and a run without that event is the one the page
      produces. */
  datatype Event = Edit(key: Edge, input: Input) | PropsChanged(snapshot: EdgeValues) | SubmitForm | Close

  /** The parent state after the window has seen `events`. A submit that
      returns hands the working copy to the App and closes the window; one
      that throws skips `closeWindow()`, so the window stays open on the
      App's new state and later events still reach it. A close ends the run. */
  function Run(s: State, w: Session, events: seq<Event>): (r: State)
    requires Valid(s) && InCatalog(w.m)
    ensures Valid(r) && r.deps == s.deps
    ensures forall j: Kind, e :: e in s.Of(j).custom ==> e in r.Of(j).custom
    ensures r != s ==> exists i :: 0 <= i < |events| && events[i].SubmitForm?
    decreases |events|
  {
    if |events| == 0 then s
    else match events[0]
      case Edit(key, i) => Run(s, EditInput(w, key, i), events[1..])
      case PropsChanged(snapshot) => Run(s, Resync(w, snapshot), events[1..])
      case SubmitForm =>
        var sub := Submit(s, w);
        if sub.failure.Some? then Run(sub.state, w, events[1..]) else sub.state
      case Close => s
  }

  /** The local working copy after `events`, up to the first submit or close. */
  function LocalAfter(w: Session, events: seq<Event>): (r: Session)
    ensures r.kind == w.kind && r.m == w.m && r.deps == w.deps
    decreases |events|
  {
    if |events| == 0 then w
    else match events[0]
      case Edit(key, i) => LocalAfter(EditInput(w, key, i), events[1..])
      case PropsChanged(snapshot) => LocalAfter(Resync(w, snapshot), events[1..])
      case SubmitForm => w
      case Close => w
  }

  /** Closing, or never submitting, leaves the App's state as it was:
      `handleSubmit` is the only path to `handlePopupSubmit`. */
  lemma {:induction false} NoSubmitNoChange(s: State, w: Session, events: seq<Event>)
    requires Valid(s) && InCatalog(w.m)
    requires forall i :: 0 <= i < |events| ==> !events[i].SubmitForm?
    ensures Run(s, w, events) == s
    decreases |events|
  {
    if |events| > 0 && !events[0].Close? {
      match events[0]
      case Edit(key, i) => NoSubmitNoChange(s, EditInput(w, key, i), events[1..]);
      case PropsChanged(snapshot) => NoSubmitNoChange(s, Resync(w, snapshot), events[1..]);
    }
  }

  /** A submit after a run of edits and prop changes hands exactly the
      working copy those events built to `handlePopupSubmit`; nothing follows
      it in the run, so its outcome is the App's final state either way. */
  lemma {:induction false} SubmitHandsWorkingCopy(s: State, w: Session, events: seq<Event>)
    requires Valid(s) && InCatalog(w.m)
    requires forall i :: 0 <= i < |events| ==> !events[i].SubmitForm? && !events[i].Close?
    ensures Run(s, w, events + [SubmitForm]) == Submit(s, LocalAfter(w, events)).state
    decreases |events|
  {
    if |events| == 0 {
      assert events + [SubmitForm] == [SubmitForm];
      assert [SubmitForm][1..] == [];
    } else {
      assert (events + [SubmitForm])[1..] == events[1..] + [SubmitForm];
      match events[0]
      case Edit(key, i) => SubmitHandsWorkingCopy(s, EditInput(w, key, i), events[1..]);
      case PropsChanged(snapshot) => SubmitHandsWorkingCopy(s, Resync(w, snapshot), events[1..]);
    }
  }

  /** A submit that throws leaves the window open with its working copy, so
      a second submit hands the same values again, to the App's new state. */
  lemma FailedSubmitKeepsWindowOpen(s: State, w: Session, rest: seq<Event>)
    requires Valid(s) && InCatalog(w.m) && Submit(s, w).failure.Some?
    ensures Run(s, w, [SubmitForm] + rest) == Run(Submit(s, w).state, w, rest)
  {
    assert ([SubmitForm] + rest)[1..] == rest;
  }

  /** Once the reseed effect has run, a freshly opened window shows the
      module's own default in every one of its inputs (App.js:64-88 with
      PopupContent.js:98-107). */
  lemma OpenAfterReseedShowsDefault(s: State, k: Kind, m: nat)
    requires Valid(s) && |s.deps| > 0 && InCatalog(m)
    ensures forall row :: row in Rendered(Open(Reseed(s), k, m)) ==> row.shown == s.Of(k).defaults[m]
  {
    var w := Open(Reseed(s), k, m);
    var rows := Rendered(w);
    var ks := Reseed(s).Of(k);
    assert ks == SeedPopups(s.Of(k), s.deps);
    forall row | row in rows ensures row.shown == s.Of(k).defaults[m] {
      var i :| 0 <= i < |rows| && rows[i] == row;
      assert row.key == Edge(PredsOf(s.deps, m)[i], m);
      assert row.key in ks.popup[m];
    }
  }
}

=== FILE: preprocess.dfy ===
/**
 * `preprocess_data` (data_processing.py:16-100) as a whole: the in-house
 * profiles, the supplier merge, the feasibility rows and the dependency
 * lists, with the first exception any step raises.
 */
module Preprocess {
  import opened Wrappers
  import opened Py
  import opened Profiles
  import opened Suppliers
  import opened Feasibility
  import opened Dependencies
  import opened TopoSort

  /** The six sheets `load_data` reads, as rows. */
  datatype Sheets = Sheets(inhouse: InhouseSheets, outsourced: seq<SheetRow>, precedence: Precedence)

  /** `module_profile, dependencies, feasible_set`. */
  datatype Preprocessed = Preprocessed(profiles: ModuleProfiles, dependencies: Graph, feasible: map<int, seq<int>>)

  /** The supplier sheet upserted and merged into the profiles
      (data_processing.py:45-76). */
  function MergeSheet(initial: ModuleProfiles, rows: seq<OutRow>): (r: Result<ModuleProfiles, PyError>)
    ensures r.Ok? <==> ModulesOf(rows) <= initial.Keys
    ensures r.Err? ==> r.error == KeyError
    ensures r.Ok? ==> r.value.Keys == initial.Keys
  {
    Merge(initial, BuildOutsourceProfile(rows))
  }

  /** After the merge every module the sheet names lists its suppliers in
      first-seen order, no module changes type, and the modules the sheet
      does not name keep their profile. */
  lemma MergedSuppliers(initial: ModuleProfiles, rows: seq<OutRow>, m: int)
    requires MergeSheet(initial, rows).Ok? && m in initial
    ensures MergeSheet(initial, rows).value[m].kind == initial[m].kind
    ensures m in ModulesOf(rows) ==> MergeSheet(initial, rows).value[m].supplier == Some(FirstSeen(SuppliersOf(rows, m)))
    ensures m !in ModulesOf(rows) ==> MergeSheet(initial, rows).value[m] == initial[m]
  {
    SupplierOrder(rows, m);
  }

  /** Each supplier of a merged module carries the fields of the last sheet
      row for it. */
  lemma MergedFields(initial: ModuleProfiles, rows: seq<OutRow>, m: int, i: nat)
    requires MergeSheet(initial, rows).Ok? && m in ModulesOf(rows)
    requires i < |ListOf(BuildOutsourceProfile(rows), m)|
    ensures var p := MergeSheet(initial, rows).value[m];
      var s := ListOf(BuildOutsourceProfile(rows), m)[i].supplier;
      && LastInfo(rows, m, s).Some?
      && p.duration[i] == LastInfo(rows, m, s).value.leadTime
      && p.cost.xs[i] == LastInfo(rows, m, s).value.cost
      && p.maxCrash[i] == LastInfo(rows, m, s).value.maxExped
      && p.crashCost[i] == LastInfo(rows, m, s).value.expedCost
  {
    var l := ListOf(BuildOutsourceProfile(rows), m);
    LastRowWins(rows, m, l[i].supplier);
    FindDistinct(l, i, rows, m);
  }

  /** In a list of distinct suppliers, looking up an entry's supplier finds
      that entry. */
  lemma FindDistinct(l: seq<SupplierInfo>, i: nat, rows: seq<OutRow>, m: int)
    requires l == ListOf(BuildOutsourceProfile(rows), m) && i < |l|
    ensures Find(l, l[i].supplier) == Some(l[i])
  {
    SupplierOrder(rows, m);
    FindAt(l, i);
  }

  lemma {:induction false} FindAt(l: seq<SupplierInfo>, i: nat)
    requires i < |l| && forall a, b :: 0 <= a < b < |Ids(l)| ==> Ids(l)[a] != Ids(l)[b]
    ensures Find(l, l[i].supplier) == Some(l[i])
  {
    if i > 0 {
      assert Ids(l)[0] != Ids(l)[i];
      assert forall a :: 0 <= a < |l| - 1 ==> Ids(l[1..])[a] == Ids(l)[a + 1];
      FindAt(l[1..], i - 1);
    }
  }

  /** `module_profile` as `preprocess_data` returns it: twelve modules,
      1..6 in house; a blank module or supplier cell of the supplier sheet
      raises `ValueError`, and a module outside 1..12 `KeyError`. */
  function BuildProfiles(s: Sheets): (r: Result<ModuleProfiles, PyError>)
    ensures r.Ok? ==> forall m :: m in r.value <==> 1 <= m <= 12
    ensures r.Ok? ==> forall m :: m in r.value ==> (r.value[m].kind == Inhouse <==> m <= 6)
    ensures InitialProfiles(s.inhouse).Ok? ==>
      (r.Ok? <==> ReadRows(s.outsourced).Ok? && forall m :: m in ModulesOf(ReadRows(s.outsourced).value) ==> 1 <= m <= 12)
    ensures InitialProfiles(s.inhouse).Ok? && ReadRows(s.outsourced).Ok? ==>
      r == MergeSheet(InitialProfiles(s.inhouse).value, ReadRows(s.outsourced).value)
  {
    match InitialProfiles(s.inhouse)
    case Err(e) => Err(e)
    case Ok(initial) =>
      match ReadRows(s.outsourced)
      case Err(e) => Err(e)
      case Ok(rows) =>
        var r := MergeSheet(initial, rows);
        assert ModulesOf(rows) <= initial.Keys <==> forall m :: m in ModulesOf(rows) ==> 1 <= m <= 12;
        if r.Ok? then
          assert forall m :: m in r.value ==> r.value[m].kind == initial[m].kind by {
            forall m | m in r.value ensures r.value[m].kind == initial[m].kind {
              MergedSuppliers(initial, rows, m);
            }
          }
          r
        else r
  }

  /** `preprocess_data`: the profiles, then the feasibility rows, then the
      dependency lists, each step raising before the next runs. */
  function PreprocessData(s: Sheets): (r: Result<Preprocessed, PyError>)
    ensures r.Ok? ==> forall m :: m in r.value.profiles <==> 1 <= m <= 12
    ensures r.Ok? ==> forall m :: m in r.value.profiles ==> (r.value.profiles[m].kind == Inhouse <==> m <= 6)
    ensures r.Ok? ==> forall m :: m in r.value.feasible <==> 1 <= m <= 12
    ensures r.Ok? ==> forall m :: 7 <= m <= 12 ==> r.value.feasible[m] == AlwaysFeasible()
    ensures r.Ok? ==> |r.value.dependencies| == s.precedence.columns
    ensures r.Ok? <==> && BuildProfiles(s).Ok?
                       && FeasibleSet(BuildProfiles(s).value).Ok?
                       && BuildDependencies(s.precedence).Ok?
    ensures r.Ok? ==> && r.value.profiles == BuildProfiles(s).value
                      && r.value.feasible == FeasibleSet(r.value.profiles).value
                      && r.value.dependencies == BuildDependencies(s.precedence).value
    ensures BuildProfiles(s).Err? ==> r == Err(BuildProfiles(s).error)
    ensures BuildProfiles(s).Ok? && FeasibleSet(BuildProfiles(s).value).Err? ==>
      r == Err(FeasibleSet(BuildProfiles(s).value).error)
    ensures BuildProfiles(s).Ok? && FeasibleSet(BuildProfiles(s).value).Ok? && BuildDependencies(s.precedence).Err? ==>
      r == Err(BuildDependencies(s.precedence).error)
  {
    match BuildProfiles(s)
    case Err(e) => Err(e)
    case Ok(profiles) =>
      match FeasibleSet(profiles)
      case Err(e) => Err(e)
      case Ok(feasible) =>
        assert forall m :: 7 <= m <= 12 ==> feasible[m] == AlwaysFeasible() by {
          forall m | 7 <= m <= 12 ensures feasible[m] == AlwaysFeasible() {
            assert profiles[m].kind == Outsourced;
            assert Ok(feasible[m]) == FeasibleFor(profiles[m]);
          }
        }
        match BuildDependencies(s.precedence)
        case Err(e) => Err(e)
        case Ok(g) => Ok(Preprocessed(profiles, g, feasible))
  }
}

=== FILE: profiles.dfy ===
/**
 * The module profiles `preprocess_data` builds (data_processing.py:16-43):
 * twelve modules, 1..6 made in house from the in-house sheets and 7..12
 * outsourced, to be filled from the supplier sheet.
 */
module Profiles {
  import opened Wrappers
  import opened Py

  const ModuleCount: nat := 12
  const LastInhouse: nat := 6

  datatype ModuleType = Inhouse | Outsourced

  /** `'cost'`: a single number for an in-house module, one number per
      supplier once the supplier sheet has been merged. */
  datatype Cost = Scalar(x: real) | PerSupplier(xs: seq<real>)

  /** One entry of `module_profile`; the fields `'supplier'`,
      `'resource util'` and `'resource avail'` start as `None`. */
  datatype ModuleProfile = ModuleProfile(
    kind: ModuleType,
    supplier: Option<seq<int>>,
    duration: seq<real>,
    cost: Cost,
    util: Option<seq<real>>,
    avail: Option<seq<real>>,
    maxCrash: seq<real>,
    crashCost: seq<real>)

  type ModuleProfiles = map<int, ModuleProfile>

  /** A row of the `crash_data_inhouse` sheet. */
  datatype CrashRow = CrashRow(moduleId: int, allowableCrash: real, costPerCrash: real, idealDuration: real)

  /** The four in-house sheets, each as its rows of cells. */
  datatype InhouseSheets = InhouseSheets(
    costProfile: seq<seq<real>>,
    resourceUtil: seq<seq<real>>,
    resourceAvail: seq<seq<real>>,
    crash: seq<CrashRow>)

  /** `module <= 6` decides the type (data_processing.py:33). */
  function TypeOf(m: int): (t: ModuleType)
    ensures t == Inhouse <==> m <= LastInhouse
    ensures t == Outsourced <==> m > LastInhouse
  {
    if m <= LastInhouse then Inhouse else Outsourced
  }

  /** `crash_data_inh[crash_data_inh['module'] == module].iloc[0]`: the
      first row for the module, or `IndexError` when there is none. */
  function FirstCrashRow(rows: seq<CrashRow>, m: int): (r: Result<CrashRow, PyError>)
    ensures r.Ok? ==> r.value in rows && r.value.moduleId == m
    ensures r.Ok? ==> exists i :: 0 <= i < |rows| && rows[i] == r.value && forall j :: 0 <= j < i ==> rows[j].moduleId != m
    ensures r.Err? <==> forall i :: 0 <= i < |rows| ==> rows[i].moduleId != m
    ensures r.Err? ==> r.error == IndexError
  {
    if |rows| == 0 then Err(IndexError)
    else if rows[0].moduleId == m then
      assert rows[0] == rows[0];
      Ok(rows[0])
    else
      var r := FirstCrashRow(rows[1..], m);
      if r.Ok? then
        var i :| 0 <= i < |rows[1..]| && rows[1..][i] == r.value && forall j :: 0 <= j < i ==> rows[1..][j].moduleId != m;
        assert rows[i + 1] == r.value;
        r
      else
        assert forall i :: 1 <= i < |rows| ==> rows[i] == rows[1..][i - 1];
        r
  }

  /** `sheet.iloc[module - 1, 1:]`. */
  function RowTail(sheet: seq<seq<real>>, m: int): (r: Result<seq<real>, PyError>)
    requires m >= 1
    ensures r.Ok? <==> m - 1 < |sheet|
    ensures r.Ok? ==> r.value == From(sheet[m - 1], 1)
    ensures r.Err? ==> r.error == IndexError
  {
    match Index(sheet, m - 1)
    case Err(e) => Err(e)
    case Ok(row) => Ok(From(row, 1))
  }

  /** `cost_profile_inh.iloc[module - 1, 1]`. */
  function CostCell(sheet: seq<seq<real>>, m: int): (r: Result<real, PyError>)
    requires m >= 1
    ensures r.Ok? <==> m - 1 < |sheet| && 1 < |sheet[m - 1]|
    ensures r.Ok? ==> r.value == sheet[m - 1][1]
    ensures r.Err? ==> r.error == IndexError
  {
    match Index(sheet, m - 1)
    case Err(e) => Err(e)
    case Ok(row) => Index(row, 1)
  }

  /** The profile of an in-house module (data_processing.py:34-41): the
      first crash row gives the single allowable crash, crash cost and
      ideal duration, the sheets' rows the cost and the resource series. */
  function InhouseProfile(sheets: InhouseSheets, m: int): (r: Result<ModuleProfile, PyError>)
    requires 1 <= m
    ensures r.Ok? ==>
      && r.value.kind == Inhouse && r.value.supplier == None
      && FirstCrashRow(sheets.crash, m).Ok?
      && var d := FirstCrashRow(sheets.crash, m).value;
      && r.value.maxCrash == [d.allowableCrash]
      && r.value.crashCost == [d.costPerCrash]
      && r.value.duration == [d.idealDuration]
      && CostCell(sheets.costProfile, m).Ok?
      && r.value.cost == Scalar(CostCell(sheets.costProfile, m).value)
      && RowTail(sheets.resourceUtil, m).Ok?
      && r.value.util == Some(RowTail(sheets.resourceUtil, m).value)
      && RowTail(sheets.resourceAvail, m).Ok?
      && r.value.avail == Some(RowTail(sheets.resourceAvail, m).value)
    ensures r.Err? <==>
      || FirstCrashRow(sheets.crash, m).Err?
      || CostCell(sheets.costProfile, m).Err?
      || |sheets.resourceUtil| < m
      || |sheets.resourceAvail| < m
    ensures r.Err? ==> r.error == IndexError
  {
    match FirstCrashRow(sheets.crash, m)
    case Err(e) => Err(e)
    case Ok(d) =>
      match CostCell(sheets.costProfile, m)
      case Err(e) => Err(e)
      case Ok(c) =>
        match RowTail(sheets.resourceUtil, m)
        case Err(e) => Err(e)
        case Ok(util) =>
          match RowTail(sheets.resourceAvail, m)
          case Err(e) => Err(e)
          case Ok(avail) =>
            Ok(ModuleProfile(Inhouse, None, [d.idealDuration], Scalar(c), Some(util), Some(avail),
                             [d.allowableCrash], [d.costPerCrash]))
  }

  /** An outsourced module before the supplier sheet is merged. */
  const OutsourcedStub: ModuleProfile :=
    ModuleProfile(Outsourced, None, [], PerSupplier([]), None, None, [], [])

  /** `p` is the in-house profile the sheets give module `m`. */
  ghost predicate InhouseFrom(sheets: InhouseSheets, m: int, p: ModuleProfile)
    requires 1 <= m
  {
    InhouseProfile(sheets, m) == Ok(p)
  }

  /** The sheets lack a row or cell module `m` needs. */
  ghost predicate InhouseFails(sheets: InhouseSheets, m: int)
    requires 1 <= m
  {
    InhouseProfile(sheets, m).Err?
  }

  /** The profiles of modules `1..k`, or the first error of the loop at
      data_processing.py:32-43. */
  function InitialProfilesUpTo(sheets: InhouseSheets, k: nat): (r: Result<ModuleProfiles, PyError>)
    requires k <= ModuleCount
    ensures r.Ok? ==> forall m :: m in r.value <==> 1 <= m <= k
    ensures r.Ok? ==> forall m :: 1 <= m <= k ==> r.value[m].kind == TypeOf(m)
    ensures r.Ok? ==> forall m :: 1 <= m <= k && m <= LastInhouse ==> InhouseFrom(sheets, m, r.value[m])
    ensures r.Ok? ==> forall m :: LastInhouse < m <= k ==> r.value[m] == OutsourcedStub
    ensures r.Err? <==> exists m :: 1 <= m <= k && m <= LastInhouse && InhouseFails(sheets, m)
    ensures r.Err? ==> r.error == IndexError
  {
    if k == 0 then Ok(map[])
    else
      match InitialProfilesUpTo(sheets, k - 1)
      case Err(e) =>
        assert exists m :: 1 <= m <= k - 1 && m <= LastInhouse && InhouseFails(sheets, m);
        Err(e)
      case Ok(ps) =>
        if k <= LastInhouse then
          match InhouseProfile(sheets, k)
          case Err(e) =>
            assert InhouseFails(sheets, k);
            Err(e)
          case Ok(p) => Ok(ps[k := p])
        else Ok(ps[k := OutsourcedStub])
  }

  /** The twelve profiles before the supplier sheet is merged: modules
      1..6 in house, 7..12 outsourced. */
  function InitialProfiles(sheets: InhouseSheets): (r: Result<ModuleProfiles, PyError>)
    ensures r.Ok? ==> forall m :: m in r.value <==> 1 <= m <= 12
    ensures r.Ok? ==> forall m :: m in r.value ==> (r.value[m].kind == Inhouse <==> m <= 6)
    ensures r.Err? <==> exists m :: 1 <= m <= 6 && InhouseFails(sheets, m)
  {
    InitialProfilesUpTo(sheets, ModuleCount)
  }
}

=== FILE: py.dfy ===
/**
 * The few Python semantics the backend relies on: sequence indexing with
 * negative indices, the exceptions it can raise, `int()` of a float and of
 * text, `str.split` with an explicit separator, and `str.strip`.
 */
module Py {
  import opened Wrappers

  /** The exceptions the modelled backend code can raise. */
  datatype PyError = IndexError | KeyError | TypeError | ValueError | AttributeError

  /** `s[i]`: a negative `i` counts from the end, anything outside
      `-len(s) .. len(s) - 1` raises `IndexError`. */
  function Index<T>(s: seq<T>, i: int): (r: Result<T, PyError>)
    ensures 0 <= i < |s| ==> r == Ok(s[i])
    ensures -|s| <= i < 0 ==> r == Ok(s[|s| + i])
    ensures r.Err? <==> i < -|s| || |s| <= i
    ensures r.Err? ==> r.error == IndexError
  {
    if 0 <= i < |s| then Ok(s[i])
    else if -|s| <= i < 0 then Ok(s[|s| + i])
    else Err(IndexError)
  }

  /** `int(x)` of a float: truncation toward zero. */
  function Trunc(x: real): (r: int)
    ensures x >= 0.0 ==> 0 <= r && r as real <= x < r as real + 1.0
    ensures x < 0.0 ==> r <= 0 && r as real - 1.0 < x <= r as real
  {
    if x >= 0.0 then x.Floor else -((-x).Floor)
  }

  /** `s.split(sep)`: the pieces between occurrences of `sep`, so one more
      piece than there are separators. */
  function Split(s: string, sep: char): (r: seq<string>)
    ensures |r| >= 1
    ensures sep !in s ==> r == [s]
    ensures sep in s ==> |r| >= 2
    ensures forall i :: 0 <= i < |r| ==> sep !in r[i]
    ensures forall i, c :: 0 <= i < |r| && c in r[i] ==> c in s
  {
    if |s| == 0 then [""]
    else
      var rest := Split(s[1..], sep);
      assert forall c :: c in s[1..] ==> c in s;
      assert s == [s[0]] + s[1..];
      if s[0] == sep then [""] + rest
      else
        assert sep in s ==> sep in s[1..];
        [[s[0]] + rest[0]] + rest[1..]
  }

  /** Splitting a piece free of the separator, the separator, and the rest
      yields that piece followed by the pieces of the rest. */
  lemma {:induction false} SplitAt(a: string, sep: char, b: string)
    requires sep !in a
    ensures Split(a + [sep] + b, sep) == [a] + Split(b, sep)
  {
    if |a| == 0 {
      assert a + [sep] + b == [sep] + b;
      assert ([sep] + b)[1..] == b;
    } else {
      var s := a + [sep] + b;
      assert s[0] == a[0] && s[1..] == a[1..] + [sep] + b;
      SplitAt(a[1..], sep, b);
      var rest := Split(s[1..], sep);
      assert rest[0] == a[1..] && rest[1..] == Split(b, sep);
      assert Split(s, sep) == [[a[0]] + rest[0]] + rest[1..];
      assert [a[0]] + a[1..] == a;
    }
  }

  /** A decimal digit. */
  predicate IsDigit(c: char) {
    '0' <= c <= '9'
  }

  /** The value of a string of decimal digits. */
  function DigitsValue(s: string): nat
    requires forall i :: 0 <= i < |s| ==> IsDigit(s[i])
  {
    if |s| == 0 then 0
    else
      assert IsDigit(s[|s| - 1]);
      10 * DigitsValue(s[..|s| - 1]) + (s[|s| - 1] as int - '0' as int)
  }

  /** A non-empty run of decimal digits, read as its value; anything else,
      the empty text included, raises `ValueError`. Each side of a decimal
      point and each digit group is such a run. */
  function ParseDigits(s: string): (r: Result<nat, PyError>)
    ensures r.Ok? <==> |s| > 0 && forall i :: 0 <= i < |s| ==> IsDigit(s[i])
    ensures r.Err? ==> r.error == ValueError
  {
    if |s| > 0 && forall i :: 0 <= i < |s| ==> IsDigit(s[i]) then Ok(DigitsValue(s))
    else Err(ValueError)
  }

  /** A sign in front of the digits, as `int()` and `float()` accept: whether
      it is `-`, and the text after it. */
  function Signed(s: string): (r: (bool, string))
    ensures |s| > 0 && s[0] == '-' ==> r == (true, s[1..])
    ensures |s| > 0 && s[0] == '+' ==> r == (false, s[1..])
    ensures (|s| == 0 || (s[0] != '-' && s[0] != '+')) ==> r == (false, s)
  {
    if |s| > 0 && s[0] == '-' then (true, s[1..])
    else if |s| > 0 && s[0] == '+' then (false, s[1..])
    else (false, s)
  }

  /** Digits with single underscores between them, as Python's integer
      literals group them: `1_000`, but neither `_1`, `1_` nor `1__0`. */
  predicate Grouped(b: string) {
    && |b| > 0 && IsDigit(b[0]) && IsDigit(b[|b| - 1])
    && (forall i :: 0 <= i < |b| ==> IsDigit(b[i]) || b[i] == '_')
    && (forall i, j :: 0 <= i < j < |b| && b[i] == '_' && b[j] == '_' ==> i + 1 < j)
  }

  /** The digits of a grouped run, its underscores dropped. */
  function Ungroup(b: string): (r: string)
    ensures (forall i :: 0 <= i < |b| ==> IsDigit(b[i]) || b[i] == '_') ==>
      forall i :: 0 <= i < |r| ==> IsDigit(r[i])
    ensures '_' !in b ==> r == b
  {
    if |b| == 0 then []
    else
      var k := |b| - 1;
      assert forall i :: 0 <= i < k ==> b[..k][i] == b[i];
      assert b == b[..k] + [b[k]];
      Ungroup(b[..k]) + (if b[k] == '_' then [] else [b[k]])
  }

  /** The ASCII white space `int()` ignores at both ends of its text:
      space and tab through carriage return. The separators 28 to 31, for
      which `str.isspace` also holds, are not among them: `int()` refuses
      text that carries them. */
  predicate IsSpace(c: char) {
    c == ' ' || 9 <= c as int <= 13
  }

  const Whitespace: iset<char> := iset c: char | IsSpace(c)

  /** The stripped text `int()` reads: an optionally signed grouped run of
      digits, its value with the underscores dropped. */
  function ReadInt(t: string): (r: Result<int, PyError>)
    ensures r.Err? ==> r.error == ValueError
    ensures r.Ok? <==> Grouped(Signed(t).1)
    ensures r.Ok? && r.value < 0 ==> t[0] == '-'
  {
    var (neg, body) := Signed(t);
    if Grouped(body) then
      var v: int := DigitsValue(Ungroup(body));
      Ok(if neg then -v else v)
    else Err(ValueError)
  }

  /** `int(s)` of text, in base 10: an optionally signed grouped run of
      digits, with white space around it; anything else raises
      `ValueError`. */
  function IntOfText(s: string): (r: Result<int, PyError>)
    ensures r.Err? ==> r.error == ValueError
    ensures r.Ok? <==> Grouped(Signed(Strip(s, Whitespace)).1)
    ensures r.Ok? && '-' !in s ==> r.value >= 0
    ensures ParseDigits(s).Ok? ==> r == Ok(ParseDigits(s).value)
  {
    DigitRunReads(s);
    NoMinusNoNegative(s);
    ReadInt(Strip(s, Whitespace))
  }

  /** `int()` reads its text stripped of white space. */
  lemma IntOfTextReads(s: string)
    ensures IntOfText(s) == ReadInt(Strip(s, Whitespace))
  {
  }

  /** A digit run reads as its value. */
  lemma DigitRunReads(s: string)
    ensures ParseDigits(s).Ok? ==> ReadInt(Strip(s, Whitespace)) == Ok(ParseDigits(s).value)
  {
    if ParseDigits(s).Ok? {
      DigitsStripToThemselves(s);
      DigitsAreGrouped(s);
      assert IsDigit(s[0]);
      ReadGroup(s, false, s, s);
    }
  }

  /** Text without a `-` does not read as a negative number. */
  lemma NoMinusNoNegative(s: string)
    ensures ReadInt(Strip(s, Whitespace)).Ok? && '-' !in s ==> ReadInt(Strip(s, Whitespace)).value >= 0
  {
    var t := Strip(s, Whitespace);
    if ReadInt(t).Ok? && ReadInt(t).value < 0 {
      assert t[0] == '-' && t[0] in s;
    }
  }

  /** No digit is white space. */
  lemma DigitNotSpace(c: char)
    requires IsDigit(c)
    ensures c !in Whitespace
  {
  }

  /** A digit run has nothing to strip and no sign. */
  lemma DigitsStripToThemselves(s: string)
    requires |s| > 0 && forall i :: 0 <= i < |s| ==> IsDigit(s[i])
    ensures Strip(s, Whitespace) == s
  {
    DigitNotSpace(s[0]);
    DigitNotSpace(s[|s| - 1]);
    StripUnpadded(s, Whitespace);
  }

  /** A digit run is its own single group. */
  lemma DigitsAreGrouped(d: string)
    requires |d| > 0 && forall i :: 0 <= i < |d| ==> IsDigit(d[i])
    ensures Grouped(d) && Ungroup(d) == d
  {
    assert '_' !in d by { assert forall i :: 0 <= i < |d| ==> d[i] != '_'; }
  }

  /** What `ReadInt` gives for a sign and a group, the group's digits
      being `u`. */
  lemma ReadGroup(t: string, neg: bool, d: string, u: string)
    requires Signed(t) == (neg, d) && Grouped(d) && Ungroup(d) == u
    requires forall i :: 0 <= i < |u| ==> IsDigit(u[i])
    ensures ReadInt(t) == Ok(if neg then -(DigitsValue(u) as int) else DigitsValue(u))
  {
  }

  /** A sign in front of a digit run is read, and nothing is stripped. */
  lemma SignedDigits(c: char, d: string, v: nat)
    requires c == '+' || c == '-'
    requires ParseDigits(d) == Ok(v)
    ensures c == '+' ==> IntOfText([c] + d) == Ok(v)
    ensures c == '-' ==> IntOfText([c] + d) == Ok(-(v as int))
  {
    var r := SignedText(c, d, v);
    if c == '+' {
      assert r == Ok(v as int);
    }
  }

  /** What `int()` reads from a sign and a digit run. */
  lemma SignedText(c: char, d: string, v: nat) returns (r: Result<int, PyError>)
    requires c == '+' || c == '-'
    requires ParseDigits(d) == Ok(v)
    ensures r == IntOfText([c] + d) == Ok(if c == '-' then -(v as int) else v)
  {
    var s := [c] + d;
    SignedUnpadded(c, d);
    r := SignedRead(s, c, d, v);
    IntOfTextReads(s);
  }

  /** A sign in front of a digit run has no white space to strip. */
  lemma SignedUnpadded(c: char, d: string)
    requires c == '+' || c == '-'
    requires ParseDigits(d).Ok?
    ensures Strip([c] + d, Whitespace) == [c] + d
  {
    var s := [c] + d;
    assert s[0] == c && s[|s| - 1] == d[|d| - 1];
    DigitNotSpace(d[|d| - 1]);
    assert c !in Whitespace;
    StripUnpadded(s, Whitespace);
  }

  /** The stripped text of a sign and a digit run reads with its sign. */
  lemma SignedRead(s: string, c: char, d: string, v: nat) returns (r: Result<int, PyError>)
    requires c == '+' || c == '-'
    requires ParseDigits(d) == Ok(v) && s == [c] + d
    ensures r == ReadInt(s) == Ok(if c == '-' then -(v as int) else v)
  {
    r := ReadInt(s);
    assert s[1..] == d;
    DigitsAreGrouped(d);
    assert Signed(s) == (c == '-', d);
    ReadGroup(s, c == '-', d, d);
  }

  /** `int()` reads a written number back, with either sign in front. */
  lemma IntOfDecimal(n: nat)
    ensures IntOfText(Decimal(n)) == Ok(n)
    ensures IntOfText("+" + Decimal(n)) == Ok(n)
    ensures IntOfText("-" + Decimal(n)) == Ok(-(n as int))
  {
    var d := Decimal(n);
    ParseDecimal(n);
    SignedDigits('+', d, n);
    SignedDigits('-', d, n);
  }

  /** White space around the text does not change what `int()` reads. */
  lemma IntIgnoresPadding(a: string, s: string, b: string)
    requires forall c :: c in a ==> c in Whitespace
    requires forall c :: c in b ==> c in Whitespace
    requires |s| > 0 && s[0] !in Whitespace && s[|s| - 1] !in Whitespace
    ensures IntOfText(a + s + b) == IntOfText(s)
  {
    StripPadding(a, s, b, Whitespace);
    StripUnpadded(s, Whitespace);
  }

  /** Text that holds one of the separators 28 to 31 anywhere is refused:
      `int()` does not strip them, so `int('\x1c5')` raises `ValueError`. */
  lemma SeparatorRefused(s: string, i: nat)
    requires i < |s| && 28 <= s[i] as int <= 31
    ensures IntOfText(s) == Err(ValueError)
  {
    assert s[i] !in Whitespace;
    var j := StripKeeps(s, Whitespace, i);
    ReadIntRefuses(Strip(s, Whitespace), j);
  }

  /** Stripped text holding a character that is neither a digit, `_` nor a
      sign is refused. */
  lemma ReadIntRefuses(u: string, j: nat)
    requires j < |u| && !IsDigit(u[j]) && u[j] != '_' && u[j] != '-' && u[j] != '+'
    ensures ReadInt(u) == Err(ValueError)
  {
    var body := Signed(u).1;
    var k := j - (|u| - |body|);
    assert 0 <= k < |body| && body[k] == u[j];
    NotGroupedAt(body, k);
  }

  /** A run holding a character that is neither a digit nor `_` is not a
      grouped run. */
  lemma NotGroupedAt(b: string, k: nat)
    requires k < |b| && !IsDigit(b[k]) && b[k] != '_'
    ensures !Grouped(b)
  {
  }

  /** A character outside the set survives `strip`: it sits at index `j` of
      the stripped text. */
  lemma StripKeeps(s: string, cs: iset<char>, i: nat) returns (j: nat)
    requires i < |s| && s[i] !in cs
    ensures j < |Strip(s, cs)| && Strip(s, cs)[j] == s[i]
  {
    var l := LStrip(s, cs);
    j := i - (|s| - |l|);
    assert l[j] == s[i];
    RStripKeeps(l, cs, j);
  }

  /** Every character `strip` keeps comes from the text. */
  lemma StripInside(s: string, cs: iset<char>)
    ensures forall c :: c in Strip(s, cs) ==> c in s
  {
    var l := LStrip(s, cs);
    var r := RStrip(l, cs);
    assert Strip(s, cs) == r;
    forall c | c in r ensures c in s {
      var k :| 0 <= k < |r| && r[k] == c;
      assert r[k] == l[k] == s[|s| - |l| + k];
    }
  }

  /** A character outside the set survives `rstrip` in place. */
  lemma RStripKeeps(s: string, cs: iset<char>, j: nat)
    requires j < |s| && s[j] !in cs
    ensures j < |RStrip(s, cs)| && RStrip(s, cs)[j] == s[j]
  {
  }

  /** Underscores between digit groups are dropped. */
  lemma IntOfGroups(x: string, y: string)
    requires ParseDigits(x).Ok? && ParseDigits(y).Ok?
    ensures IntOfText(x + "_" + y) == Ok(DigitsValue(x + y))
  {
    var s := x + "_" + y;
    assert s[0] == x[0] && s[|s| - 1] == y[|y| - 1];
    DigitNotSpace(x[0]);
    DigitNotSpace(y[|y| - 1]);
    StripUnpadded(s, Whitespace);
    GroupsJoin(x, y);
    assert IsDigit(x[0]);
    ReadGroup(s, false, s, x + y);
  }

  /** Two digit runs joined by an underscore form a group whose digits are
      both runs. */
  lemma GroupsJoin(x: string, y: string)
    requires ParseDigits(x).Ok? && ParseDigits(y).Ok?
    ensures Grouped(x + "_" + y) && Ungroup(x + "_" + y) == x + y
    ensures forall i :: 0 <= i < |x + y| ==> IsDigit((x + y)[i])
  {
    JoinIsGrouped(x, y);
    JoinUngroups(x, y);
  }

  lemma JoinIsGrouped(x: string, y: string)
    requires ParseDigits(x).Ok? && ParseDigits(y).Ok?
    ensures Grouped(x + "_" + y)
  {
    var s := x + "_" + y;
    assert s[0] == x[0] && s[|s| - 1] == y[|y| - 1];
    assert forall i :: 0 <= i < |s| ==> (i < |x| ==> s[i] == x[i]) && (i > |x| ==> s[i] == y[i - |x| - 1]);
    assert forall i :: 0 <= i < |s| && s[i] == '_' ==> i == |x|;
  }

  lemma JoinUngroups(x: string, y: string)
    requires ParseDigits(x).Ok? && ParseDigits(y).Ok?
    ensures Ungroup(x + "_" + y) == x + y
  {
    DigitsAreGrouped(x);
    DigitsAreGrouped(y);
    UngroupAppend(x, "_");
    assert Ungroup("_") == [] by { assert "_"[..0] == []; }
    assert Ungroup(x + "_") == x by { assert x + [] == x; }
    UngroupAppend(x + "_", y);
  }

  lemma {:induction false} UngroupAppend(u: string, v: string)
    ensures Ungroup(u + v) == Ungroup(u) + Ungroup(v)
    decreases |v|
  {
    if |v| > 0 {
      var k := |v| - 1;
      assert (u + v)[..|u + v| - 1] == u + v[..k];
      UngroupAppend(u, v[..k]);
    } else {
      assert u + v == u;
    }
  }

  /** The decimal digits of `n` without leading zeros, as JavaScript's
      template literals and Python's `str` write an integer. */
  function Decimal(n: nat): (r: string)
    ensures |r| > 0
    ensures forall i :: 0 <= i < |r| ==> IsDigit(r[i])
  {
    if n < 10 then [('0' as int + n) as char]
    else Decimal(n / 10) + [('0' as int + n % 10) as char]
  }

  /** Parsing the decimal form of a number gives the number back. */
  lemma {:induction false} ParseDecimal(n: nat)
    ensures ParseDigits(Decimal(n)) == Ok(n)
  {
    DecimalValue(n);
  }

  lemma {:induction false} DecimalValue(n: nat)
    ensures DigitsValue(Decimal(n)) == n
  {
    var d := Decimal(n);
    if n >= 10 {
      DecimalValue(n / 10);
      assert d[..|d| - 1] == Decimal(n / 10);
    }
  }

  /** `s[k:]` for `k >= 0`: empty once `k` passes the end. */
  function From<T>(s: seq<T>, k: nat): (r: seq<T>)
    ensures k <= |s| ==> r == s[k..]
    ensures |s| < k ==> r == []
  {
    if k <= |s| then s[k..] else []
  }

  /** `s.lstrip(cs)`: drops every leading character of `cs`, and only
      those. */
  function LStrip(s: string, cs: iset<char>): (r: string)
    ensures |r| <= |s| && r == s[|s| - |r|..]
    ensures |r| == 0 || r[0] !in cs
    ensures forall i :: 0 <= i < |s| - |r| ==> s[i] in cs
  {
    if |s| > 0 && s[0] in cs then LStrip(s[1..], cs) else s
  }

  /** `s.rstrip(cs)`: drops every trailing character of `cs`, and only
      those. */
  function RStrip(s: string, cs: iset<char>): (r: string)
    ensures |r| <= |s| && r == s[..|r|]
    ensures |r| == 0 || r[|r| - 1] !in cs
    ensures forall i :: |r| <= i < |s| ==> s[i] in cs
  {
    if |s| > 0 && s[|s| - 1] in cs then RStrip(s[..|s| - 1], cs) else s
  }

  /** `s.strip(cs)`: both ends at once. */
  function Strip(s: string, cs: iset<char>): (r: string)
    ensures |r| == 0 || (r[0] !in cs && r[|r| - 1] !in cs)
    ensures |r| > 0 ==> r[0] in s
  {
    var l := LStrip(s, cs);
    var r := RStrip(l, cs);
    assert |r| > 0 ==> r[0] == l[0] == s[|s| - |l|];
    r
  }

  /** Text that neither starts nor ends with a character of `cs` is left
      alone. */
  lemma StripUnpadded(s: string, cs: iset<char>)
    requires |s| > 0 && s[0] !in cs && s[|s| - 1] !in cs
    ensures LStrip(s, cs) == s && RStrip(s, cs) == s && Strip(s, cs) == s
  {
  }

  /** Characters of `cs` around unpadded text are exactly what `strip`
      removes. */
  lemma StripPadding(a: string, s: string, b: string, cs: iset<char>)
    requires forall c :: c in a ==> c in cs
    requires forall c :: c in b ==> c in cs
    requires |s| > 0 && s[0] !in cs && s[|s| - 1] !in cs
    ensures Strip(a + s + b, cs) == s
  {
    assert a + s + b == a + (s + b);
    LStripPrefix(a, s + b, cs);
    assert (s + b)[0] == s[0];
    RStripSuffix(s, b, cs);
    StripUnpadded(s, cs);
  }

  /** Leading characters of `cs` are exactly what `lstrip` removes. */
  lemma {:induction false} LStripPrefix(a: string, t: string, cs: iset<char>)
    requires forall c :: c in a ==> c in cs
    ensures LStrip(a + t, cs) == LStrip(t, cs)
    decreases |a|
  {
    if |a| > 0 {
      assert (a + t)[0] == a[0] && (a + t)[1..] == a[1..] + t;
      LStripPrefix(a[1..], t, cs);
    } else {
      assert a + t == t;
    }
  }

  /** Trailing characters of `cs` are exactly what `rstrip` removes. */
  lemma {:induction false} RStripSuffix(t: string, b: string, cs: iset<char>)
    requires forall c :: c in b ==> c in cs
    ensures RStrip(t + b, cs) == RStrip(t, cs)
    decreases |b|
  {
    if |b| > 0 {
      var k := |b| - 1;
      assert (t + b)[|t + b| - 1] == b[k] && (t + b)[..|t + b| - 1] == t + b[..k];
      RStripSuffix(t, b[..k], cs);
    } else {
      assert t + b == t;
    }
  }
}

=== FILE: resource_check.dfy ===
/**
 * `GeneticAlgorithm.check_resource_availability` (genetic_algorithm.py:68-73):
 * whether an in-house module may run from `start_period` through
 * `int(start_period + duration)`, both ends included, on its feasibility row.
 */
module ResourceCheck {
  import opened Wrappers
  import opened Py

  /** `feasible_set`: module number to its per-period 0/1 row. */
  type FeasibleSet = map<int, seq<int>>

  /** The last period of the window: `int(start_period + duration)`. */
  function EndPeriod(start: int, duration: real): (r: int)
    ensures start as real + duration >= 0.0 ==> r as real <= start as real + duration < r as real + 1.0
    ensures start as real + duration < 0.0 ==> r as real - 1.0 < start as real + duration <= r as real
  {
    Trunc(start as real + duration)
  }

  /** Period `p` reads a non-zero entry of the row, at `p - 1` with
      Python's indexing. */
  predicate Open(row: seq<int>, p: int) {
    Index(row, p - 1).Ok? && Index(row, p - 1).value != 0
  }

  /** Every period of `start..end` reads a non-zero entry. */
  predicate AllOpen(row: seq<int>, start: int, end: int) {
    forall p :: start <= p <= end ==> Open(row, p)
  }

  /** The scan reaches period `p` and finds a zero there. */
  predicate BlockedAt(row: seq<int>, start: int, p: int) {
    && AllOpen(row, start, p - 1)
    && Index(row, p - 1) == Ok(0)
  }

  /** The scan reaches period `p` and the index is out of range. */
  predicate FailsAt(row: seq<int>, start: int, p: int) {
    && AllOpen(row, start, p - 1)
    && Index(row, p - 1).Err?
  }

  /** `check_resource_availability(start_period, duration, module)`: the
      loop stops at the first zero, and an index past either end of the row
      raises before any later period is read. The row is looked up inside
      the loop, so an empty window answers `True` even for a module with no
      row, and only a non-empty one raises `KeyError` for it. */
  method CheckResourceAvailability(feasible: FeasibleSet, start: int, duration: real, m: int)
      returns (r: Result<bool, PyError>)
    ensures m !in feasible ==> r == (if EndPeriod(start, duration) < start then Ok(true) else Err(KeyError))
    ensures m in feasible ==>
      var row, end := feasible[m], EndPeriod(start, duration);
      && (r == Ok(true) <==> AllOpen(row, start, end))
      && (r == Ok(false) <==> exists p :: start <= p <= end && BlockedAt(row, start, p))
      && (r.Err? <==> exists p :: start <= p <= end && FailsAt(row, start, p))
    ensures r.Err? ==> r.error in {KeyError, IndexError}
  {
    var end := EndPeriod(start, duration);
    if end < start {
      return Ok(true);
    }
    if m !in feasible {
      return Err(KeyError);
    }
    var row := feasible[m];
    var p := start;
    while p <= end
      invariant start <= p <= end + 1
      invariant AllOpen(row, start, p - 1)
      decreases end + 1 - p
    {
      var entry := Index(row, p - 1);
      if entry.Err? {
        assert FailsAt(row, start, p);
        OnlyOneOutcome(row, start, end, p);
        return Err(IndexError);
      }
      if entry.value == 0 {
        assert BlockedAt(row, start, p);
        OnlyOneOutcome(row, start, end, p);
        return Ok(false);
      }
      p := p + 1;
    }
    NoStop(row, start, end);
    return Ok(true);
  }

  /** The scan stops at one period at most, and stopping rules out
      finishing. */
  lemma OnlyOneOutcome(row: seq<int>, start: int, end: int, p: int)
    requires start <= p <= end && AllOpen(row, start, p - 1) && !Open(row, p)
    ensures !AllOpen(row, start, end)
    ensures forall q :: start <= q <= end && q != p ==> !BlockedAt(row, start, q) && !FailsAt(row, start, q)
  {
    forall q | start <= q <= end && q != p
      ensures !BlockedAt(row, start, q) && !FailsAt(row, start, q)
    {
      if q < p {
        assert Open(row, q);
      } else {
        assert !AllOpen(row, start, q - 1) by {
          assert !Open(row, p);
        }
      }
    }
  }

  /** A scan that reads every period finds no zero and no bad index. */
  lemma NoStop(row: seq<int>, start: int, end: int)
    requires AllOpen(row, start, end)
    ensures forall q :: start <= q <= end ==> !BlockedAt(row, start, q) && !FailsAt(row, start, q)
  {
    forall q | start <= q <= end ensures !BlockedAt(row, start, q) && !FailsAt(row, start, q) {
      assert Open(row, q);
    }
  }

  /** For the windows `generate_individual` tries — inside the row, which
      starts at period 1 — no index error is possible and the answer is
      whether every entry of the window is non-zero. */
  lemma WindowInsideRow(row: seq<int>, start: int, end: int)
    requires 1 <= start && end <= |row|
    ensures AllOpen(row, start, end) <==> forall i :: start - 1 <= i < end ==> row[i] != 0
    ensures forall p :: start <= p <= end ==> !FailsAt(row, start, p)
  {
    if AllOpen(row, start, end) {
      forall i | start - 1 <= i < end ensures row[i] != 0 {
        assert Open(row, i + 1);
      }
    }
  }
}

=== FILE: selection.dfy ===
/**
 * The two deterministic selections of the genetic algorithm: elite parent
 * selection (`select_parents`, genetic_algorithm.py:186-192) and the
 * per-family choice of product in `fitness_function`
 * (genetic_algorithm.py:130-149), with the profit of a product abstracted.
 */
module Selection {

  /** A fitness score paired with its individual, as `zip` builds them. */
  type Scored<T> = (real, T)

  /** `zip(fitness_scores, population)`: pairs up to the shorter length. */
  function Zip<T>(scores: seq<real>, pop: seq<T>): (r: seq<Scored<T>>)
    ensures |r| == if |scores| <= |pop| then |scores| else |pop|
    ensures forall i :: 0 <= i < |r| ==> r[i] == (scores[i], pop[i])
  {
    if |scores| == 0 || |pop| == 0 then []
    else [(scores[0], pop[0])] + Zip(scores[1..], pop[1..])
  }

  /** Fitness never increases along `s`. */
  ghost predicate NonIncreasing<T>(s: seq<Scored<T>>) {
    forall i, j :: 0 <= i < j < |s| ==> s[i].0 >= s[j].0
  }

  /** Places `x` after every pair of at least its fitness and before the
      first pair of lower fitness, as a stable descending sort does. */
  function Insert<T>(x: Scored<T>, s: seq<Scored<T>>): (r: seq<Scored<T>>)
    ensures |r| == |s| + 1
    ensures multiset(r) == multiset(s) + multiset{x}
    ensures forall i :: 0 <= i < |r| ==> r[i] == x || r[i] in s
  {
    if |s| == 0 then [x]
    else if s[0].0 < x.0 then [x] + s
    else
      var rest := Insert(x, s[1..]);
      assert s == [s[0]] + s[1..];
      assert forall i :: 0 <= i < |rest| ==> rest[i] == x || rest[i] in s[1..];
      [s[0]] + rest
  }

  /** Inserting into a descending sequence keeps it descending. */
  lemma {:induction false} InsertSorted<T>(x: Scored<T>, s: seq<Scored<T>>)
    requires NonIncreasing(s)
    ensures NonIncreasing(Insert(x, s))
  {
    if |s| > 0 && s[0].0 >= x.0 {
      var tail := s[1..];
      assert NonIncreasing(tail) by {
        forall i, j | 0 <= i < j < |tail| ensures tail[i].0 >= tail[j].0 {
          assert tail[i] == s[i + 1] && tail[j] == s[j + 1];
        }
      }
      InsertSorted(x, tail);
      var rest := Insert(x, tail);
      forall i | 0 <= i < |rest| ensures s[0].0 >= rest[i].0 {
        if rest[i] != x {
          var j :| 0 <= j < |tail| && tail[j] == rest[i];
          assert tail[j] == s[j + 1];
        }
      }
      ConsSorted(s[0], rest);
    } else if |s| > 0 {
      assert forall i :: 0 <= i < |s| ==> x.0 >= s[i].0 by {
        forall i | 0 <= i < |s| ensures x.0 >= s[i].0 {
          assert s[0].0 >= s[i].0 || i == 0;
        }
      }
      ConsSorted(x, s);
    }
  }

  /** A head at least as fit as every element of a descending tail. */
  lemma ConsSorted<T>(h: Scored<T>, rest: seq<Scored<T>>)
    requires NonIncreasing(rest)
    requires forall i :: 0 <= i < |rest| ==> h.0 >= rest[i].0
    ensures NonIncreasing([h] + rest)
  {
    var r := [h] + rest;
    forall i, j | 0 <= i < j < |r| ensures r[i].0 >= r[j].0 {
      assert r[j] == rest[j - 1];
      if i > 0 {
        assert r[i] == rest[i - 1];
      }
    }
  }

  /** `sorted(pairs, key=lambda pair: pair[0], reverse=True)`. */
  function SortDesc<T>(s: seq<Scored<T>>): (r: seq<Scored<T>>)
    ensures |r| == |s|
    ensures multiset(r) == multiset(s)
    ensures NonIncreasing(r)
  {
    if |s| == 0 then []
    else
      var last := s[|s| - 1];
      assert s == s[..|s| - 1] + [last];
      InsertSorted(last, SortDesc(s[..|s| - 1]));
      Insert(last, SortDesc(s[..|s| - 1]))
  }

  /** `int(len(population) / 2)`. */
  function EliteSize(n: nat): nat {
    n / 2
  }

  /** The sorted pairs split at the elite size: the selected pairs and the
      rest. */
  function Split<T>(pairs: seq<Scored<T>>, k: nat): (r: (seq<Scored<T>>, seq<Scored<T>>))
    ensures |r.0| == if k <= |pairs| then k else |pairs|
    ensures multiset(r.0) + multiset(r.1) == multiset(SortDesc(pairs))
    ensures r.0 + r.1 == SortDesc(pairs)
  {
    var sorted := SortDesc(pairs);
    var cut := if k <= |sorted| then k else |sorted|;
    assert sorted == sorted[..cut] + sorted[cut..];
    (sorted[..cut], sorted[cut..])
  }

  /** `top` and `rest` split a permutation of `pairs` so that `top` holds
      `k` pairs (all of them when there are fewer), in non-increasing
      fitness, each at least as fit as every pair of `rest`. */
  ghost predicate EliteOf<T>(pairs: seq<Scored<T>>, k: nat, top: seq<Scored<T>>, rest: seq<Scored<T>>) {
    && |top| == (if k <= |pairs| then k else |pairs|)
    && multiset(top) + multiset(rest) == multiset(pairs)
    && NonIncreasing(top)
    && (forall i, j :: 0 <= i < |top| && 0 <= j < |rest| ==> top[i].0 >= rest[j].0)
  }

  /** The sorted pairs cut at `k` are an elite split. */
  lemma SplitIsElite<T>(pairs: seq<Scored<T>>, k: nat)
    ensures EliteOf(pairs, k, Split(pairs, k).0, Split(pairs, k).1)
  {
    var (top, rest) := Split(pairs, k);
    var sorted := SortDesc(pairs);
    assert top + rest == sorted;
    forall i, j | 0 <= i < |top| && 0 <= j < |rest| ensures top[i].0 >= rest[j].0 {
      assert top[i] == sorted[i] && rest[j] == sorted[|top| + j];
    }
    forall i, j | 0 <= i < j < |top| ensures top[i].0 >= top[j].0 {
      assert top[i] == sorted[i] && top[j] == sorted[j];
    }
  }

  /** The individuals of a list of pairs. */
  function Individuals<T>(s: seq<Scored<T>>): (r: seq<T>)
    ensures |r| == |s|
    ensures forall i :: 0 <= i < |s| ==> r[i] == s[i].1
  {
    if |s| == 0 then [] else [s[0].1] + Individuals(s[1..])
  }

  /** `select_parents(population, fitness_scores)`: the individuals of an
      elite split of the scored population, fittest first; `floor(n / 2)`
      of them when every individual has a score. */
  function SelectParents<T(!new)>(pop: seq<T>, scores: seq<real>): (r: seq<T>)
    ensures exists top, rest :: EliteOf(Zip(scores, pop), EliteSize(|pop|), top, rest) && r == Individuals(top)
    ensures |pop| <= |scores| ==> |r| == |pop| / 2
  {
    var pairs := Zip(scores, pop);
    SplitIsElite(pairs, EliteSize(|pop|));
    var (top, rest) := Split(pairs, EliteSize(|pop|));
    assert EliteOf(pairs, EliteSize(|pop|), top, rest);
    Individuals(top)
  }

  // ---------------------------------------------------------------------
  // Family selection

  datatype Product = P11 | P21 | P31 | P12 | P22 | P32 | P13 | P23
  datatype Family = K1 | K2 | K3

  /** The products of each family, in the order of `families`. */
  function Members(f: Family): (r: seq<Product>)
    ensures |r| > 0
  {
    match f
    case K1 => [P11, P21, P31]
    case K2 => [P12, P22, P32]
    case K3 => [P13, P23]
  }

  /** What `calculate_product_profit` returns for a product: the profit
      and the launch period. */
  datatype Outcome = Outcome(profit: real, launch: int)

  /** `max(product_profit, key=product_profit.get)`: the position of the
      first product of maximal profit. */
  function FirstMax(ps: seq<Product>, evaluate: Product -> Outcome): (i: nat)
    requires |ps| > 0
    ensures i < |ps|
    ensures forall j :: 0 <= j < |ps| ==> evaluate(ps[j]).profit <= evaluate(ps[i]).profit
    ensures forall j :: 0 <= j < i ==> evaluate(ps[j]).profit < evaluate(ps[i]).profit
  {
    if |ps| == 1 then 0
    else
      var k := FirstMax(ps[..|ps| - 1], evaluate);
      if evaluate(ps[|ps| - 1]).profit > evaluate(ps[k]).profit then |ps| - 1 else k
  }

  /** One family's entry of `family_product_profit`. */
  datatype Choice = Choice(product: Product, profit: real, launch: int)

  /** The family's first product of maximal profit, with its profit and
      launch period. */
  function Choose(f: Family, evaluate: Product -> Outcome): (c: Choice)
    ensures c.profit == evaluate(c.product).profit && c.launch == evaluate(c.product).launch
    ensures forall p :: p in Members(f) ==> evaluate(p).profit <= c.profit
    ensures exists i ::
      && 0 <= i < |Members(f)| && Members(f)[i] == c.product
      && (forall j :: 0 <= j < i ==> evaluate(Members(f)[j]).profit < c.profit)
  {
    var ps := Members(f);
    var i := FirstMax(ps, evaluate);
    assert ps[i] == Members(f)[i];
    Choice(ps[i], evaluate(ps[i]).profit, evaluate(ps[i]).launch)
  }

  /** `fitness_function` with the per-product profit `evaluate`: the total and
      the choice for K1, K2 and K3 in that order. */
  function FamilySelection(evaluate: Product -> Outcome): (r: (real, seq<Choice>))
    ensures |r.1| == 3
    ensures r.1[0] == Choose(K1, evaluate) && r.1[1] == Choose(K2, evaluate) && r.1[2] == Choose(K3, evaluate)
    ensures r.0 == r.1[0].profit + r.1[1].profit + r.1[2].profit
    ensures forall a, b, c :: a in Members(K1) && b in Members(K2) && c in Members(K3) ==>
      evaluate(a).profit + evaluate(b).profit + evaluate(c).profit <= r.0
  {
    var c1, c2, c3 := Choose(K1, evaluate), Choose(K2, evaluate), Choose(K3, evaluate);
    (0.0 + c1.profit + c2.profit + c3.profit, [c1, c2, c3])
  }
}

=== FILE: seq_facts.dfy ===
/** Small facts about sequences and sets that the backend models share. */
module SeqFacts {

  /** No element occurs twice. */
  predicate Distinct(s: seq<nat>) {
    forall i, j :: 0 <= i < j < |s| ==> s[i] != s[j]
  }

  /** The elements of `s` as a set. */
  function Elements(s: seq<nat>): (r: set<nat>)
    ensures forall x :: x in r <==> x in s
  {
    set x | x in s
  }

  /** `range(1, n + 1)` as a set. */
  function Range(n: nat): (r: set<nat>)
    ensures forall v :: v in r <==> 1 <= v <= n
    ensures |r| == n
  {
    if n == 0 then {} else
      var r := Range(n - 1);
      assert n !in r;
      r + {n}
  }

  lemma {:induction false} ElementsOfDistinct(s: seq<nat>)
    requires Distinct(s)
    ensures |Elements(s)| == |s|
  {
    if |s| > 0 {
      var t := s[..|s| - 1];
      assert Distinct(t);
      ElementsOfDistinct(t);
      assert Elements(s) == Elements(t) + {s[|s| - 1]};
      assert s[|s| - 1] !in Elements(t);
    }
  }

  lemma {:induction false} ElementsAtMostLength(s: seq<nat>)
    ensures |Elements(s)| <= |s|
  {
    if |s| > 0 {
      var t := s[..|s| - 1];
      ElementsAtMostLength(t);
      assert Elements(s) == Elements(t) + {s[|s| - 1]};
    }
  }

  lemma SubsetSize<T>(a: set<T>, b: set<T>)
    requires a <= b
    ensures |a| <= |b|
  {
    assert b == a + (b - a);
  }

  /** A duplicate-free sequence drawn from 1..n has at most n elements, and
      exactly n only when it holds all of them. */
  lemma DistinctInRange(s: seq<nat>, n: nat)
    requires Distinct(s) && forall i :: 0 <= i < |s| ==> 1 <= s[i] <= n
    ensures |s| <= n
    ensures |s| == n ==> forall v :: 1 <= v <= n ==> v in s
  {
    ElementsOfDistinct(s);
    SubsetSize(Elements(s), Range(n));
    if |s| == n {
      forall v | 1 <= v <= n ensures v in s {
        if v !in s {
          SubsetSize(Elements(s), Range(n) - {v});
        }
      }
    }
  }

  /** A sequence that misses a member of `ps` cannot have seen as many
      different members of it as `ps` has entries. */
  lemma {:induction false} MissingMember(seen: set<nat>, ps: seq<nat>, p: nat)
    requires seen <= Elements(ps) && p in ps && p !in seen
    ensures |seen| < |ps|
  {
    ElementsAtMostLength(ps);
    SubsetSize(seen, Elements(ps) - {p});
  }
}

=== FILE: suppliers.dfy ===
/**
 * The supplier sheet of `preprocess_data` (data_processing.py:45-76): rows
 * are upserted per module and supplier, then merged into the module
 * profiles as parallel per-supplier lists.
 */
module Suppliers {
  import opened Wrappers
  import opened Py
  import opened Profiles

  /** What the sheet records for one supplier of one module. */
  datatype SupplierInfo = SupplierInfo(supplier: int, cost: real, leadTime: real, expedCost: real, maxExped: real)

  /** A row of `crash_data_outsourced`. */
  datatype OutRow = OutRow(moduleId: int, info: SupplierInfo)

  /** A numeric cell of the supplier sheet as `iterrows` yields it: a
      number, or the NaN pandas reads for a blank cell. */
  datatype SheetCell = Blank | Number(x: real)

  /** A row of `crash_data_outsourced` as read, before the `int()` calls. */
  datatype SheetRow = SheetRow(moduleCell: SheetCell, supplierCell: SheetCell,
                               cost: real, leadTime: real, expedCost: real, maxExped: real)

  /** `int(row[...])` of a cell: a number truncates toward zero, and
      `int()` of NaN raises `ValueError`. */
  function CellInt(c: SheetCell): (r: Result<int, PyError>)
    ensures r.Ok? <==> c.Number?
    ensures r.Err? ==> r.error == ValueError
    ensures c.Number? && c.x >= 0.0 ==> 0 <= r.value && r.value as real <= c.x < r.value as real + 1.0
    ensures c.Number? && c.x < 0.0 ==> r.value <= 0 && r.value as real - 1.0 < c.x <= r.value as real
  {
    match c
    case Blank => Err(ValueError)
    case Number(x) => Ok(Trunc(x))
  }

  /** The row's module and supplier through `int()`
      (data_processing.py:48-49), the other fields as they are. */
  function ReadRow(row: SheetRow): (r: Result<OutRow, PyError>)
    ensures r.Ok? <==> row.moduleCell.Number? && row.supplierCell.Number?
    ensures r.Err? ==> r.error == ValueError
    ensures r.Ok? ==> r.value.moduleId == Trunc(row.moduleCell.x) && r.value.info.supplier == Trunc(row.supplierCell.x)
    ensures r.Ok? ==> var i := r.value.info;
      i.cost == row.cost && i.leadTime == row.leadTime && i.expedCost == row.expedCost && i.maxExped == row.maxExped
  {
    match CellInt(row.moduleCell)
    case Err(e) => Err(e)
    case Ok(m) =>
      match CellInt(row.supplierCell)
      case Err(e) => Err(e)
      case Ok(sup) => Ok(OutRow(m, SupplierInfo(sup, row.cost, row.leadTime, row.expedCost, row.maxExped)))
  }

  /** Every row of the sheet read; the first blank module or supplier
      raises. The rows before it are upserted first, but the exception
      leaves `preprocess_data` and discards them. */
  function ReadRows(rows: seq<SheetRow>): (r: Result<seq<OutRow>, PyError>)
    ensures r.Ok? <==> forall i :: 0 <= i < |rows| ==> ReadRow(rows[i]).Ok?
    ensures r.Err? ==> r.error == ValueError
    ensures r.Ok? ==> |r.value| == |rows| && forall i :: 0 <= i < |rows| ==> Ok(r.value[i]) == ReadRow(rows[i])
  {
    if |rows| == 0 then Ok([])
    else
      var k := |rows| - 1;
      assert forall i :: 0 <= i < k ==> rows[..k][i] == rows[i];
      match ReadRows(rows[..k])
      case Err(e) => Err(e)
      case Ok(front) =>
        match ReadRow(rows[k])
        case Err(e) => Err(e)
        case Ok(row) => Ok(front + [row])
  }

  /** A sheet of whole numbers reads back to the rows it writes. */
  lemma {:induction false} WholeRowsRead(rows: seq<OutRow>)
    ensures var sheet := seq(|rows|, i requires 0 <= i < |rows| =>
        SheetRow(Number(rows[i].moduleId as real), Number(rows[i].info.supplier as real),
                 rows[i].info.cost, rows[i].info.leadTime, rows[i].info.expedCost, rows[i].info.maxExped));
      ReadRows(sheet) == Ok(rows)
  {
    var sheet := seq(|rows|, i requires 0 <= i < |rows| =>
        SheetRow(Number(rows[i].moduleId as real), Number(rows[i].info.supplier as real),
                 rows[i].info.cost, rows[i].info.leadTime, rows[i].info.expedCost, rows[i].info.maxExped));
    forall i | 0 <= i < |rows| ensures ReadRow(sheet[i]) == Ok(rows[i]) {
      TruncWhole(rows[i].moduleId);
      TruncWhole(rows[i].info.supplier);
    }
    assert ReadRows(sheet).Ok?;
    assert ReadRows(sheet).value == rows;
  }

  /** `int()` of a whole number gives it back. */
  lemma TruncWhole(n: int)
    ensures Trunc(n as real) == n
  {
  }

  /** `outsource_profile`: module to its suppliers. */
  type OutsourceProfile = map<int, seq<SupplierInfo>>

  /** The supplier ids of a list, in order. */
  function Ids(l: seq<SupplierInfo>): (r: seq<int>)
    ensures |r| == |l| && forall i :: 0 <= i < |l| ==> r[i] == l[i].supplier
  {
    if |l| == 0 then [] else [l[0].supplier] + Ids(l[1..])
  }

  /** The first entry of the list for supplier `s`. */
  function Find(l: seq<SupplierInfo>, s: int): (r: Option<SupplierInfo>)
    ensures r.Some? <==> s in Ids(l)
    ensures r.Some? ==> r.value in l && r.value.supplier == s
  {
    if |l| == 0 then None
    else if l[0].supplier == s then Some(l[0])
    else
      assert Ids(l) == [l[0].supplier] + Ids(l[1..]);
      Find(l[1..], s)
  }

  /** The loop of data_processing.py:58-68: the first entry of the same
      supplier takes the row's fields, and a new supplier is appended. */
  function Upsert(l: seq<SupplierInfo>, x: SupplierInfo): (r: seq<SupplierInfo>)
    ensures Ids(r) == if x.supplier in Ids(l) then Ids(l) else Ids(l) + [x.supplier]
    ensures forall s :: Find(r, s) == if s == x.supplier then Some(x) else Find(l, s)
  {
    if |l| == 0 then [x]
    else if l[0].supplier == x.supplier then [x] + l[1..]
    else
      var rest := Upsert(l[1..], x);
      assert Ids(l) == [l[0].supplier] + Ids(l[1..]);
      assert Ids([l[0]] + rest) == [l[0].supplier] + Ids(rest);
      [l[0]] + rest
  }

  /** The suppliers recorded for module `m`, none when it has no entry. */
  function ListOf(p: OutsourceProfile, m: int): seq<SupplierInfo> {
    if m in p then p[m] else []
  }

  /** One row of the loop at data_processing.py:47-68; a module's first
      row starts its list. */
  function Record(p: OutsourceProfile, row: OutRow): (r: OutsourceProfile)
    ensures r.Keys == p.Keys + {row.moduleId}
    ensures forall m :: m != row.moduleId ==> ListOf(r, m) == ListOf(p, m)
    ensures ListOf(r, row.moduleId) == Upsert(ListOf(p, row.moduleId), row.info)
  {
    p[row.moduleId := Upsert(ListOf(p, row.moduleId), row.info)]
  }

  /** The modules named in the rows. */
  function ModulesOf(rows: seq<OutRow>): (r: set<int>)
    ensures forall m :: m in r <==> exists i :: 0 <= i < |rows| && rows[i].moduleId == m
  {
    if |rows| == 0 then {}
    else
      var front := rows[..|rows| - 1];
      var r := ModulesOf(front);
      assert forall i :: 0 <= i < |front| ==> front[i] == rows[i];
      r + {rows[|rows| - 1].moduleId}
  }

  /** `outsource_profile` after the rows, in sheet order: an entry for
      every module the sheet names. */
  function BuildOutsourceProfile(rows: seq<OutRow>): (r: OutsourceProfile)
    ensures r.Keys == ModulesOf(rows)
  {
    if |rows| == 0 then map[]
    else Record(BuildOutsourceProfile(rows[..|rows| - 1]), rows[|rows| - 1])
  }

  /** The supplier column of the rows for module `m`, in sheet order. */
  function SuppliersOf(rows: seq<OutRow>, m: int): seq<int> {
    if |rows| == 0 then []
    else
      var last := rows[|rows| - 1];
      SuppliersOf(rows[..|rows| - 1], m) + (if last.moduleId == m then [last.info.supplier] else [])
  }

  /** `s` without repeats, each value where it first occurs. */
  function FirstSeen(s: seq<int>): (r: seq<int>)
    ensures forall x :: x in r <==> x in s
    ensures forall i, j :: 0 <= i < j < |r| ==> r[i] != r[j]
  {
    if |s| == 0 then []
    else
      var f := FirstSeen(s[..|s| - 1]);
      assert s == s[..|s| - 1] + [s[|s| - 1]];
      if s[|s| - 1] in f then f else f + [s[|s| - 1]]
  }

  /** The fields of the last row for module `m` and supplier `s`. */
  function LastInfo(rows: seq<OutRow>, m: int, s: int): Option<SupplierInfo> {
    if |rows| == 0 then None
    else
      var last := rows[|rows| - 1];
      if last.moduleId == m && last.info.supplier == s then Some(last.info)
      else LastInfo(rows[..|rows| - 1], m, s)
  }

  /** Supplier ids stay unique, in the order each was first seen for the
      module. */
  lemma {:induction false} SupplierOrder(rows: seq<OutRow>, m: int)
    ensures Ids(ListOf(BuildOutsourceProfile(rows), m)) == FirstSeen(SuppliersOf(rows, m))
  {
    if |rows| > 0 {
      var front, last := rows[..|rows| - 1], rows[|rows| - 1];
      SupplierOrder(front, m);
      var before := ListOf(BuildOutsourceProfile(front), m);
      assert ListOf(BuildOutsourceProfile(rows), m) ==
        if last.moduleId == m then Upsert(before, last.info) else before;
      var f := FirstSeen(SuppliersOf(front, m));
      if last.moduleId == m {
        var s := SuppliersOf(rows, m);
        assert s == SuppliersOf(front, m) + [last.info.supplier];
        assert s[..|s| - 1] == SuppliersOf(front, m);
      } else {
        assert SuppliersOf(rows, m) == SuppliersOf(front, m);
      }
    }
  }

  /** A repeated module and supplier keeps the fields of its last row. */
  lemma {:induction false} LastRowWins(rows: seq<OutRow>, m: int, s: int)
    ensures Find(ListOf(BuildOutsourceProfile(rows), m), s) == LastInfo(rows, m, s)
  {
    if |rows| > 0 {
      LastRowWins(rows[..|rows| - 1], m, s);
    }
  }

  /** The five parallel lists of data_processing.py:72-76. */
  function MergeModule(p: ModuleProfile, l: seq<SupplierInfo>): (r: ModuleProfile)
    ensures r.kind == p.kind && r.util == p.util && r.avail == p.avail
    ensures r.supplier == Some(Ids(l)) && r.cost.PerSupplier?
    ensures |r.duration| == |r.cost.xs| == |r.maxCrash| == |r.crashCost| == |l|
    ensures forall i :: 0 <= i < |l| ==>
      && r.duration[i] == l[i].leadTime && r.cost.xs[i] == l[i].cost
      && r.maxCrash[i] == l[i].maxExped && r.crashCost[i] == l[i].expedCost
  {
    p.(supplier := Some(Ids(l)),
       duration := seq(|l|, i requires 0 <= i < |l| => l[i].leadTime),
       cost := PerSupplier(seq(|l|, i requires 0 <= i < |l| => l[i].cost)),
       maxCrash := seq(|l|, i requires 0 <= i < |l| => l[i].maxExped),
       crashCost := seq(|l|, i requires 0 <= i < |l| => l[i].expedCost))
  }

  /** The merge loop: `module_profile[module]` raises `KeyError` for a
      module of the sheet outside the profiles; other modules keep their
      profile. */
  function Merge(profiles: ModuleProfiles, op: OutsourceProfile): (r: Result<ModuleProfiles, PyError>)
    ensures r.Ok? <==> op.Keys <= profiles.Keys
    ensures r.Err? ==> r.error == KeyError
    ensures r.Ok? ==> r.value.Keys == profiles.Keys
    ensures r.Ok? ==> forall m :: m in op ==> r.value[m] == MergeModule(profiles[m], op[m])
    ensures r.Ok? ==> forall m :: m in profiles && m !in op ==> r.value[m] == profiles[m]
  {
    if op.Keys <= profiles.Keys then
      Ok(map m | m in profiles :: if m in op then MergeModule(profiles[m], op[m]) else profiles[m])
    else Err(KeyError)
  }
}

=== FILE: topo_sort.dfy ===
/**
 * `GeneticAlgorithm.topological_sort` (genetic_algorithm.py:91-111): Kahn's
 * algorithm over the dependency map, with a FIFO queue seeded by the nodes
 * of in-degree zero in ascending key order.
 */
module TopoSort {
  import opened SeqFacts

  /** `dependencies` as the sort reads it: entry `v - 1` lists the
      predecessors of node `v`, for the keys 1..n in insertion order. */
  type Graph = seq<seq<nat>>

  /** `dependencies[v]` for a node `v`; nothing for anything else. */
  function Preds(g: Graph, v: nat): seq<nat> {
    if 1 <= v <= |g| then g[v - 1] else []
  }

  /** Every predecessor of `emitted[i]` is among the first `bound` entries. */
  ghost predicate PredsBefore(g: Graph, emitted: seq<nat>, i: nat, bound: nat)
    requires i < |emitted| && bound <= |emitted|
  {
    forall p :: p in Preds(g, emitted[i]) ==> p in emitted[..bound]
  }

  /** The list, or the string `"Cycle Detected!!!"`. */
  datatype SortResult = Sorted(order: seq<nat>) | CycleDetected

  /** `order` lists each of 1..n once and every predecessor of a node
      earlier than the node. */
  ghost predicate IsTopoOrder(g: Graph, order: seq<nat>) {
    && |order| == |g|
    && Distinct(order)
    && (forall i :: 0 <= i < |order| ==> 1 <= order[i] <= |g|)
    && (forall i :: 0 <= i < |order| ==> PredsBefore(g, order, i, i))
  }

  /** No predecessor list repeats a node, as the lists built from a
      precedence matrix never do. */
  predicate DistinctPreds(g: Graph) {
    forall v :: 0 <= v < |g| ==> Distinct(g[v])
  }

  /** The nodes 1..k with no predecessors, ascending. */
  function SourcesUpTo(g: Graph, k: nat): (r: seq<nat>)
    requires k <= |g|
    ensures forall v :: v in r <==> 1 <= v <= k && |g[v - 1]| == 0
    ensures forall i :: 0 <= i < |r| ==> 1 <= r[i] <= k
    ensures forall i, j :: 0 <= i < j < |r| ==> r[i] < r[j]
  {
    if k == 0 then [] else
      var r := SourcesUpTo(g, k - 1);
      r + (if |g[k - 1]| == 0 then [k] else [])
  }

  /** The initial queue `[node for node, deg in in_degree.items() if deg == 0]`. */
  function Sources(g: Graph): seq<nat> {
    SourcesUpTo(g, |g|)
  }

  /** The predecessors in `ps` already popped into `order`. */
  function Seen(order: seq<nat>, ps: seq<nat>): set<nat> {
    set x | x in order && x in ps
  }

  lemma SeenSnoc(order: seq<nat>, x: nat, ps: seq<nat>)
    requires x !in order
    ensures x in ps ==> Seen(order + [x], ps) == Seen(order, ps) + {x} && |Seen(order + [x], ps)| == |Seen(order, ps)| + 1
    ensures x !in ps ==> Seen(order + [x], ps) == Seen(order, ps)
  {
    assert x !in Seen(order, ps);
  }

  /** Every predecessor is seen once as many different ones have been seen
      as the list is long. */
  lemma AllSeen(order: seq<nat>, ps: seq<nat>)
    requires |Seen(order, ps)| >= |ps|
    ensures forall p :: p in ps ==> p in order
  {
    forall p | p in ps ensures p in order {
      if p !in order {
        MissingMember(Seen(order, ps), ps, p);
      }
    }
  }

  /** The first position of `t` holding a node outside `order`. */
  lemma FirstOutside(t: seq<nat>, order: seq<nat>) returns (i: nat)
    requires exists k :: 0 <= k < |t| && t[k] !in order
    ensures i < |t| && t[i] !in order
    ensures forall j :: 0 <= j < i ==> t[j] in order
  {
    i := 0;
    while t[i] in order
      invariant i < |t|
      invariant forall j :: 0 <= j < i ==> t[j] in order
      invariant exists k :: i <= k < |t| && t[k] !in order
      decreases |t| - i
    {
      i := i + 1;
    }
  }

  /** A candidate ordering of a graph whose queue ran dry with `order`
      emitted fails at its first node outside `order`: that node still waits
      on a predecessor outside `order`, so not one listed before it. */
  lemma NotAnOrder(g: Graph, order: seq<nat>, t: seq<nat>)
    requires DistinctPreds(g) && Distinct(order) && |order| < |g|
    requires forall i :: 0 <= i < |g| && i + 1 !in order ==> |Seen(order, g[i])| < |g[i]|
    ensures !IsTopoOrder(g, t)
  {
    if |t| == |g| && Distinct(t) && (forall k :: 0 <= k < |t| ==> 1 <= t[k] <= |g|) {
      ElementsOfDistinct(t);
      ElementsOfDistinct(order);
      if forall k :: 0 <= k < |t| ==> t[k] in order {
        SubsetSize(Elements(t), Elements(order));
      }
      var i := FirstOutside(t, order);
      var ps := Preds(g, t[i]);
      ElementsOfDistinct(ps);
      assert Seen(order, ps) != Elements(ps);
      var p :| p in ps && p !in order;
      assert p !in t[..i];
      assert !PredsBefore(g, t, i, i);
    }
  }

  /** When the queue runs dry before every node is out, no ordering of the
      graph exists. */
  lemma StuckBlocksEveryOrder(g: Graph, order: seq<nat>)
    requires DistinctPreds(g) && Distinct(order) && |order| < |g|
    requires forall i :: 0 <= i < |g| && i + 1 !in order ==> |Seen(order, g[i])| < |g[i]|
    ensures forall t :: !IsTopoOrder(g, t)
  {
    forall t {
      NotAnOrder(g, order, t);
    }
  }

  /*
   * The deque and the output list are kept as one sequence `emitted`, the
   * nodes in the order they were queued: `emitted[..head]` is `order` and
   * `emitted[head..]` is `queue`, so `popleft` then `append` moves `head`.
   */

  /** The shape of `emitted` with `head` nodes popped: distinct nodes of
      the graph, led by the initial sources, each popped node preceded by
      all its predecessors, and each queued node's predecessors popped. */
  ghost predicate Shape(g: Graph, emitted: seq<nat>, head: nat)
    requires head <= |emitted|
  {
    && Distinct(emitted)
    && (forall i :: 0 <= i < |emitted| ==> 1 <= emitted[i] <= |g|)
    && (forall i :: 0 <= i < head ==> PredsBefore(g, emitted, i, i))
    && (forall i :: head <= i < |emitted| ==> PredsBefore(g, emitted, i, head))
    && Sources(g) <= emitted
  }

  /** A node that moves from the queue to the output keeps the shape. */
  lemma ShapePop(g: Graph, emitted: seq<nat>, head: nat)
    requires head < |emitted| && Shape(g, emitted, head)
    ensures Shape(g, emitted, head + 1)
  {
    var popped := head + 1;
    forall i | popped <= i < |emitted| ensures PredsBefore(g, emitted, i, popped) {
      assert PredsBefore(g, emitted, i, head);
      assert forall x :: x in emitted[..head] ==> x in emitted[..popped];
    }
  }

  /** A node not yet emitted whose predecessors are all popped may join
      the queue. */
  lemma ShapeAppend(g: Graph, emitted: seq<nat>, popped: nat, s: nat)
    requires popped <= |emitted| && Shape(g, emitted, popped)
    requires 1 <= s <= |g| && s !in emitted
    requires forall p :: p in g[s - 1] ==> p in emitted[..popped]
    ensures Shape(g, emitted + [s], popped)
  {
    var emitted' := emitted + [s];
    assert emitted'[..popped] == emitted[..popped];
    forall i | 0 <= i < popped ensures PredsBefore(g, emitted', i, i) {
      PredsBeforeExtend(g, emitted, emitted', i, i);
    }
    forall i | popped <= i < |emitted| ensures PredsBefore(g, emitted', i, popped) {
      PredsBeforeExtend(g, emitted, emitted', i, popped);
    }
    assert PredsBefore(g, emitted', |emitted|, popped);
    PrefixTrans(Sources(g), emitted, emitted');
  }

  /** The invariant of the `while queue` loop: `deg` is `in_degree` less one
      for every predecessor popped so far, a node has been queued exactly
      when its count reached zero, and `emitted` has its shape. */
  ghost predicate KahnInvariant(g: Graph, deg: seq<int>, emitted: seq<nat>, head: nat) {
    && |deg| == |g|
    && head <= |emitted|
    && (forall i :: 0 <= i < |g| ==> deg[i] == |g[i]| - |Seen(emitted[..head], g[i])|)
    && (forall i :: 0 <= i < |g| ==> (i + 1 in emitted <==> deg[i] <= 0))
    && Shape(g, emitted, head)
  }

  /** `in_degree` and the initial queue (genetic_algorithm.py:92-97). */
  method InitialQueue(g: Graph) returns (deg: seq<int>, queue: seq<nat>)
    ensures |deg| == |g| && forall i :: 0 <= i < |g| ==> deg[i] == |g[i]|
    ensures queue == Sources(g)
  {
    deg := [];
    queue := [];
    var v := 1;
    while v <= |g|
      invariant 1 <= v <= |g| + 1
      invariant |deg| == v - 1
      invariant forall i :: 0 <= i < v - 1 ==> deg[i] == |g[i]|
      invariant queue == SourcesUpTo(g, v - 1)
    {
      deg := deg + [|g[v - 1]|];
      if |g[v - 1]| == 0 {
        queue := queue + [v];
      }
      v := v + 1;
    }
  }

  /** The counts of successors below `s` discount the predecessors in
      `now`, the others those in `before`. */
  ghost predicate Counts(g: Graph, deg: seq<int>, now: seq<nat>, before: seq<nat>, s: nat)
    requires |deg| == |g| && 1 <= s <= |g| + 1
  {
    && (forall i :: 0 <= i < s - 1 ==> deg[i] == |g[i]| - |Seen(now, g[i])|)
    && (forall i :: s - 1 <= i < |g| ==> deg[i] == |g[i]| - |Seen(before, g[i])|)
  }

  lemma CountsSkip(g: Graph, deg: seq<int>, now: seq<nat>, before: seq<nat>, s: nat)
    requires |deg| == |g| && 1 <= s <= |g| && Counts(g, deg, now, before, s)
    requires Seen(now, g[s - 1]) == Seen(before, g[s - 1])
    ensures Counts(g, deg, now, before, s + 1)
  {
  }

  lemma CountsStep(g: Graph, deg: seq<int>, now: seq<nat>, before: seq<nat>, s: nat)
    requires |deg| == |g| && 1 <= s <= |g| && Counts(g, deg, now, before, s)
    requires |Seen(now, g[s - 1])| == |Seen(before, g[s - 1])| + 1
    ensures Counts(g, deg[s - 1 := deg[s - 1] - 1], now, before, s + 1)
  {
  }

  /** The invariant of the successor loop of the turn that popped
      `emitted[popped - 1]`: successors below `s` have been visited with
      that node counted, the others not yet. */
  ghost predicate Releasing(g: Graph, deg: seq<int>, emitted: seq<nat>, popped: nat, s: nat) {
    && 1 <= s <= |g| + 1
    && |deg| == |g|
    && 0 < popped <= |emitted|
    && Counts(g, deg, emitted[..popped], emitted[..popped - 1], s)
    && (forall i :: 0 <= i < |g| ==> (i + 1 in emitted <==> deg[i] <= 0))
    && Shape(g, emitted, popped)
  }

  lemma ReleaseStart(g: Graph, deg: seq<int>, emitted: seq<nat>, head: nat)
    requires KahnInvariant(g, deg, emitted, head) && head < |emitted|
    ensures Releasing(g, deg, emitted, head + 1, 1)
  {
    ShapePop(g, emitted, head);
  }

  lemma ReleaseEnd(g: Graph, deg: seq<int>, emitted: seq<nat>, popped: nat)
    requires Releasing(g, deg, emitted, popped, |g| + 1)
    ensures KahnInvariant(g, deg, emitted, popped)
  {
  }

  /** The popped node is not among those popped before it, so counting it
      adds it to the predecessors seen of exactly the lists that hold it. */
  lemma PoppedNode(g: Graph, emitted: seq<nat>, popped: nat, ps: seq<nat>)
    requires 0 < popped <= |emitted| && Distinct(emitted)
    ensures emitted[popped - 1] in ps ==> |Seen(emitted[..popped], ps)| == |Seen(emitted[..popped - 1], ps)| + 1
    ensures emitted[popped - 1] !in ps ==> Seen(emitted[..popped], ps) == Seen(emitted[..popped - 1], ps)
  {
    var node := emitted[popped - 1];
    assert emitted[..popped] == emitted[..popped - 1] + [node];
    assert node !in emitted[..popped - 1];
    SeenSnoc(emitted[..popped - 1], node, ps);
  }

  /** A successor that does not list the popped node is left alone. */
  lemma VisitSkip(g: Graph, deg: seq<int>, emitted: seq<nat>, popped: nat, s: nat)
    requires Releasing(g, deg, emitted, popped, s) && s <= |g| && emitted[popped - 1] !in g[s - 1]
    ensures Releasing(g, deg, emitted, popped, s + 1)
  {
    PoppedNode(g, emitted, popped, g[s - 1]);
    CountsSkip(g, deg, emitted[..popped], emitted[..popped - 1], s);
  }

  /** A successor whose count stays above zero, or was already at most zero,
      only has its count lowered. */
  lemma VisitCount(g: Graph, deg: seq<int>, emitted: seq<nat>, popped: nat, s: nat)
    requires Releasing(g, deg, emitted, popped, s) && s <= |g| && emitted[popped - 1] in g[s - 1]
    requires deg[s - 1] - 1 != 0
    ensures Releasing(g, deg[s - 1 := deg[s - 1] - 1], emitted, popped, s + 1)
  {
    PoppedNode(g, emitted, popped, g[s - 1]);
    CountsStep(g, deg, emitted[..popped], emitted[..popped - 1], s);
  }

  /** A successor whose count reaches zero joins the queue, with all its
      predecessors popped. */
  lemma VisitQueue(g: Graph, deg: seq<int>, emitted: seq<nat>, popped: nat, s: nat)
    requires Releasing(g, deg, emitted, popped, s) && s <= |g| && emitted[popped - 1] in g[s - 1]
    requires deg[s - 1] - 1 == 0
    ensures Releasing(g, deg[s - 1 := deg[s - 1] - 1], emitted + [s], popped, s + 1)
  {
    PoppedNode(g, emitted, popped, g[s - 1]);
    CountsStep(g, deg, emitted[..popped], emitted[..popped - 1], s);
    AllSeen(emitted[..popped], g[s - 1]);
    ShapeAppend(g, emitted, popped, s);
    var emitted' := emitted + [s];
    assert emitted'[..popped] == emitted[..popped];
    assert emitted'[..popped - 1] == emitted[..popped - 1];
  }

  /** The body of `for successor in ...` for successor `s`: if the popped
      node is among its predecessors its count drops by one, and it is
      queued when the count reaches zero. */
  method Visit(g: Graph, deg: seq<int>, emitted: seq<nat>, popped: nat, s: nat)
      returns (deg': seq<int>, emitted': seq<nat>)
    requires Releasing(g, deg, emitted, popped, s) && s <= |g|
    ensures Releasing(g, deg', emitted', popped, s + 1)
    ensures emitted <= emitted'
  {
    var node := emitted[popped - 1];
    deg', emitted' := deg, emitted;
    if node in g[s - 1] {
      deg' := deg[s - 1 := deg[s - 1] - 1];
      if deg'[s - 1] == 0 {
        VisitQueue(g, deg, emitted, popped, s);
        emitted' := emitted + [s];
      } else {
        VisitCount(g, deg, emitted, popped, s);
      }
    } else {
      VisitSkip(g, deg, emitted, popped, s);
    }
  }

  lemma PrefixTrans(a: seq<nat>, b: seq<nat>, c: seq<nat>)
    requires a <= b && b <= c
    ensures a <= c
  {
    assert a == b[..|a|] && b == c[..|b|];
  }

  /** Appending to `emitted` keeps what was known of its earlier entries. */
  lemma PredsBeforeExtend(g: Graph, emitted: seq<nat>, emitted': seq<nat>, i: nat, bound: nat)
    requires emitted <= emitted' && i < |emitted| && bound <= |emitted|
    requires PredsBefore(g, emitted, i, bound)
    ensures PredsBefore(g, emitted', i, bound)
  {
    assert emitted'[..bound] == emitted[..bound];
  }

  /** One turn of the `while queue` loop after `emitted[head]` was popped
      (genetic_algorithm.py:101-106): every successor, in key order, loses
      one from its count and joins the queue at zero. */
  method Release(g: Graph, deg: seq<int>, emitted: seq<nat>, head: nat)
      returns (deg': seq<int>, emitted': seq<nat>)
    requires KahnInvariant(g, deg, emitted, head) && head < |emitted|
    ensures KahnInvariant(g, deg', emitted', head + 1)
    ensures emitted <= emitted'
  {
    ReleaseStart(g, deg, emitted, head);
    deg', emitted' := deg, emitted;
    var s := 1;
    while s <= |g|
      invariant Releasing(g, deg', emitted', head + 1, s)
      invariant emitted <= emitted'
      decreases |g| + 1 - s
    {
      deg', emitted' := Visit(g, deg', emitted', head + 1, s);
      s := s + 1;
    }
    ReleaseEnd(g, deg', emitted', head + 1);
  }

  /** The loop invariant holds of the initial queue. */
  lemma KahnStart(g: Graph, deg: seq<int>)
    requires |deg| == |g| && forall i :: 0 <= i < |g| ==> deg[i] == |g[i]|
    ensures KahnInvariant(g, deg, Sources(g), 0)
  {
    assert forall i :: 0 <= i < |g| ==> Seen([], g[i]) == {};
  }

  /** Popped and queued nodes are distinct nodes of the graph, so there are
      at most as many as the graph has. */
  lemma KahnBound(g: Graph, deg: seq<int>, emitted: seq<nat>, head: nat)
    requires KahnInvariant(g, deg, emitted, head)
    ensures |emitted| <= |g|
  {
    DistinctInRange(emitted, |g|);
  }

  /** An exhausted queue after all nodes were popped leaves a topological
      order led by the initial sources. */
  lemma KahnSorted(g: Graph, deg: seq<int>, order: seq<nat>)
    requires KahnInvariant(g, deg, order, |order|) && |order| == |g|
    ensures IsTopoOrder(g, order) && Sources(g) <= order
  {
  }

  /** An exhausted queue before all nodes were popped leaves, for distinct
      predecessor lists, a graph no ordering can satisfy. */
  lemma KahnStuck(g: Graph, deg: seq<int>, order: seq<nat>)
    requires KahnInvariant(g, deg, order, |order|) && |order| < |g| && DistinctPreds(g)
    ensures forall t :: !IsTopoOrder(g, t)
  {
    assert order[..|order|] == order;
    StuckBlocksEveryOrder(g, order);
  }

  /** `topological_sort(dependencies)`. */
  method TopologicalSort(g: Graph) returns (r: SortResult)
    ensures r.Sorted? ==> IsTopoOrder(g, r.order)
    ensures r.Sorted? ==> Sources(g) <= r.order
    ensures r.CycleDetected? && DistinctPreds(g) ==> forall t :: !IsTopoOrder(g, t)
  {
    var deg, emitted := InitialQueue(g);
    var head := 0;
    KahnStart(g, deg);
    KahnBound(g, deg, emitted, head);
    while head < |emitted|
      invariant KahnInvariant(g, deg, emitted, head)
      invariant |emitted| <= |g|
      decreases |g| - head
    {
      deg, emitted := Release(g, deg, emitted, head);
      head := head + 1;
      KahnBound(g, deg, emitted, head);
    }
    var order := emitted;
    if |order| == |g| {
      KahnSorted(g, deg, order);
      r := Sorted(order);
    } else {
      r := CycleDetected;
      if DistinctPreds(g) {
        KahnStuck(g, deg, order);
      }
    }
  }
}

=== FILE: wrappers.dfy ===
/** Failure-carrying results for the operations whose source raises or throws. */
module Wrappers {

  datatype Option<+T> = None | Some(value: T)

  /** `Err` stands for the exception the source raises on that input. */
  datatype Result<+T, +E> = Ok(value: T) | Err(error: E)
}
